=== FILE: README.md ===
# clawhuddle skills, credentials and platform routes in Dafny

This project models the parts of clawhuddle that decide which skills a user
gets and which credentials a gateway uses. clawhuddle is a control plane that
runs one AI-assistant gateway per organisation member. The model covers:

- **Skill installer** (`apps/api/src/services/skill-installer.ts`):
  - the content-addressed checkout directory of a git URL;
  - clone-or-pull, with git as an oracle;
  - the repository walk that finds `SKILL.md` directories;
  - the per-user installer with its path-containment guard.
- **Skill routes**:
  - the admin registry: scan, import, create, update and delete, plus the slug rule;
  - the per-organisation member routes: list, batch toggle and single toggle;
  - the legacy header-authenticated user routes.
- **Credential store** (`apps/api/src/routes/org/api-keys.ts`):
  - base64 storage, following section 4 of RFC 4648;
  - masking and credential-type normalisation;
  - set, delete and list, and the two lookups the gateway uses.
- **Client-side decisions** of the API-key form: the credential tabs, the type
  sent, and the input and OAuth JSON checks.
- **Super-admin routes**: the email guard, tier changes, organisation
  deletion, and the access allowlist.
- **Gateway configuration** builder (`openclaw-config.ts`).

Modelling choices:

- Paths are lists of segments. `path.resolve` folds `.` and `..`. The
  installer's string-prefix guard is stated on the rendered strings and proved
  to be segment-prefix containment.
- A checkout is a directory tree whose entries keep the order `readdirSync`
  gives.
- Git is a function from the command issued to its exit status, its stderr and
  the resulting tree. SHA-256 is a configured function into 64-character hex
  strings.
- Database tables are maps keyed by primary key. The `api_keys` table is a
  sequence in insertion order, so that a `.get` returns the first matching row.
- Fresh uuids are parameters. The skills routes require a new skill's id not
  to be in the skills table. The API-key set route and the access-rule route
  take the id with no freshness requirement; see "## Left out".
- Redeploys, auth-profile syncs and gateway deletion are recorded as effects.
  The model proves that a redeploy's outcome never changes a reply or the
  stored toggles.
- The clock is a parameter.

## Model

| member | source | states |
|---|---|---|
| `Shared.ParseTier` | packages/shared/src/index.ts:3 | a request string names a tier exactly when it is one of the three tier names, and names that tier |
| `Shared.ParseTierName` | packages/shared/src/index.ts:3 | every tier's name parses back to the same tier |
| `Shared.ProviderIds` | packages/shared/src/index.ts:143 | `PROVIDER_IDS` lists the ids of `PROVIDERS` in the same order |
| `Shared.FindProvider` | packages/shared/src/index.ts:135-143 | a provider is found exactly for a listed id, and the one found is a table entry with that id |
| `Shared.ProviderIdsDistinct` | packages/shared/src/index.ts:135-141 | no two providers share an id |
| `Shared.OnlyCodexLacksEnvVar` | packages/shared/src/index.ts:136-140 | openai-codex is the only provider with an empty environment variable, and it supports OAuth |
| `Shared.DefaultModelsQualified` | packages/shared/src/index.ts:136-140 | each provider's default model starts with its id and `/` |
| `JsText.Trim` | apps/api/src/routes/super-admin.ts:101 | `trim` returns a slice of the input with only whitespace removed on either side, and the slice neither starts nor ends with whitespace |
| `JsText.TrimEmpty` | apps/web/components/admin/api-key-form.tsx:59-60 | a string trims to empty exactly when it is all whitespace |
| `JsText.TrimLower` | apps/api/src/routes/super-admin.ts:101 | lower-casing then trimming equals trimming then lower-casing |
| `PosixPath.Split` | apps/api/src/routes/admin/skills.ts:50 | `split('/')` yields at least one piece and no piece holds a separator |
| `PosixPath.JoinSplit` | apps/api/src/routes/admin/skills.ts:50 | joining the pieces of a split restores the string |
| `PosixPath.Resolve` | apps/api/src/services/skill-installer.ts:81 | resolving against an absolute normalised directory yields an absolute normalised path |
| `PosixPath.ResolveJoined` | apps/api/src/services/skill-installer.ts:81 | resolving a joined list of plain names descends into exactly those names |
| `PosixPath.GuardIsContainment` | apps/api/src/services/skill-installer.ts:84 | the string test "equal to the checkout or prefixed by checkout plus separator" accepts exactly the paths inside the checkout |
| `PosixPath.RenderInjective` | apps/api/src/services/skill-installer.ts:84 | distinct normalised paths print as distinct strings |
| `PosixPath.Basename` | apps/api/src/services/skill-installer.ts:95 | `path.basename` never contains a separator |
| `FileTree.IndexOf` | apps/api/src/services/skill-installer.ts:40-41 | the position found is the first entry with that name, or past the end when there is none |
| `FileTree.Child` | apps/api/src/services/skill-installer.ts:46 | an entry is reached exactly when a directory lists that name |
| `SkillInstaller.CacheKey` | apps/api/src/services/skill-installer.ts:12 | the cache key is 16 characters long and is a plain directory name |
| `SkillInstaller.RepoDir` | apps/api/src/services/skill-installer.ts:11-14 | the checkout is a direct child of `<data>/skill-repos`, named by the URL's cache key |
| `SkillInstaller.RepoDirSharedIffSameKey` | apps/api/src/services/skill-installer.ts:11-14 | two URLs share a checkout exactly when their cache keys are equal, so equal URLs always share one |
| `SkillInstaller.CloneOrUpdateRepo` | apps/api/src/services/skill-installer.ts:16-33 | an invalid URL fails with no git command. Otherwise it pulls when `.git` exists and shallow-clones if not. It succeeds exactly on exit status 0, returns the checkout path, and records the new tree only on success |
| `SkillInstaller.WalkFromSound` | apps/api/src/services/skill-installer.ts:39-54 | every result of the walk names a marker directory below the start, reached through no pruned directory, named by its last segment |
| `SkillInstaller.WalkFromComplete` | apps/api/src/services/skill-installer.ts:39-54 | every marker directory below the entries still to visit is reported, including ones nested in reported directories |
| `SkillInstaller.WalkReportsExactly` | apps/api/src/services/skill-installer.ts:39-54 | the walk reports a directory exactly when it holds `SKILL.md`, is not under `.git` or `node_modules`, and is named by its last segment |
| `SkillInstaller.ScanRepoForSkills` | apps/api/src/services/skill-installer.ts:35-66 | a scan fails exactly when the sync fails, with the sync's error |
| `SkillInstaller.ScanListsExactly` | apps/api/src/services/skill-installer.ts:35-66 | after a successful scan, a relative path (pieces without `/`) is listed, named by its last piece, exactly when it is a marker directory of the synced checkout reached through no pruned directory |
| `SkillInstaller.ScanRootEntry` | apps/api/src/services/skill-installer.ts:56-64 | `"."` is reported exactly when the checkout root holds `SKILL.md`, and then it comes first, named by the cache key |
| `SkillInstaller.ScannedPathsPassGuard` | apps/api/src/services/skill-installer.ts:49 | every scanned `git_path` resolves inside its checkout, passes the installer's guard, and names a marker directory |
| `SkillInstaller.InstallOne` | apps/api/src/services/skill-installer.ts:78-98 | a skill without `git_url` or `git_path` is skipped. The step aborts exactly when the skill has a source and its sync fails. It copies exactly when the sync succeeds, the resolved source is inside the checkout and exists there, and (with the name check) the basename is a plain name. It skips as missing exactly when the source is inside but absent. A copy takes the tree at the source and puts it in the skills directory under the basename |
| `SkillInstaller.TraceVisits` | apps/api/src/services/skill-installer.ts:77-99 | in the reference run each skill, in list order, meets the step one iteration takes from the repo cache the previous skill left |
| `SkillInstaller.InstallLoop` | apps/api/src/services/skill-installer.ts:77-99 | the copies are exactly those of the skills that copy before the first failed sync, in list order. The error is that sync's error, and there is none when no sync fails. Every copy is made for some input skill |
| `SkillInstaller.InstallableIsCopied` | apps/api/src/services/skill-installer.ts:77-99 | a skill met before the first failed sync is copied, into the outcome, exactly when it is installable from the cache it meets |
| `SkillInstaller.InstallSkillsForUserAsWritten` | apps/api/src/services/skill-installer.ts:68-100 | the installer as written copies into the recreated skills directory. Its copies are exactly those of the skills that copy before the first failed sync, in order, and its error is that sync's |
| `SkillInstaller.InstallSkillsForUser` | apps/api/src/services/skill-installer.ts:68-100 | every copy lands directly inside the skills directory, named by the basename of some input skill's `git_path`. The copies are exactly those of the skills that copy before the first failed sync, in order, and the error is that sync's |
| `SkillInstaller.InstalledNamesAreBasenames` | apps/api/src/services/skill-installer.ts:69-98 | after an install by the corrected installer, the skills directory holds only the basenames of input skills that have a source |
| `SkillInstaller.ReinstallIsIdempotent` | apps/api/src/services/skill-installer.ts:71-98 | with the remotes unchanged, installing the same list again, against whatever checkouts are cached, makes the same copies and fails alike, for the corrected installer and for the installer as written |
| `SkillInstaller.TraversalSkippedIffOutside` | apps/api/src/services/skill-installer.ts:81-87 | a skill is skipped for traversal exactly when its resolved source is outside its checkout |
| `SkillInstaller.ParentPathSkipped` | apps/api/src/services/skill-installer.ts:83-87 | `../name`, for a sibling of the checkout, is always skipped |
| `SkillInstaller.DotPathCopiesOntoSkillsDir` | apps/api/src/services/skill-installer.ts:94-98 | as written, `git_path` `"."` copies the whole checkout onto the skills directory itself |
| `SkillInstaller.DotPathSkipped` | apps/api/src/services/skill-installer.ts:94-98 | with the name check, `git_path` `"."` copies nothing |
| `SkillInstaller.ParentNameEscapesSkillsDir` | apps/api/src/services/skill-installer.ts:81-98 | as written, `git_path` `"x/.."` passes the guard and copies the checkout onto `<data>/gateways/<user>`, outside the skills directory |
| `SkillInstaller.ParentNameSkipped` | apps/api/src/services/skill-installer.ts:81-98 | with the name check, `git_path` `"x/.."` copies nothing |
| `SkillRegistry.Slug` | apps/api/src/routes/admin/skills.ts:50 | the slug is empty only for an empty `git_path`; otherwise it is the whole `git_path` or one of its `/`-pieces without a separator |
| `SkillRegistry.LastNonEmpty` | apps/api/src/routes/admin/skills.ts:50 | the piece chosen is non-empty and every later piece is empty, and there is one exactly when some piece is non-empty |
| `SkillRegistry.SlugIsBasename` | apps/api/src/routes/admin/skills.ts:75-76 | the slug equals the installer's directory name exactly when `git_path` is empty or has a character other than `/` |
| `SkillRegistry.SlugTrailingSlash` | apps/api/src/routes/admin/skills.ts:50 | a trailing separator is ignored: `a/b/c/` gives `c` |
| `SkillRegistry.SlugNested` | apps/api/src/routes/admin/skills.ts:50 | a nested path gives its last directory: `skills/pdf` gives `pdf` |
| `SkillRegistry.SlugDotAndEmpty` | apps/api/src/routes/admin/skills.ts:50 | `.` gives `.` and the empty path gives the empty slug |
| `SkillRegistry.Upsert` | apps/api/src/routes/org/user-skills.ts:119-122 | the upsert sets exactly the one (user, skill) toggle and keeps every other toggle and every skill |
| `SkillRegistry.UpsertAssigns` | apps/api/src/routes/user/skills.ts:72-75 | after an upsert a non-mandatory skill is assigned exactly when the toggle was set on, and other users' assignments do not move |
| `AdminSkills.ScanRoute` | apps/api/src/routes/admin/skills.ts:16-32 | a missing or unparsable URL gives 400. Otherwise the reply is the scan's results, or 500 with the scanner's message |
| `AdminSkills.ScanNonGitUrl` | apps/api/src/routes/admin/skills.ts:26-31 | a parsable URL that is not a git URL gives 500 `Invalid git URL: ...`, and git is never invoked |
| `AdminSkills.ImportLoop` | apps/api/src/routes/admin/skills.ts:44-57 | import keeps old rows and toggles. Each new row is fresh, in `created`, and made from an entry. After it, every entry's source is taken, and unique sources stay unique |
| `AdminSkills.ImportRoute` | apps/api/src/routes/admin/skills.ts:35-60 | a missing URL or empty list gives 400 with nothing written. Otherwise 201, with created rows that are optional, have no description, and carry the slug of their `git_path` |
| `AdminSkills.ImportTwiceCreatesNothing` | apps/api/src/routes/admin/skills.ts:46-47 | importing the same entries again creates nothing and changes nothing |
| `AdminSkills.AllTakenSkips` | apps/api/src/routes/admin/skills.ts:46-47 | entries whose source already exists are all skipped |
| `AdminSkills.RepeatedEntryImportedOnce` | apps/api/src/routes/admin/skills.ts:44-57 | an entry repeated in one batch is imported once |
| `AdminSkills.CreateRoute` | apps/api/src/routes/admin/skills.ts:63-86 | a missing field or unparsable URL gives 400 with nothing written. Otherwise 201 with a row that defaults to optional, stores an empty description as null, and carries the slug |
| `AdminSkills.CreatePreservesInvariants` | apps/api/src/routes/admin/skills.ts:75-82 | creation keeps every row's path the slug of its `git_path`, rows keyed by id, and toggles referring to skills |
| `AdminSkills.Patch` | apps/api/src/routes/admin/skills.ts:104-112 | only fields present in the body change, and a new `git_path` also rewrites `path` to its slug |
| `AdminSkills.UpdateRoute` | apps/api/src/routes/admin/skills.ts:89-122 | an unknown id gives 404 with nothing changed; otherwise only that row changes, to its patch |
| `AdminSkills.UpdateEmptyAndIdempotent` | apps/api/src/routes/admin/skills.ts:114-117 | an empty body leaves the tables unchanged, and repeating an update changes nothing more |
| `AdminSkills.UpdatePreservesInvariants` | apps/api/src/routes/admin/skills.ts:107-112 | updates keep every row's path the slug of its `git_path` |
| `AdminSkills.DeleteRoute` | apps/api/src/routes/admin/skills.ts:125-136 | an unknown id gives 404. Otherwise exactly that skill and its toggles are removed, and nothing else changes |
| `AdminSkills.DeleteCascades` | apps/api/src/routes/admin/skills.ts:133-134 | after a delete, no toggle refers to a missing skill, and a second delete gives 404 |
| `OrgUserSkills.MaybeRedeploy` | apps/api/src/routes/org/user-skills.ts:81-88 | a redeploy is attempted exactly when the member's gateway has a port and is running or deploying |
| `OrgUserSkills.ListSkills` | apps/api/src/routes/org/user-skills.ts:12-35 | the listing holds exactly the organisation's enabled skills. Each is assigned exactly when it is mandatory or the user has an enabled toggle for it |
| `OrgUserSkills.Validate` | apps/api/src/routes/org/user-skills.ts:53-66 | validation passes exactly when every update names a toggleable skill; otherwise it reports the first update that does not |
| `OrgUserSkills.LastValue` | apps/api/src/routes/org/user-skills.ts:73-77 | a value is found for an id exactly when some update names it, and it is the value of the last update naming it |
| `OrgUserSkills.ApplyToggles` | apps/api/src/routes/org/user-skills.ts:69-78 | after the upserts, each named skill's toggle holds the value of its last update, and every other toggle is unchanged |
| `OrgUserSkills.BatchRoute` | apps/api/src/routes/org/user-skills.ts:38-92 | a missing or empty list gives 400. Any untoggleable id rejects the whole batch with nothing written, and the reply is `Validate`'s error for the first such id (404 or 400). Otherwise every toggle is applied, the reply counts the updates, and a redeploy happens only for a live gateway |
| `OrgUserSkills.BatchThenList` | apps/api/src/routes/org/user-skills.ts:69-78 | after a batch, the listing shows each named skill assigned as its last requested value and every other skill as before |
| `OrgUserSkills.ToggleRoute` | apps/api/src/routes/org/user-skills.ts:95-136 | a missing, disabled or foreign skill gives 404 and a mandatory one 400, with nothing written. Otherwise exactly one upsert is made, and a redeploy happens only for a live gateway |
| `OrgUserSkills.ToggleThenList` | apps/api/src/routes/org/user-skills.ts:119-122 | after a toggle, the listing shows the skill assigned as requested |
| `OrgUserSkills.ToggleEachIsApply` | apps/api/src/routes/org/user-skills.ts:73-77 | upserting the updates one at a time equals applying them as a batch |
| `OrgUserSkills.BatchIsSequenceOfToggles` | apps/api/src/routes/org/user-skills.ts:58-78 | a successful batch leaves the same tables as the single-toggle route applied to each update in turn |
| `OrgUserSkills.RedeployFailureIgnored` | apps/api/src/routes/org/user-skills.ts:83-87 | whether the redeploy succeeds never changes the reply or the saved toggles |
| `UserSkills.Caller` | apps/api/src/routes/user/skills.ts:13-22 | a missing `x-user-id` gives 401 and an unknown user 404; otherwise the caller is the header's user |
| `UserSkills.ListRoute` | apps/api/src/routes/user/skills.ts:12-42 | the listing holds every enabled skill of any organisation. Each is assigned exactly when it is mandatory or the user has an enabled toggle for it |
| `UserSkills.ToggleRoute` | apps/api/src/routes/user/skills.ts:45-88 | 401 and 404 come first for the caller; a missing or disabled skill gives 404 and a mandatory one 400, with nothing written. Otherwise one upsert and a redeploy only for a live gateway |
| `UserSkills.ToggleThenList` | apps/api/src/routes/user/skills.ts:72-75 | after a toggle, the user's listing shows the skill assigned as requested |
| `UserSkills.ToggleLeavesOthers` | apps/api/src/routes/user/skills.ts:72-75 | a toggle never changes another user's listing |
| `UserSkills.RedeployFailureIgnored` | apps/api/src/routes/user/skills.ts:78-84 | whether the redeploy succeeds never changes the reply or the saved toggles |
| `Base64.ValueOfCharOf` | apps/api/src/routes/org/api-keys.ts:10-16 | each alphabet character decodes to the six-bit value it encodes |
| `Base64.Encode` | apps/api/src/routes/org/api-keys.ts:10-12 | the encoding has four characters per started group of three bytes, each from the alphabet or `=` |
| `Base64.DecodeEncode` | apps/api/src/routes/org/api-keys.ts:10-16 | decoding an encoding gives back the bytes |
| `Base64.EncodeInjective` | apps/api/src/routes/org/api-keys.ts:10-12 | distinct byte strings have distinct encodings |
| `Base64.Examples` | apps/api/src/routes/org/api-keys.ts:10-12 | the test vectors of section 10 of RFC 4648 for `f`, `fo` and `foo` |
| `ApiKeys.DecodeEncodeKey` | apps/api/src/routes/org/api-keys.ts:10-16 | `decodeKey(encodeKey(k)) = k` |
| `ApiKeys.MaskKey` | apps/api/src/routes/org/api-keys.ts:18-21 | a key of at most 8 characters masks to `****`. A longer one masks to its first four characters, `...` and its last four, eleven in all |
| `ApiKeys.MaskHidesMiddle` | apps/api/src/routes/org/api-keys.ts:18-21 | long keys that agree on their first and last four characters mask alike |
| `ApiKeys.NormalizeCredentialType` | apps/api/src/routes/org/api-keys.ts:57 | the stored type is token exactly for `token`, oauth exactly for `oauth`, and api_key otherwise |
| `ApiKeys.NormalizeKnownName` | apps/api/src/routes/org/api-keys.ts:57 | every credential type's name normalises to itself |
| `ApiKeys.ListRoute` | apps/api/src/routes/org/api-keys.ts:25-42 | the listing has one entry per row of the organisation. Each shows the mask of the decoded key and never the stored value, and defaults the credential type |
| `ApiKeys.ListedMaskIsKeyMask` | apps/api/src/routes/org/api-keys.ts:35-40 | a key stored by the set route lists with the mask of the key itself |
| `ApiKeys.DropDefault` | apps/api/src/routes/org/api-keys.ts:61 | the delete removes exactly the default rows of that organisation and provider, keeping the rest and the one-default invariant |
| `ApiKeys.SetRoute` | apps/api/src/routes/org/api-keys.ts:46-74 | a missing provider or key, or an unknown provider, gives 400 with nothing written. Otherwise it replaces the default for that pair, appends the encoded key, syncs the organisation and replies 201 with the mask |
| `ApiKeys.SetKeepsOneDefault` | apps/api/src/routes/org/api-keys.ts:61-66 | after a set, each (organisation, provider) still has at most one default, and every stored value still decodes |
| `ApiKeys.GetOrgApiKey` | apps/api/src/routes/org/api-keys.ts:91-97 | the lookup gives the decoded key of the first default row for the organisation and provider, and nothing when there is none |
| `ApiKeys.SetThenGet` | apps/api/src/routes/org/api-keys.ts:61-66 | after setting key `k` for a provider in an organisation, the gateway lookup returns `k` |
| `ApiKeys.GetOrgAllApiKeys` | apps/api/src/routes/org/api-keys.ts:100-110 | the list holds exactly the decoded default keys of the organisation, with the credential type defaulted |
| `ApiKeys.SetThenGetAll` | apps/api/src/routes/org/api-keys.ts:100-110 | after a set, the full list carries the new key under its provider with the stored type |
| `ApiKeys.DeleteRoute` | apps/api/src/routes/org/api-keys.ts:77-87 | only rows matching both the id and the organisation are removed, and the reply reports success either way |
| `ApiKeys.DeleteScopedToOrg` | apps/api/src/routes/org/api-keys.ts:83 | another organisation's key survives a delete naming its id |
| `ApiKeyForm.Tabs` | apps/web/components/admin/api-key-form.tsx:29-36 | an OAuth-only provider gets only OAuth. Any other gets API key first, a setup token exactly when supported, and OAuth exactly when supported. The list is never empty and has no repeats |
| `ApiKeyForm.TabsOfProviders` | apps/web/components/admin/api-key-form.tsx:29-36 | anthropic gets API key and setup token, openai-codex only OAuth, and every other provider only API key |
| `ApiKeyForm.Property` | apps/web/components/admin/api-key-form.tsx:70-71 | a property read finds a member of that name in an object, and finds nothing when there is none or the value is not an object |
| `ApiKeyForm.ChosenType` | apps/web/components/admin/api-key-form.tsx:61-63 | the selected tab is sent if there is one, otherwise the provider's first tab, or API key for an unknown provider |
| `ApiKeyForm.SaveKey` | apps/web/components/admin/api-key-form.tsx:58-79 | nothing happens exactly for missing or all-whitespace input. What is sent is the trimmed key with the chosen type. An OAuth key is sent only if it parses and its token holder has truthy access and refresh tokens. An OAuth key is rejected with the invalid-JSON message exactly when it does not parse or parses to `null`, and with the invalid-auth.json message exactly when its token holder lacks a truthy token |
| `ApiKeyForm.OAuthChosenIff` | apps/web/components/admin/api-key-form.tsx:61-66 | the input is validated as auth.json exactly when the OAuth tab is selected, or nothing is selected for openai-codex, whose only tab is OAuth |
| `ApiKeyForm.OAuthAccepted` | apps/web/components/admin/api-key-form.tsx:66-79 | when the chosen type is OAuth (selected, or openai-codex's default tab), JSON with truthy tokens, at the top level or under `tokens`, is sent |
| `ApiKeyForm.OAuthNullRejected` | apps/web/components/admin/api-key-form.tsx:68-77 | when the chosen type is OAuth, JSON `null` is reported as invalid JSON, since reading `tokens` of it throws |
| `ApiKeyForm.SentIsAccepted` | apps/web/components/admin/api-key-form.tsx:85-88 | every request the form sends for a known provider is accepted by the set route, which stores the type the form chose |
| `SuperAdmin.Denied` | apps/api/src/routes/super-admin.ts:12-16 | a refused caller gets 403 and nothing changes |
| `SuperAdmin.GuardExact` | apps/api/src/routes/super-admin.ts:13 | with a configured email only that email passes; with none, only a caller without an email passes |
| `SuperAdmin.CheckRoute` | apps/api/src/routes/super-admin.ts:73-75 | the check answers true exactly for callers the guard admits |
| `SuperAdmin.TierNamesAreTiers` | apps/api/src/routes/super-admin.ts:37 | the accepted tier strings are exactly the names of `OrgTier` |
| `SuperAdmin.TierRoute` | apps/api/src/routes/super-admin.ts:31-51 | an invalid tier gives 400 and an unknown organisation 404, with no change. Otherwise only that organisation's tier changes, to the named tier |
| `SuperAdmin.TierIdempotent` | apps/api/src/routes/super-admin.ts:47 | setting a tier twice equals setting it once |
| `SuperAdmin.DeleteOrgRoute` | apps/api/src/routes/super-admin.ts:54-70 | an unknown organisation gives 404. Otherwise its gateways are deleted before its data is purged, and only it disappears |
| `SuperAdmin.DeleteOrgThenGone` | apps/api/src/routes/super-admin.ts:60-66 | a deleted organisation gives 404 on a second delete, and its tier can no longer be changed |
| `SuperAdmin.Normalize` | apps/api/src/routes/super-admin.ts:101 | the stored value is the trimmed, lower-cased input |
| `SuperAdmin.NormalizeIdempotent` | apps/api/src/routes/super-admin.ts:101 | normalising a stored value changes nothing |
| `SuperAdmin.AddRuleRoute` | apps/api/src/routes/super-admin.ts:87-115 | a missing type or value, or a type other than domain or email, gives 400. For a valid request, the route succeeds exactly when the normalised rule does not clash under the unique constraint: a clash gives 409 "Rule already exists" with nothing added, and otherwise exactly the normalised rule is added and returned |
| `SuperAdmin.AddTwiceConflicts` | apps/api/src/routes/super-admin.ts:101-110 | adding a stored rule again, in any case and with any surrounding whitespace, gives 409 and adds nothing |
| `SuperAdmin.BlankValueStoredEmpty` | apps/api/src/routes/super-admin.ts:92-104 | a whitespace-only value passes the presence check and is stored as the empty string |
| `SuperAdmin.DeleteRuleRoute` | apps/api/src/routes/super-admin.ts:118-132 | an unknown rule gives 404; otherwise exactly that rule is removed |
| `SuperAdmin.AddThenDelete` | apps/api/src/routes/super-admin.ts:103-129 | adding a rule and then deleting it restores the platform state |
| `OpenClawConfig.Generate` | apps/api/src/services/openclaw-config.ts:23-54 | the config carries the given port and token and the fixed settings. `skills` is absent exactly for no skills or an empty list, and otherwise lists each skill's path in input order |
| `OpenClawConfig.OnlyClockDiffers` | apps/api/src/services/openclaw-config.ts:31-34 | configs built from the same inputs differ only in the time stamp |
| `OpenClawConfig.EntriesNameInstalledDirs` | apps/api/src/services/openclaw-config.ts:49-51 | for a slug-consistent row whose `git_path` has a non-`/` character, the config entry names the directory the installer creates |

## Left out

- I/O:
  - Real git, `spawnSync`, its timeouts and `stdio`, and `fs.*` are modelled as a git oracle and an abstract tree.
  - `rmSync`/`mkdirSync` of the skills directory are modelled by every install starting from no copies, so nothing from an earlier install survives.
  - `cpSync` is recorded as a copy of a source tree to a destination. Merging two copies onto the same destination is not modelled.
  - Warnings printed with `console.warn` are not modelled.
- SHA-256 is a configured function and is not computed.
- Symbolic links in a checkout are not modelled; `path.resolve` is a purely textual fold.
- `DATA_DIR` is taken to be an absolute, normalised directory. A relative `DATA_DIR`, which `path.join` would keep relative, is not modelled.
- WHATWG `new URL` parsing is an opaque predicate passed to the admin routes.
- The repeated `walk` recursion over a live filesystem is a pure function over the tree. Errors from `readdirSync` are not modelled.
- Scan results come from the walk in `readdirSync` order, depth first. The `name` of the root entry is the checkout directory's name, which is the cache key.
- The listing routes do not model `ORDER BY`:
  - `GET /api/admin/skills` is just the table and has no member;
  - the organisation and user skill listings are maps keyed by skill id;
  - the API-key listing keeps table order.
- Timestamps (`created_at`, `lastTouchedAt`) are not modelled. The clock is a parameter of `OpenClawConfig.Generate`.
- SkillInstaller.InstallSkillsForUser: a root-level skill (`git_path` `"."`) is skipped, not installed. Giving it a plain directory name (such as the cache key the scanner names it by) is a choice the code does not make.
- uuids are parameters. Only the skills routes require them to be fresh.
  `ApiKeys.SetRoute` appends a row whatever its id, and `SuperAdmin.AddRuleRoute`
  writes its rule at the given id, so a repeated id is not excluded there.
- Database constraints the schema may enforce are not modelled; the schema is not part of this model. In particular:
  - the create route has no duplicate check;
  - import skips a duplicate (git_url, git_path) whatever the organisation.
- The super-admin unique constraint is a `Clash` parameter. Other database errors, which the route rethrows, are not modelled.
- `purgeOrgFromDb` and `deleteOrgGateways` are not part of this model. They are recorded as effects, and the purge is modelled as removing the organisation row.
- The organisation listing with member counts (`GET /api/super-admin/orgs`) and the access-rule listing are not modelled. They are plain queries.
- `syncAuthProfiles` and `redeployGateway` are recorded, not executed:
  - the set and delete key routes return the organisation to re-sync;
  - the toggle routes return whether a redeploy was attempted and its outcome, which is a parameter.
- UTF-8 conversion of keys is a pair of functions, with the round trip assumed only where stated.
- `ApiKeys.DecodeKey` returns nothing for text that is not canonical base64, where Node's lenient decoder would return some bytes. Only values written by `encodeKey` are read back in the model.
- `ApiKeys.MaskKey` counts characters (code points), while JavaScript's `length` and `slice` count UTF-16 code units. Masks differ for keys outside the Basic Multilingual Plane.
- `JsText.Lower` lower-cases ASCII letters only, while `toLowerCase` also maps other scripts. The allowlist normalisation is modelled for ASCII input.
- JSON numbers are reals, and JSON text parsing is a parameter (`JSON.parse`, with no result when it throws).
- The `defaultModel` the form computes is not modelled. `ProviderConfig` has no `models` field, so the value is always `undefined` and is dropped from the request body.
- The form's rendering, toasts, refresh, delete and model-update handlers are not modelled.
- `AdminSkills.UpdateBody` takes the PATCH body at its declared types: each field is absent or a value of its type, never `null`. The same holds for `AdminSkills.CreateBody`: its `type` is absent or a skill type, so a non-empty string that is not a skill type, which the create route stores as given through `type || 'optional'`, cannot be expressed. JSON `null` is not modelled. In the route, `git_path: null` throws at `split` (a 500), `type: null` is written as SQL `NULL`, and a non-boolean `enabled` is stored by truthiness.
- `enabled` in toggle request bodies is a boolean. A non-boolean body value would be stored by truthiness but echoed raw.
- `SkillInstaller.CloneOrUpdateRepo` leaves the repo cache unchanged when the sync fails. A failed `git pull` that altered the working tree, or a killed clone that left a `.git` behind, would change the next call's choice between pull and clone; that is not modelled.
- Concurrency is not modelled: racing clones of one URL and racing installs for one user.
- The authentication middleware that sets `currentUser`, `orgId` and `orgMember` is not part of this model. The caller's identity is a parameter.

## Findings

| source | as written | input that shows it | evidently intended | confidence | as-written member | corrected member |
|---|---|---|---|---|---|---|
| apps/api/src/services/skill-installer.ts:94-98 | the destination is `join(skillsDir, basename(git_path))`, and `basename(".")` is `"."` | a skill whose `git_path` is `"."`, which the scanner itself emits for a root `SKILL.md` | no copy lands on or above the skills directory. The corrected installer skips a skill whose directory name is not a plain name, so a root-level skill (`git_path` `"."`) is not installed | not executed | `SkillInstaller.DotPathCopiesOntoSkillsDir` | `SkillInstaller.DotPathSkipped` |
| apps/api/src/services/skill-installer.ts:81-98 | the guard checks the source path only. The destination `join(skillsDir, basename(git_path))` is unchecked | `git_path` `"x/.."`: the source resolves to the checkout and passes the guard, `basename` is `".."`, and the copy lands in `<data>/gateways/<user>` | every copy stays inside the user's skills directory | not executed | `SkillInstaller.ParentNameEscapesSkillsDir` | `SkillInstaller.ParentNameSkipped` |

The corrected installer, `SkillInstaller.InstallSkillsForUser`, skips a skill
whose directory name is not a plain name, that is, empty, `.` or `..`. Its
contract places every copy directly inside the skills directory. The as-written
installer is `SkillInstaller.InstallSkillsForUserAsWritten`. One consequence:
a repository with `SKILL.md` at its root is listed by the scanner as `"."` and
can be imported, but the corrected installer never installs it.

Two behaviours of the code are worth knowing; the model follows the code:

- Duplicate imports are detected on (git_url, git_path) alone. There is no
  organisation scope.
- Two skills with the same basename share one destination directory, so the
  skills directory is not one subdirectory per skill.

=== FILE: admin_skills.dfy ===
/** The admin skill registry routes (apps/api/src/routes/admin/skills.ts):
    scan, import, create, update and delete. Each route takes the tables and
    returns its reply with the tables afterwards. */
module AdminSkills {
  import opened Wrappers
  import opened Shared
  import opened SkillRegistry
  import SkillInstaller

  /** The reply of a route together with the tables after it. */
  datatype Response<+T> = Response(reply: Reply<T>, db: Db)

  /** WHATWG `new URL(s)` not throwing. */
  type UrlParser = string -> bool

  /** Every row whose `git_path` is set carries that path's slug as `path`. */
  predicate SlugConsistent(s: Skill) {
    s.gitPath.Some? ==> s.path == Slug(s.gitPath.value)
  }

  predicate AllSlugConsistent(db: Db) {
    forall id | id in db.skills :: SlugConsistent(db.skills[id])
  }

  /** Every toggle refers to an existing skill. */
  predicate TogglesReferToSkills(db: Db) {
    forall k | k in db.toggles :: k.1 in db.skills
  }

  // ---------------------------------------------------------------------------
  // Scan

  /** `POST /api/admin/skills/scan`. */
  function ScanRoute(cfg: SkillInstaller.Config, checkouts: SkillInstaller.Checkouts, git: SkillInstaller.Git,
                     gitUrl: Option<string>, parses: UrlParser): (r: Reply<seq<SkillInstaller.ScanResult>>)
    ensures r.Err? && r.status == 400 <==> !Truthy(gitUrl) || !parses(gitUrl.value)
    ensures Truthy(gitUrl) && parses(gitUrl.value) ==>
      var scan := SkillInstaller.ScanRepoForSkills(cfg, gitUrl.value, checkouts, git);
      && (scan.Success? ==> r == Ok(200, scan.value))
      && (scan.Failure? ==> r == Err(500, "scan_failed", scan.error.Message()))
  {
    if !Truthy(gitUrl) then Err(400, "validation", "git_url is required")
    else if !parses(gitUrl.value) then Err(400, "validation", "git_url must be a valid URL")
    else
      match SkillInstaller.ScanRepoForSkills(cfg, gitUrl.value, checkouts, git)
      case Success(results) => Ok(200, results)
      case Failure(e) => Err(500, "scan_failed", e.Message())
  }

  /** A URL that parses but is neither http(s) nor `git@` passes the route's
      own check and fails in the scanner: 500, with no git command run. */
  lemma ScanNonGitUrl(cfg: SkillInstaller.Config, checkouts: SkillInstaller.Checkouts, git: SkillInstaller.Git, url: string, parses: UrlParser)
    requires url != "" && parses(url) && !SkillInstaller.IsGitUrl(url)
    ensures ScanRoute(cfg, checkouts, git, Some(url), parses) == Err(500, "scan_failed", "Invalid git URL: " + url)
    ensures SkillInstaller.CloneOrUpdateRepo(cfg, url, checkouts, git).command.None?
  {
  }

  // ---------------------------------------------------------------------------
  // Import

  /** One element of the import request: a scan result. */
  datatype ImportEntry = ImportEntry(name: string, gitPath: string)

  /** Some row already comes from `gitPath` in the repository `url`, in any org. */
  predicate SourceTaken(db: Db, url: string, gitPath: string) {
    exists id | id in db.skills :: db.skills[id].gitUrl == Some(url) && db.skills[id].gitPath == Some(gitPath)
  }

  /** No two rows come from the same (repository, path). */
  predicate NoDuplicateSource(db: Db) {
    forall a, b | a in db.skills && b in db.skills && a != b ::
      !(db.skills[a].gitUrl.Some? && db.skills[a].gitPath.Some?
        && db.skills[a].gitUrl == db.skills[b].gitUrl && db.skills[a].gitPath == db.skills[b].gitPath)
  }

  /** Ids `uuid()` hands out: distinct and unused. */
  predicate FreshIds(db: Db, ids: seq<Id>) {
    && (forall i | 0 <= i < |ids| :: ids[i] !in db.skills)
    && (forall i, j | 0 <= i < j < |ids| :: ids[i] != ids[j])
  }

  /** The row an import inserts. */
  function ImportedRow(id: Id, e: ImportEntry, url: string): Skill {
    Skill(id, e.name, None, Optional, Slug(e.gitPath), Some(url), Some(e.gitPath), None, true)
  }

  datatype Import = Import(created: seq<Skill>, db: Db)

  /** Inserting the row for one entry under an unused id. */
  function AddImported(db: Db, id: Id, e: ImportEntry, url: string): (r: Db)
    requires id !in db.skills
    ensures r.toggles == db.toggles && r.skills == db.skills[id := ImportedRow(id, e, url)]
    ensures SourceTaken(r, url, e.gitPath)
    ensures NoDuplicateSource(db) && !SourceTaken(db, url, e.gitPath) ==> NoDuplicateSource(r)
    ensures Keyed(db) ==> Keyed(r)
  {
    var r := db.(skills := db.skills[id := ImportedRow(id, e, url)]);
    assert r.skills[id] == ImportedRow(id, e, url);
    r
  }

  function ImportLoop(db: Db, url: string, entries: seq<ImportEntry>, ids: seq<Id>): (r: Import)
    requires FreshIds(db, ids) && |ids| >= |entries|
    ensures r.db.toggles == db.toggles
    ensures forall id | id in db.skills :: id in r.db.skills && r.db.skills[id] == db.skills[id]
    ensures forall id | id in r.db.skills && id !in db.skills :: r.db.skills[id] in r.created
    ensures forall s | s in r.created ::
      && s.id !in db.skills && s.id in r.db.skills && r.db.skills[s.id] == s
      && exists e | e in entries :: s == ImportedRow(s.id, e, url)
    ensures forall e | e in entries :: SourceTaken(r.db, url, e.gitPath)
    ensures NoDuplicateSource(db) ==> NoDuplicateSource(r.db)
    ensures Keyed(db) ==> Keyed(r.db)
    decreases |entries|
  {
    if entries == [] then Import([], db)
    else
      var e := entries[0];
      if SourceTaken(db, url, e.gitPath) then
        ImportLoop(db, url, entries[1..], ids)
      else
        var s := ImportedRow(ids[0], e, url);
        var db1 := AddImported(db, ids[0], e, url);
        assert FreshIds(db1, ids[1..]);
        var rest := ImportLoop(db1, url, entries[1..], ids[1..]);
        assert SourceTaken(rest.db, url, e.gitPath) by {
          assert rest.db.skills[ids[0]] == s;
        }
        Import([s] + rest.created, rest.db)
  }

  /** `POST /api/admin/skills/import`: 201 with the rows inserted. */
  function ImportRoute(db: Db, gitUrl: Option<string>, entries: Option<seq<ImportEntry>>, ids: seq<Id>): (r: Response<seq<Skill>>)
    requires FreshIds(db, ids) && (entries.Some? ==> |ids| >= |entries.value|)
    ensures r.reply.Err? <==> !Truthy(gitUrl) || entries.None? || entries.value == []
    ensures r.reply.Err? ==> r.reply.status == 400 && r.db == db
    ensures r.reply.Ok? ==> r.reply.status == 201 && r.db.toggles == db.toggles
    ensures r.reply.Ok? ==> forall s | s in r.reply.data ::
      s.id !in db.skills && s.id in r.db.skills && r.db.skills[s.id] == s && s.kind == Optional && s.description.None? && SlugConsistent(s)
    ensures NoDuplicateSource(db) ==> NoDuplicateSource(r.db)
    ensures Keyed(db) ==> Keyed(r.db)
  {
    if !Truthy(gitUrl) || entries.None? || entries.value == [] then
      Response(Err(400, "validation", "git_url and skills are required"), db)
    else
      var imp := ImportLoop(db, gitUrl.value, entries.value, ids);
      Response(Ok(201, imp.created), imp.db)
  }

  /** Importing a batch a second time inserts nothing: every entry's source
      is taken after the first import. */
  lemma ImportTwiceCreatesNothing(db: Db, url: string, entries: seq<ImportEntry>, ids: seq<Id>, ids2: seq<Id>)
    requires FreshIds(db, ids) && |ids| >= |entries|
    requires FreshIds(ImportLoop(db, url, entries, ids).db, ids2) && |ids2| >= |entries|
    ensures var db1 := ImportLoop(db, url, entries, ids).db;
      ImportLoop(db1, url, entries, ids2) == Import([], db1)
  {
    var db1 := ImportLoop(db, url, entries, ids).db;
    AllTakenSkips(db1, url, entries, ids2);
  }

  lemma {:induction false} AllTakenSkips(db: Db, url: string, entries: seq<ImportEntry>, ids: seq<Id>)
    requires FreshIds(db, ids) && |ids| >= |entries|
    requires forall e | e in entries :: SourceTaken(db, url, e.gitPath)
    ensures ImportLoop(db, url, entries, ids) == Import([], db)
    decreases |entries|
  {
    if entries != [] {
      assert entries[0] in entries;
      AllTakenSkips(db, url, entries[1..], ids);
    }
  }

  /** Two entries with the same `git_path` in one batch give one row. */
  lemma RepeatedEntryImportedOnce(db: Db, url: string, e: ImportEntry, ids: seq<Id>)
    requires FreshIds(db, ids) && |ids| >= 2 && !SourceTaken(db, url, e.gitPath)
    ensures |ImportLoop(db, url, [e, e], ids).created| == 1
  {
    var s := ImportedRow(ids[0], e, url);
    var db1 := db.(skills := db.skills[ids[0] := s]);
    assert [e, e][1..] == [e];
    assert SourceTaken(db1, url, e.gitPath) by {
      assert db1.skills[ids[0]] == s;
    }
    assert FreshIds(db1, ids[1..]);
    AllTakenSkips(db1, url, [e], ids[1..]);
  }

  // ---------------------------------------------------------------------------
  // Create

  datatype CreateBody = CreateBody(
    name: Option<string>,
    description: Option<string>,
    kind: Option<SkillType>,
    gitUrl: Option<string>,
    gitPath: Option<string>)

  /** `POST /api/admin/skills`. */
  function CreateRoute(db: Db, body: CreateBody, parses: UrlParser, id: Id): (r: Response<Skill>)
    requires id !in db.skills
    ensures r.reply.Err? <==> !Truthy(body.name) || !Truthy(body.gitUrl) || !Truthy(body.gitPath) || !parses(body.gitUrl.value)
    ensures r.reply.Err? ==> r.reply.status == 400 && r.db == db
    ensures r.reply.Ok? ==>
      var s := r.reply.data;
      && r.reply.status == 201
      && r.db == db.(skills := db.skills[id := s])
      && s.id == id && s.name == body.name.value
      && s.gitUrl == body.gitUrl && s.gitPath == body.gitPath
      && s.kind == (if body.kind.Some? then body.kind.value else Optional)
      && s.description == (if Truthy(body.description) then body.description else None)
      && s.path == Slug(body.gitPath.value)
      && s.enabled && s.orgId.None?
  {
    if !Truthy(body.name) || !Truthy(body.gitUrl) || !Truthy(body.gitPath) then
      Response(Err(400, "validation", "name, git_url, and git_path are required"), db)
    else if !parses(body.gitUrl.value) then
      Response(Err(400, "validation", "git_url must be a valid URL"), db)
    else
      var s := Skill(id, body.name.value, if Truthy(body.description) then body.description else None,
        if body.kind.Some? then body.kind.value else Optional,
        Slug(body.gitPath.value), body.gitUrl, body.gitPath, None, true);
      Response(Ok(201, s), db.(skills := db.skills[id := s]))
  }

  /** Create keeps every row's `path` the slug of its `git_path`, every row
      under its own id, and every toggle pointing at an existing skill. */
  lemma CreatePreservesInvariants(db: Db, body: CreateBody, parses: UrlParser, id: Id)
    requires id !in db.skills && AllSlugConsistent(db) && Keyed(db) && TogglesReferToSkills(db)
    ensures AllSlugConsistent(CreateRoute(db, body, parses, id).db)
    ensures Keyed(CreateRoute(db, body, parses, id).db)
    ensures TogglesReferToSkills(CreateRoute(db, body, parses, id).db)
  {
  }

  // ---------------------------------------------------------------------------
  // Update

  /** Fields absent from the PATCH body are `None`. */
  datatype UpdateBody = UpdateBody(
    kind: Option<SkillType>,
    enabled: Option<bool>,
    gitUrl: Option<string>,
    gitPath: Option<string>)

  function Patch(s: Skill, b: UpdateBody): (r: Skill)
    ensures r.id == s.id && r.name == s.name && r.description == s.description && r.orgId == s.orgId
    ensures r.kind == (if b.kind.Some? then b.kind.value else s.kind)
    ensures r.enabled == (if b.enabled.Some? then b.enabled.value else s.enabled)
    ensures r.gitUrl == (if b.gitUrl.Some? then b.gitUrl else s.gitUrl)
    ensures r.gitPath == (if b.gitPath.Some? then b.gitPath else s.gitPath)
    ensures r.path == (if b.gitPath.Some? then Slug(b.gitPath.value) else s.path)
  {
    var s1 := if b.kind.Some? then s.(kind := b.kind.value) else s;
    var s2 := if b.enabled.Some? then s1.(enabled := b.enabled.value) else s1;
    var s3 := if b.gitUrl.Some? then s2.(gitUrl := b.gitUrl) else s2;
    if b.gitPath.Some? then s3.(gitPath := b.gitPath, path := Slug(b.gitPath.value)) else s3
  }

  predicate EmptyBody(b: UpdateBody) {
    b.kind.None? && b.enabled.None? && b.gitUrl.None? && b.gitPath.None?
  }

  /** `PATCH /api/admin/skills/:id`: 404 for an unknown id, otherwise only
      that row changes and it is returned. */
  function UpdateRoute(db: Db, id: Id, body: UpdateBody): (r: Response<Skill>)
    ensures r.reply.Err? <==> id !in db.skills
    ensures r.reply.Err? ==> r.reply == Err(404, "not_found", "Skill not found") && r.db == db
    ensures r.reply.Ok? ==>
      && r.reply.status == 200
      && r.db.toggles == db.toggles
      && r.db.skills.Keys == db.skills.Keys
      && r.db.skills[id] == r.reply.data == Patch(db.skills[id], body)
      && (forall other | other in db.skills && other != id :: r.db.skills[other] == db.skills[other])
  {
    if id !in db.skills then Response(Err(404, "not_found", "Skill not found"), db)
    else
      var s := if EmptyBody(body) then db.skills[id] else Patch(db.skills[id], body);
      Response(Ok(200, s), db.(skills := db.skills[id := s]))
  }

  /** An empty body leaves the row as it was; applying a body twice is the
      same as applying it once. */
  lemma UpdateEmptyAndIdempotent(db: Db, id: Id, body: UpdateBody)
    ensures EmptyBody(body) ==> UpdateRoute(db, id, body).db == db
    ensures UpdateRoute(UpdateRoute(db, id, body).db, id, body) == UpdateRoute(db, id, body)
  {
    if id in db.skills && EmptyBody(body) {
      assert db.skills[id := db.skills[id]] == db.skills;
    }
  }

  /** Update keeps `path` the slug of `git_path` (a new `git_path` brings
      its slug along), and keeps the row under its id. */
  lemma UpdatePreservesInvariants(db: Db, id: Id, body: UpdateBody)
    requires AllSlugConsistent(db) && Keyed(db)
    ensures AllSlugConsistent(UpdateRoute(db, id, body).db)
    ensures Keyed(UpdateRoute(db, id, body).db)
  {
  }

  // ---------------------------------------------------------------------------
  // Delete

  datatype Deleted = Deleted(id: Id, deleted: bool)

  /** `DELETE /api/admin/skills/:id`: removes the skill and every toggle of
      it, and nothing else. */
  function DeleteRoute(db: Db, id: Id): (r: Response<Deleted>)
    ensures r.reply.Err? <==> id !in db.skills
    ensures r.reply.Err? ==> r.reply == Err(404, "not_found", "Skill not found") && r.db == db
    ensures r.reply.Ok? ==> r.reply == Ok(200, Deleted(id, true))
    ensures r.reply.Ok? ==>
      && (forall s | s in r.db.skills :: s in db.skills && s != id && r.db.skills[s] == db.skills[s])
      && (forall s | s in db.skills && s != id :: s in r.db.skills)
      && (forall k | k in r.db.toggles :: k in db.toggles && k.1 != id && r.db.toggles[k] == db.toggles[k])
      && (forall k | k in db.toggles && k.1 != id :: k in r.db.toggles)
  {
    if id !in db.skills then Response(Err(404, "not_found", "Skill not found"), db)
    else
      var toggles := map k | k in db.toggles && k.1 != id :: db.toggles[k];
      Response(Ok(200, Deleted(id, true)), Db(db.skills - {id}, toggles))
  }

  /** The cascade keeps every toggle pointing at an existing skill, and a
      second delete of the same id is a 404. */
  lemma DeleteCascades(db: Db, id: Id)
    requires TogglesReferToSkills(db)
    ensures TogglesReferToSkills(DeleteRoute(db, id).db)
    ensures Keyed(db) ==> Keyed(DeleteRoute(db, id).db)
    ensures DeleteRoute(DeleteRoute(db, id).db, id).reply.Err?
  {
  }
}

=== FILE: api_key_form.dfy ===
/** The decisions the API-key form makes before it posts a key
    (apps/web/components/admin/api-key-form.tsx): which credential tabs a
    provider offers, which credential type is sent, and which input is sent
    at all. */
module ApiKeyForm {
  import opened Wrappers
  import opened Shared
  import opened JsText
  import ApiKeys

  /** `getAvailableTabs`: an OAuth-only provider (no environment variable)
      offers only OAuth; any other offers an API key, then a setup token and
      OAuth when it supports them. */
  function Tabs(p: Provider): (r: seq<CredentialType>)
    ensures r != []
    ensures p.supportsOAuth && p.envVar == "" ==> r == [OAuth]
    ensures !(p.supportsOAuth && p.envVar == "") ==>
      && r[0] == ApiKey
      && (Token in r <==> p.supportsSetupToken)
      && (OAuth in r <==> p.supportsOAuth)
    ensures forall i, j | 0 <= i < j < |r| :: r[i] != r[j]
  {
    if p.supportsOAuth && p.envVar == "" then [OAuth]
    else [ApiKey] + (if p.supportsSetupToken then [Token] else []) + (if p.supportsOAuth then [OAuth] else [])
  }

  /** Over the provider table: Anthropic offers an API key and a setup
      token, OpenAI Codex only OAuth, every other provider only an API key. */
  lemma TabsOfProviders()
    ensures forall p | p in Providers ::
      Tabs(p) == (if p.id == "anthropic" then [ApiKey, Token]
                  else if p.id == "openai-codex" then [OAuth]
                  else [ApiKey])
  {
  }

  // ---------------------------------------------------------------------------
  // JSON as `JSON.parse` returns it

  datatype Json =
    | JNull
    | JBool(b: bool)
    | JNumber(n: real)
    | JString(s: string)
    | JArray(items: seq<Json>)
    | JObject(members: seq<(string, Json)>)

  /** JavaScript truthiness of a parsed value. */
  predicate JsTruthy(j: Json) {
    match j
    case JNull => false
    case JBool(b) => b
    case JNumber(n) => n != 0.0
    case JString(s) => s != ""
    case _ => true
  }

  /** The own property `key` of an object; a key repeated in the text keeps
      its last value. Anything else has no such property. */
  function Property(j: Json, key: string): (r: Option<Json>)
    ensures r.Some? ==> j.JObject? && exists i | 0 <= i < |j.members| :: j.members[i] == (key, r.value)
    ensures r.None? ==> !j.JObject? || forall i | 0 <= i < |j.members| :: j.members[i].0 != key
  {
    if !j.JObject? then None else LastMember(j.members, key)
  }

  function LastMember(ms: seq<(string, Json)>, key: string): (r: Option<Json>)
    ensures r.Some? ==> exists i | 0 <= i < |ms| :: ms[i] == (key, r.value) && forall k | i < k < |ms| :: ms[k].0 != key
    ensures r.None? ==> forall i | 0 <= i < |ms| :: ms[i].0 != key
    decreases |ms|
  {
    if ms == [] then None
    else if ms[|ms| - 1].0 == key then Some(ms[|ms| - 1].1)
    else
      var r := LastMember(ms[..|ms| - 1], key);
      assert forall i | 0 <= i < |ms| - 1 :: ms[..|ms| - 1][i] == ms[i];
      r
  }

  /** `parsed.tokens ?? parsed` when `parsed` is not `null`, and `None` when
      reading `tokens` of `null` throws. */
  function TokenHolder(parsed: Json): Option<Json> {
    if parsed.JNull? then None
    else match Property(parsed, "tokens")
      case Some(t) => if t.JNull? then Some(parsed) else Some(t)
      case None => Some(parsed)
  }

  /** The holder has a truthy `access_token` and a truthy `refresh_token`. */
  predicate HasTokens(holder: Json) {
    var a := Property(holder, "access_token");
    var r := Property(holder, "refresh_token");
    a.Some? && JsTruthy(a.value) && r.Some? && JsTruthy(r.value)
  }

  // ---------------------------------------------------------------------------
  // saveKey

  const InvalidAuthJson := "Invalid auth.json \U{2014} must contain access_token and refresh_token"
  const InvalidJson := "Invalid JSON \U{2014} paste the full contents of auth.json"

  /** What one press of "save" does: nothing, an error toast, or a POST of
      `{provider, key, credentialType}`. */
  datatype Save =
    | Silent
    | Rejected(message: string)
    | Sent(provider: string, key: string, credentialType: CredentialType)

  /** The credential type `saveKey` sends: the selected tab, or else the first
      tab the provider offers, or `api_key` for an unknown provider. */
  function ChosenType(provider: string, selected: Option<CredentialType>): (c: CredentialType)
    ensures selected.Some? ==> c == selected.value
    ensures selected.None? && FindProvider(provider).None? ==> c == ApiKey
    ensures selected.None? && FindProvider(provider).Some? ==> c == Tabs(FindProvider(provider).value)[0]
  {
    var tabs := match FindProvider(provider) case Some(p) => Tabs(p) case None => [ApiKey];
    match selected
    case Some(c) => c
    case None => tabs[0]
  }

  /** `saveKey(provider)` up to the POST; `input` is the text box, `selected`
      the chosen tab, and `parse` is `JSON.parse` (`None` when it throws). */
  function SaveKey(provider: string, input: Option<string>, selected: Option<CredentialType>, parse: string -> Option<Json>): (r: Save)
    ensures r.Silent? <==> input.None? || AllWhitespace(input.value)
    ensures r.Sent? ==>
      && r.provider == provider
      && input.Some? && r.key == Trim(input.value) && r.key != ""
      && r.credentialType == ChosenType(provider, selected)
    ensures r.Sent? && r.credentialType == OAuth ==>
      parse(r.key).Some? && TokenHolder(parse(r.key).value).Some? && HasTokens(TokenHolder(parse(r.key).value).value)
    ensures r.Rejected? ==> ChosenType(provider, selected) == OAuth
    ensures ChosenType(provider, selected) != OAuth && !r.Silent? ==> r.Sent?
    ensures input.Some? && !AllWhitespace(input.value) && ChosenType(provider, selected) == OAuth ==>
      var parsed := parse(Trim(input.value));
      && (r == Rejected(InvalidJson) <==> parsed.None? || TokenHolder(parsed.value).None?)
      && (r == Rejected(InvalidAuthJson) <==>
            parsed.Some? && TokenHolder(parsed.value).Some? && !HasTokens(TokenHolder(parsed.value).value))
  {
    assert |InvalidJson| != |InvalidAuthJson|;
    if input.None? then Silent
    else
      var key := Trim(input.value);
      TrimEmpty(input.value);
      if key == "" then Silent
      else
        var ct := ChosenType(provider, selected);
        if ct != OAuth then Sent(provider, key, ct)
        else match parse(key)
          case None => Rejected(InvalidJson)
          case Some(parsed) =>
            match TokenHolder(parsed)
            case None => Rejected(InvalidJson)
            case Some(holder) =>
              if HasTokens(holder) then Sent(provider, key, ct) else Rejected(InvalidAuthJson)
  }

  /** The OAuth tab is chosen explicitly, or is openai-codex's only tab. */
  predicate OAuthChosen(provider: string, selected: Option<CredentialType>) {
    selected == Some(OAuth) || (selected.None? && provider == "openai-codex")
  }

  /** `saveKey` validates the input as auth.json exactly when the OAuth tab
      is selected, or nothing is selected for openai-codex. */
  lemma OAuthChosenIff(provider: string, selected: Option<CredentialType>)
    ensures ChosenType(provider, selected) == OAuth <==> OAuthChosen(provider, selected)
  {
    TabsOfProviders();
    if selected.None? {
      match FindProvider(provider)
      case Some(p) => assert p in Providers;
      case None =>
    }
  }

  /** An OAuth credential that parses to an object with truthy tokens, at the
      top level or under `tokens`, is sent. */
  lemma OAuthAccepted(provider: string, input: string, selected: Option<CredentialType>, parse: string -> Option<Json>)
    requires !AllWhitespace(input) && OAuthChosen(provider, selected)
    requires parse(Trim(input)).Some? && TokenHolder(parse(Trim(input)).value).Some?
    requires HasTokens(TokenHolder(parse(Trim(input)).value).value)
    ensures SaveKey(provider, Some(input), selected, parse) == Sent(provider, Trim(input), OAuth)
  {
    OAuthChosenIff(provider, selected);
    TrimEmpty(input);
  }

  /** `null` parses but has no `tokens` to read: the form reports invalid
      JSON. */
  lemma OAuthNullRejected(provider: string, input: string, selected: Option<CredentialType>, parse: string -> Option<Json>)
    requires !AllWhitespace(input) && OAuthChosen(provider, selected)
    requires parse(Trim(input)) == Some(JNull)
    ensures SaveKey(provider, Some(input), selected, parse) == Rejected(InvalidJson)
  {
    OAuthChosenIff(provider, selected);
    TrimEmpty(input);
  }

  /** A nested `tokens` object is what is checked: top-level tokens do not
      help when `tokens` is present and not `null`. */
  lemma NestedTokensChecked(parsed: Json, inner: Json)
    requires parsed.JObject? && Property(parsed, "tokens") == Some(inner) && !inner.JNull?
    ensures TokenHolder(parsed) == Some(inner)
  {
  }

  /** Every request the form sends for a known provider is one the set route
      accepts, and the route stores the credential type the form chose. */
  lemma SentIsAccepted(u: ApiKeys.Utf8, t: ApiKeys.Table, org: Id, provider: string, input: Option<string>, selected: Option<CredentialType>, parse: string -> Option<Json>, id: Id)
    requires provider in ProviderIds()
    requires SaveKey(provider, input, selected, parse).Sent?
    ensures var s := SaveKey(provider, input, selected, parse);
      var r := ApiKeys.SetRoute(u, t, org, Some(provider), Some(s.key), Some(CredentialTypeName(s.credentialType)), id);
      r.reply.Ok? && r.reply.data.credentialType == s.credentialType
  {
    var s := SaveKey(provider, input, selected, parse);
    ApiKeys.NormalizeKnownName(s.credentialType);
    assert FindProvider(provider).Some?;
  }
}

=== FILE: api_keys.dfy ===
/** The organisation credential store (apps/api/src/routes/org/api-keys.ts):
    keys are stored base64-encoded in `api_keys`, listed masked, and at most
    one default key is kept per (organisation, provider). */
module ApiKeys {
  import opened Wrappers
  import opened Shared
  import Base64

  /** UTF-8 conversion between a key string and its bytes, in both
      directions (`Buffer.from(key)` and `toString('utf-8')`). */
  datatype Utf8 = Utf8(encode: string -> seq<Base64.Byte>, decode: seq<Base64.Byte> -> string)

  /** Decoding UTF-8 inverts encoding, as it does for every string of
      Unicode scalar values. */
  ghost predicate Faithful(u: Utf8) {
    forall k: string :: u.decode(u.encode(k)) == k
  }

  /** `encodeKey`. */
  function EncodeKey(u: Utf8, key: string): string {
    Base64.Encode(u.encode(key))
  }

  /** `decodeKey` on a value written by `encodeKey`; `None` when the stored
      text is not canonical base64. */
  function DecodeKey(u: Utf8, stored: string): Option<string> {
    match Base64.Decode(stored)
    case Some(bytes) => Some(u.decode(bytes))
    case None => None
  }

  lemma DecodeEncodeKey(u: Utf8, key: string)
    requires Faithful(u)
    ensures DecodeKey(u, EncodeKey(u, key)) == Some(key)
  {
    Base64.DecodeEncode(u.encode(key));
  }

  /** `maskKey`: four stars for a short key, otherwise the first and last
      four characters around `...`. */
  function MaskKey(key: string): (r: string)
    ensures |key| <= 8 ==> r == "****"
    ensures |key| > 8 ==> |r| == 11 && r[..4] == key[..4] && r[4..7] == "..." && r[7..] == key[|key| - 4..]
  {
    if |key| <= 8 then "****" else key[..4] + "..." + key[|key| - 4..]
  }

  /** The mask shows nothing of the middle of a key: two long keys that share
      their first and last four characters mask alike. */
  lemma MaskHidesMiddle(a: string, b: string)
    requires |a| > 8 && |b| > 8 && a[..4] == b[..4] && a[|a| - 4..] == b[|b| - 4..]
    ensures MaskKey(a) == MaskKey(b)
  {
  }

  /** The credential type a set request stores: `token` and `oauth` as
      given, anything else (or nothing) as `api_key`. */
  function NormalizeCredentialType(requested: Option<string>): (c: CredentialType)
    ensures c == Token <==> requested == Some("token")
    ensures c == OAuth <==> requested == Some("oauth")
  {
    if requested == Some("token") then Token
    else if requested == Some("oauth") then OAuth
    else ApiKey
  }

  lemma NormalizeKnownName(c: CredentialType)
    ensures NormalizeCredentialType(Some(CredentialTypeName(c))) == c
  {
  }

  /** A row of `api_keys`; a NULL `credential_type` is the empty string. */
  datatype ApiKeyRow = ApiKeyRow(
    id: Id,
    provider: string,
    keyValue: string,
    isDefault: bool,
    orgId: Id,
    credentialType: string)

  /** The table in insertion order, which is the order an unordered query
      visits it. */
  type Table = seq<ApiKeyRow>

  predicate IsDefaultFor(r: ApiKeyRow, org: Id, provider: string) {
    r.isDefault && r.orgId == org && r.provider == provider
  }

  /** Both rows are defaults for the same (organisation, provider). */
  predicate SameDefault(x: ApiKeyRow, y: ApiKeyRow) {
    x.isDefault && y.isDefault && x.orgId == y.orgId && x.provider == y.provider
  }

  /** At most one default key for each (organisation, provider). */
  predicate OneDefault(t: Table) {
    forall i, j | 0 <= i < j < |t| :: !SameDefault(t[i], t[j])
  }

  /** Every stored value reads back. */
  predicate AllEncoded(t: Table) {
    forall i | 0 <= i < |t| :: Base64.Decode(t[i].keyValue).Some?
  }

  /** The invariants of a table hold for its tail, and its head shares its
      default with no later row. */
  lemma InvariantsTail(t: Table)
    requires t != []
    ensures OneDefault(t) ==> OneDefault(t[1..]) && forall x | x in t[1..] :: !SameDefault(t[0], x)
    ensures AllEncoded(t) ==> AllEncoded(t[1..])
  {
    var rest := t[1..];
    assert forall i | 0 <= i < |rest| :: rest[i] == t[i + 1];
  }

  /** Adding a row at the end keeps both invariants when it shares its
      default with no row before it and its value reads back. */
  lemma InvariantsSnoc(rest: Table, x: ApiKeyRow)
    ensures OneDefault(rest) && (forall y | y in rest :: !SameDefault(y, x)) ==> OneDefault(rest + [x])
    ensures AllEncoded(rest) && Base64.Decode(x.keyValue).Some? ==> AllEncoded(rest + [x])
  {
    var t := rest + [x];
    assert forall i | 0 <= i < |rest| :: t[i] == rest[i] && rest[i] in rest;
  }

  /** Adding a row in front keeps both invariants when it shares its default
      with no row behind it and its value reads back. */
  lemma InvariantsCons(x: ApiKeyRow, rest: Table)
    ensures OneDefault(rest) && (forall y | y in rest :: !SameDefault(x, y)) ==> OneDefault([x] + rest)
    ensures AllEncoded(rest) && Base64.Decode(x.keyValue).Some? ==> AllEncoded([x] + rest)
  {
    var t := [x] + rest;
    assert forall i | 1 <= i < |t| :: t[i] == rest[i - 1];
  }

  /** `credential_type || 'api_key'`. */
  function StoredType(r: ApiKeyRow): string {
    if r.credentialType != "" then r.credentialType else "api_key"
  }

  // ---------------------------------------------------------------------------
  // List

  /** A listed key: the row without `key_value`, with the mask of the
      decoded key instead. */
  datatype ListedKey = ListedKey(id: Id, provider: string, keyMasked: Option<string>, isDefault: bool, orgId: Id, credentialType: string)

  function Listing(u: Utf8, r: ApiKeyRow): ListedKey {
    ListedKey(r.id, r.provider, match DecodeKey(u, r.keyValue) case Some(k) => Some(MaskKey(k)) case None => None,
      r.isDefault, r.orgId, StoredType(r))
  }

  function RowsOf(t: Table, org: Id): (rs: seq<ApiKeyRow>)
    ensures forall r | r in rs :: r in t && r.orgId == org
    ensures forall r | r in t && r.orgId == org :: r in rs
  {
    if t == [] then [] else (if t[0].orgId == org then [t[0]] else []) + RowsOf(t[1..], org)
  }

  /** `GET /api/orgs/:orgId/api-keys` (the newest-first order is not
      modelled). */
  function ListRoute(u: Utf8, t: Table, org: Id): (r: seq<ListedKey>)
    ensures |r| == |RowsOf(t, org)|
    ensures forall i | 0 <= i < |r| :: r[i].orgId == org && r[i] == Listing(u, RowsOf(t, org)[i])
  {
    var rows := RowsOf(t, org);
    seq(|rows|, i requires 0 <= i < |rows| => Listing(u, rows[i]))
  }

  /** A key set through the route is listed with the mask of the key itself. */
  lemma ListedMaskIsKeyMask(u: Utf8, key: string, r: ApiKeyRow)
    requires Faithful(u) && r.keyValue == EncodeKey(u, key)
    ensures Listing(u, r).keyMasked == Some(MaskKey(key))
  {
    DecodeEncodeKey(u, key);
  }

  // ---------------------------------------------------------------------------
  // Set

  datatype SetResult = SetResult(id: Id, provider: string, keyMasked: string, isDefault: bool, credentialType: CredentialType)

  /** A route's reply, the table after it, and the organisation whose auth
      profiles were re-synced, if any. */
  datatype KeyOutcome<+T> = KeyOutcome(reply: Reply<T>, table: Table, synced: Option<Id>)

  /** The delete of the old default: every other row, in order. */
  function DropDefault(t: Table, org: Id, provider: string): (r: Table)
    ensures forall x | x in r :: x in t && !IsDefaultFor(x, org, provider)
    ensures forall x | x in t && !IsDefaultFor(x, org, provider) :: x in r
    ensures OneDefault(t) ==> OneDefault(r)
    ensures AllEncoded(t) ==> AllEncoded(r)
    ensures forall x | x in r :: !IsDefaultFor(x, org, provider)
  {
    if t == [] then []
    else
      var rest := DropDefault(t[1..], org, provider);
      InvariantsTail(t);
      if IsDefaultFor(t[0], org, provider) then rest
      else
        InvariantsCons(t[0], rest);
        [t[0]] + rest
  }

  /** `POST /api/orgs/:orgId/api-keys`. */
  function SetRoute(u: Utf8, t: Table, org: Id, provider: Option<string>, key: Option<string>, requested: Option<string>, id: Id): (r: KeyOutcome<SetResult>)
    ensures !Truthy(provider) || !Truthy(key) ==> r.reply == Err(400, "validation", "provider and key are required")
    ensures Truthy(provider) && Truthy(key) && provider.value !in ProviderIds() ==>
      r.reply == Err(400, "validation", "Unknown provider: " + provider.value)
    ensures r.reply.Err? <==> !Truthy(provider) || !Truthy(key) || provider.value !in ProviderIds()
    ensures r.reply.Err? ==> r.table == t && r.synced.None?
    ensures r.reply.Ok? ==>
      && r.reply.status == 201
      && r.reply.data == SetResult(id, provider.value, MaskKey(key.value), true, NormalizeCredentialType(requested))
      && r.synced == Some(org)
      && |r.table| > 0
      && r.table[|r.table| - 1] == ApiKeyRow(id, provider.value, EncodeKey(u, key.value), true, org, CredentialTypeName(NormalizeCredentialType(requested)))
      && (forall x | x in t && !IsDefaultFor(x, org, provider.value) :: x in r.table)
      && (forall x | x in r.table[..|r.table| - 1] :: x in t && !IsDefaultFor(x, org, provider.value))
  {
    if !Truthy(provider) || !Truthy(key) then
      KeyOutcome(Err(400, "validation", "provider and key are required"), t, None)
    else if provider.value !in ProviderIds() then
      KeyOutcome(Err(400, "validation", "Unknown provider: " + provider.value), t, None)
    else
      var ct := NormalizeCredentialType(requested);
      var row := ApiKeyRow(id, provider.value, EncodeKey(u, key.value), true, org, CredentialTypeName(ct));
      var t' := DropDefault(t, org, provider.value) + [row];
      assert t'[..|t'| - 1] == DropDefault(t, org, provider.value);
      KeyOutcome(Ok(201, SetResult(id, provider.value, MaskKey(key.value), true, ct)), t', Some(org))
  }

  /** Setting a key keeps at most one default per (organisation, provider),
      and keeps every stored value readable. */
  lemma SetKeepsOneDefault(u: Utf8, t: Table, org: Id, provider: Option<string>, key: Option<string>, requested: Option<string>, id: Id)
    requires OneDefault(t)
    ensures OneDefault(SetRoute(u, t, org, provider, key, requested, id).table)
    ensures AllEncoded(t) ==> AllEncoded(SetRoute(u, t, org, provider, key, requested, id).table)
  {
    var r := SetRoute(u, t, org, provider, key, requested, id);
    if r.reply.Ok? {
      var d := DropDefault(t, org, provider.value);
      var row := r.table[|r.table| - 1];
      assert r.table == d + [row];
      Base64.DecodeEncode(u.encode(key.value));
      InvariantsSnoc(d, row);
    }
  }

  // ---------------------------------------------------------------------------
  // Lookups for the gateway

  /** `getOrgApiKey`: the decoded key of the first default row for the
      organisation and provider. */
  function GetOrgApiKey(u: Utf8, t: Table, org: Id, provider: string): (r: Option<string>)
    ensures (forall x | x in t :: !IsDefaultFor(x, org, provider)) ==> r.None?
    ensures forall i | 0 <= i < |t| && IsDefaultFor(t[i], org, provider) && (forall j | 0 <= j < i :: !IsDefaultFor(t[j], org, provider)) ::
      r == DecodeKey(u, t[i].keyValue)
    decreases |t|
  {
    if t == [] then None
    else if IsDefaultFor(t[0], org, provider) then DecodeKey(u, t[0].keyValue)
    else
      assert forall i | 0 < i < |t| :: t[i] == t[1..][i - 1];
      GetOrgApiKey(u, t[1..], org, provider)
  }

  lemma {:induction false} GetIgnoresOthers(u: Utf8, t: Table, row: ApiKeyRow, org: Id, provider: string)
    requires forall x | x in t :: !IsDefaultFor(x, org, provider)
    requires IsDefaultFor(row, org, provider)
    ensures GetOrgApiKey(u, t + [row], org, provider) == DecodeKey(u, row.keyValue)
    decreases |t|
  {
    if t != [] {
      assert (t + [row])[1..] == t[1..] + [row];
      GetIgnoresOthers(u, t[1..], row, org, provider);
    } else {
      assert [] + [row] == [row];
    }
  }

  /** Round trip: after a key is set for a provider in an organisation, the
      gateway reads back exactly that key. */
  lemma SetThenGet(u: Utf8, t: Table, org: Id, provider: string, key: string, requested: Option<string>, id: Id)
    requires Faithful(u) && provider in ProviderIds() && key != "" && provider != ""
    ensures var r := SetRoute(u, t, org, Some(provider), Some(key), requested, id);
      GetOrgApiKey(u, r.table, org, provider) == Some(key)
  {
    var r := SetRoute(u, t, org, Some(provider), Some(key), requested, id);
    var d := DropDefault(t, org, provider);
    var row := r.table[|r.table| - 1];
    assert r.table == d + [row];
    GetIgnoresOthers(u, d, row, org, provider);
    DecodeEncodeKey(u, key);
  }

  /** One entry of `getOrgAllApiKeys`. */
  datatype OrgKey = OrgKey(provider: string, key: Option<string>, credentialType: string)

  /** `getOrgAllApiKeys`: every default key of the organisation, decoded. */
  function GetOrgAllApiKeys(u: Utf8, t: Table, org: Id): (r: seq<OrgKey>)
    ensures forall k | k in r :: exists x | x in t :: x.isDefault && x.orgId == org && k == OrgKey(x.provider, DecodeKey(u, x.keyValue), StoredType(x))
    ensures forall x | x in t && x.isDefault && x.orgId == org :: OrgKey(x.provider, DecodeKey(u, x.keyValue), StoredType(x)) in r
    decreases |t|
  {
    if t == [] then []
    else
      var rest := GetOrgAllApiKeys(u, t[1..], org);
      if t[0].isDefault && t[0].orgId == org then [OrgKey(t[0].provider, DecodeKey(u, t[0].keyValue), StoredType(t[0]))] + rest
      else rest
  }

  /** After a set, the gateway's full list carries the new key under its
      provider with the stored credential type. */
  lemma SetThenGetAll(u: Utf8, t: Table, org: Id, provider: string, key: string, requested: Option<string>, id: Id)
    requires Faithful(u) && provider in ProviderIds() && key != "" && provider != ""
    ensures var r := SetRoute(u, t, org, Some(provider), Some(key), requested, id);
      OrgKey(provider, Some(key), CredentialTypeName(NormalizeCredentialType(requested))) in GetOrgAllApiKeys(u, r.table, org)
  {
    var r := SetRoute(u, t, org, Some(provider), Some(key), requested, id);
    var row := r.table[|r.table| - 1];
    assert row in r.table;
    DecodeEncodeKey(u, key);
    assert StoredType(row) == CredentialTypeName(NormalizeCredentialType(requested));
  }

  // ---------------------------------------------------------------------------
  // Delete

  datatype DeletedKey = DeletedKey(id: Id, deleted: bool)

  function Without(t: Table, org: Id, id: Id): (r: Table)
    ensures forall x | x in r :: x in t && !(x.id == id && x.orgId == org)
    ensures forall x | x in t && !(x.id == id && x.orgId == org) :: x in r
    ensures |r| <= |t|
    ensures OneDefault(t) ==> OneDefault(r)
  {
    if t == [] then []
    else
      var rest := Without(t[1..], org, id);
      InvariantsTail(t);
      if t[0].id == id && t[0].orgId == org then rest
      else
        InvariantsCons(t[0], rest);
        [t[0]] + rest
  }

  /** `DELETE /api/orgs/:orgId/api-keys/:id`: removes the row only when it
      belongs to the organisation, and reports success either way. */
  function DeleteRoute(t: Table, org: Id, id: Id): (r: KeyOutcome<DeletedKey>)
    ensures r.reply == Ok(200, DeletedKey(id, true)) && r.synced == Some(org)
    ensures forall x | x in r.table :: x in t && !(x.id == id && x.orgId == org)
    ensures forall x | x in t && !(x.id == id && x.orgId == org) :: x in r.table
  {
    KeyOutcome(Ok(200, DeletedKey(id, true)), Without(t, org, id), Some(org))
  }

  /** Another organisation's key survives a delete that names its id. */
  lemma DeleteScopedToOrg(t: Table, org: Id, id: Id, x: ApiKeyRow)
    requires x in t && x.orgId != org
    ensures x in DeleteRoute(t, org, id).table
  {
  }
}

=== FILE: base64.dfy ===
/** Base64 with the standard alphabet and `=` padding, as section 4 of
    RFC 4648 defines it; what `Buffer.toString('base64')` produces and
    `Buffer.from(s, 'base64')` reads back. */
module Base64 {
  import opened Wrappers

  type Byte = b: int | 0 <= b < 256

  type Sextet = v: int | 0 <= v < 64

  /** Value `v` of the alphabet: A-Z, a-z, 0-9, `+`, `/`. */
  function CharOf(v: Sextet): (c: char)
    ensures c != '='
  {
    if v < 26 then (v + 65) as char
    else if v < 52 then (v - 26 + 97) as char
    else if v < 62 then (v - 52 + 48) as char
    else if v == 62 then '+'
    else '/'
  }

  /** The value of an alphabet character; `None` for anything else,
      including the pad character. */
  function ValueOf(c: char): (r: Option<Sextet>)
    ensures c == '=' ==> r.None?
  {
    if 'A' <= c <= 'Z' then Some(c as int - 65)
    else if 'a' <= c <= 'z' then Some(c as int - 97 + 26)
    else if '0' <= c <= '9' then Some(c as int - 48 + 52)
    else if c == '+' then Some(62)
    else if c == '/' then Some(63)
    else None
  }

  lemma ValueOfCharOf(v: Sextet)
    ensures ValueOf(CharOf(v)) == Some(v)
  {
  }

  /** Three bytes as four characters. */
  function Quad(b0: Byte, b1: Byte, b2: Byte): (s: string)
    ensures |s| == 4
  {
    [CharOf(b0 / 4), CharOf((b0 % 4) * 16 + b1 / 16), CharOf((b1 % 16) * 4 + b2 / 64), CharOf(b2 % 64)]
  }

  /** `Buffer.from(bytes).toString('base64')`. */
  function Encode(bs: seq<Byte>): (s: string)
    ensures |s| == 4 * ((|bs| + 2) / 3)
    ensures forall i | 0 <= i < |s| :: s[i] == '=' || ValueOf(s[i]).Some?
    decreases |bs|
  {
    if |bs| == 0 then ""
    else if |bs| == 1 then
      var q := Quad(bs[0], 0, 0);
      ValueOfCharOf(bs[0] / 4);
      ValueOfCharOf((bs[0] % 4) * 16);
      q[..2] + "=="
    else if |bs| == 2 then
      var q := Quad(bs[0], bs[1], 0);
      ValueOfCharOf(bs[0] / 4);
      ValueOfCharOf((bs[0] % 4) * 16 + bs[1] / 16);
      ValueOfCharOf((bs[1] % 16) * 4);
      q[..3] + "="
    else
      var q := Quad(bs[0], bs[1], bs[2]);
      ValueOfCharOf(bs[0] / 4);
      ValueOfCharOf((bs[0] % 4) * 16 + bs[1] / 16);
      ValueOfCharOf((bs[1] % 16) * 4 + bs[2] / 64);
      ValueOfCharOf(bs[2] % 64);
      var rest := Encode(bs[3..]);
      assert forall i | 4 <= i < |q + rest| :: (q + rest)[i] == rest[i - 4];
      q + rest
  }

  function First(c0: Sextet, c1: Sextet): Byte { c0 * 4 + c1 / 16 }

  function Second(c1: Sextet, c2: Sextet): Byte { (c1 % 16) * 16 + c2 / 4 }

  function Third(c2: Sextet, c3: Sextet): Byte { (c2 % 4) * 64 + c3 }

  /** Strict decoding: groups of four alphabet characters, padding only in
      the last group. `None` for anything else. */
  function Decode(s: string): (r: Option<seq<Byte>>)
    decreases |s|
  {
    if s == "" then Some([])
    else if |s| < 4 then None
    else
      var v0, v1, v2, v3 := ValueOf(s[0]), ValueOf(s[1]), ValueOf(s[2]), ValueOf(s[3]);
      if v0.None? || v1.None? then None
      else if v2.None? then
        if |s| == 4 && s[2] == '=' && s[3] == '=' then Some([First(v0.value, v1.value)]) else None
      else if v3.None? then
        if |s| == 4 && s[3] == '=' then Some([First(v0.value, v1.value), Second(v1.value, v2.value)]) else None
      else
        match Decode(s[4..])
        case Some(rest) => Some([First(v0.value, v1.value), Second(v1.value, v2.value), Third(v2.value, v3.value)] + rest)
        case None => None
  }

  /** The three characters of a group decode back to the bytes they came from. */
  lemma GroupRoundTrip(b0: Byte, b1: Byte, b2: Byte)
    ensures var c0, c1, c2, c3 := b0 / 4, (b0 % 4) * 16 + b1 / 16, (b1 % 16) * 4 + b2 / 64, b2 % 64;
      First(c0, c1) == b0 && Second(c1, c2) == b1 && Third(c2, c3) == b2
  {
    var c1 := (b0 % 4) * 16 + b1 / 16;
    var c2 := (b1 % 16) * 4 + b2 / 64;
    assert c1 / 16 == b0 % 4 && c1 % 16 == b1 / 16;
    assert c2 / 4 == b1 % 16 && c2 % 4 == b2 / 64;
  }

  lemma DecodeOne(b0: Byte)
    ensures Decode(Encode([b0])) == Some([b0])
  {
    ValueOfCharOf(b0 / 4);
    ValueOfCharOf((b0 % 4) * 16);
    GroupRoundTrip(b0, 0, 0);
  }

  lemma DecodeTwo(b0: Byte, b1: Byte)
    ensures Decode(Encode([b0, b1])) == Some([b0, b1])
  {
    ValueOfCharOf(b0 / 4);
    ValueOfCharOf((b0 % 4) * 16 + b1 / 16);
    ValueOfCharOf((b1 % 16) * 4);
    GroupRoundTrip(b0, b1, 0);
  }

  lemma DecodeGroup(b0: Byte, b1: Byte, b2: Byte, rest: string)
    ensures Decode(Quad(b0, b1, b2) + rest) == match Decode(rest) case Some(r) => Some([b0, b1, b2] + r) case None => None
  {
    var s := Quad(b0, b1, b2) + rest;
    ValueOfCharOf(b0 / 4);
    ValueOfCharOf((b0 % 4) * 16 + b1 / 16);
    ValueOfCharOf((b1 % 16) * 4 + b2 / 64);
    ValueOfCharOf(b2 % 64);
    GroupRoundTrip(b0, b1, b2);
    assert s[4..] == rest;
  }

  /** Decoding inverts encoding. */
  lemma {:induction false} DecodeEncode(bs: seq<Byte>)
    ensures Decode(Encode(bs)) == Some(bs)
    decreases |bs|
  {
    if |bs| == 1 {
      assert bs == [bs[0]];
      DecodeOne(bs[0]);
    } else if |bs| == 2 {
      assert bs == [bs[0], bs[1]];
      DecodeTwo(bs[0], bs[1]);
    } else if |bs| >= 3 {
      assert Encode(bs) == Quad(bs[0], bs[1], bs[2]) + Encode(bs[3..]);
      DecodeEncode(bs[3..]);
      DecodeGroup(bs[0], bs[1], bs[2], Encode(bs[3..]));
      assert bs == [bs[0], bs[1], bs[2]] + bs[3..];
    }
  }

  /** Encoding is injective: different byte strings are stored differently. */
  lemma EncodeInjective(a: seq<Byte>, b: seq<Byte>)
    requires Encode(a) == Encode(b)
    ensures a == b
  {
    DecodeEncode(a);
    DecodeEncode(b);
  }

  lemma Examples()
    ensures Encode([]) == ""
    ensures Encode([102]) == "Zg=="
    ensures Encode([102, 111]) == "Zm8="
    ensures Encode([102, 111, 111]) == "Zm9v"
  {
  }
}

=== FILE: file_tree.dfy ===
/** A directory tree as `fs.readdirSync(dir, { withFileTypes: true })` shows
    it: a directory lists its entries in the order the system returns them. */
module FileTree {
  import opened Wrappers
  import opened PosixPath

  datatype Node = File | Dir(entries: seq<Entry>)

  datatype Entry = Entry(name: string, node: Node)

  /** Position of the entry called `name`, or `|es|` when there is none. */
  function IndexOf(es: seq<Entry>, name: string): (k: nat)
    ensures k <= |es|
    ensures k < |es| ==> es[k].name == name
    ensures forall j | 0 <= j < k :: es[j].name != name
  {
    if es == [] then 0
    else if es[0].name == name then 0
    else 1 + IndexOf(es[1..], name)
  }

  /** The node reached from `n` through the entry `name`. */
  function Child(n: Node, name: string): (r: Option<Node>)
    ensures r.Some? <==> n.Dir? && exists j | 0 <= j < |n.entries| :: n.entries[j].name == name
  {
    if n.File? then None
    else
      var k := IndexOf(n.entries, name);
      if k < |n.entries| then Some(n.entries[k].node) else None
  }

  /** `fs.existsSync(path.join(dir, name))`: true for a file or a directory. */
  predicate Has(n: Node, name: string) {
    Child(n, name).Some?
  }

  /** The node at the relative path `p` below `n`, if there is one. */
  function Lookup(n: Node, p: seq<string>): Option<Node>
    decreases |p|
  {
    if p == [] then Some(n)
    else
      match Child(n, p[0])
      case None => None
      case Some(c) => Lookup(c, p[1..])
  }

  /** What every real directory satisfies: entry names are names, and no two
      entries of one directory share a name. */
  predicate WellFormed(n: Node)
    decreases n
  {
    n.Dir? ==>
      && (forall i | 0 <= i < |n.entries| :: IsName(n.entries[i].name) && WellFormed(n.entries[i].node))
      && (forall i, j | 0 <= i < j < |n.entries| :: n.entries[i].name != n.entries[j].name)
  }

  /** In a well-formed directory, the entry at position `i` is the one found
      by its name. */
  lemma ChildAt(n: Node, i: nat)
    requires n.Dir? && WellFormed(n) && i < |n.entries|
    ensures IndexOf(n.entries, n.entries[i].name) == i
    ensures Child(n, n.entries[i].name) == Some(n.entries[i].node)
  {
  }

  /** A checkout: a well-formed directory. */
  type Tree = n: Node | n.Dir? && WellFormed(n) witness Dir([])
}

=== FILE: js_text.dfy ===
/** The two JavaScript string operations the route handlers apply to user
    input: `String.prototype.trim` and `String.prototype.toLowerCase`. */
module JsText {

  /** ECMAScript WhiteSpace and LineTerminator code points, the set `trim` strips. */
  const Whitespace: set<char> := {
    '\U{9}', '\U{A}', '\U{B}', '\U{C}', '\U{D}', ' ', '\U{A0}', '\U{1680}',
    '\U{2000}', '\U{2001}', '\U{2002}', '\U{2003}', '\U{2004}', '\U{2005}',
    '\U{2006}', '\U{2007}', '\U{2008}', '\U{2009}', '\U{200A}',
    '\U{2028}', '\U{2029}', '\U{202F}', '\U{205F}', '\U{3000}', '\U{FEFF}'
  }

  predicate IsWhitespace(c: char) {
    c in Whitespace
  }

  predicate AllWhitespace(s: string) {
    forall i | 0 <= i < |s| :: IsWhitespace(s[i])
  }

  /** Number of leading whitespace characters of `s`. */
  function LeadingWhitespace(s: string): (k: nat)
    ensures k <= |s| && AllWhitespace(s[..k])
    ensures k == |s| || !IsWhitespace(s[k])
  {
    if |s| > 0 && IsWhitespace(s[0]) then
      var k := LeadingWhitespace(s[1..]);
      assert s[..k + 1] == [s[0]] + s[1..][..k];
      k + 1
    else 0
  }

  /** Index where the trailing whitespace of `s` starts. */
  function TrailingWhitespace(s: string): (k: nat)
    ensures k <= |s| && AllWhitespace(s[k..])
    ensures k == 0 || !IsWhitespace(s[k - 1])
  {
    if |s| > 0 && IsWhitespace(s[|s| - 1]) then
      var k := TrailingWhitespace(s[..|s| - 1]);
      assert s[k..] == s[..|s| - 1][k..] + [s[|s| - 1]];
      k
    else |s|
  }

  function TrimStart(s: string): string {
    s[LeadingWhitespace(s)..]
  }

  function TrimEnd(s: string): string {
    s[..TrailingWhitespace(s)]
  }

  /** `s.trim()`: the slice of `s` left after removing leading and trailing
      whitespace. */
  function Trim(s: string): (r: string)
    ensures exists i, j | 0 <= i <= j <= |s| :: r == s[i..j] && AllWhitespace(s[..i]) && AllWhitespace(s[j..])
    ensures r == [] || (!IsWhitespace(r[0]) && !IsWhitespace(r[|r| - 1]))
  {
    var i := LeadingWhitespace(s);
    var t := s[i..];
    var k := TrailingWhitespace(t);
    assert t[..k] == s[i..i + k];
    assert t[k..] == s[i + k..];
    t[..k]
  }

  /** Lower-casing of one character: A-Z map to a-z, everything else is kept. */
  function LowerChar(c: char): char {
    if 'A' <= c <= 'Z' then (c as int + 32) as char else c
  }

  /** `s.toLowerCase()` restricted to ASCII letters. */
  function Lower(s: string): (r: string)
    ensures |r| == |s|
    ensures forall i | 0 <= i < |s| :: r[i] == LowerChar(s[i])
  {
    seq(|s|, i requires 0 <= i < |s| => LowerChar(s[i]))
  }

  lemma LowerIdempotent(s: string)
    ensures Lower(Lower(s)) == Lower(s)
  {
  }

  /** Lower-casing commutes with trimming, because it maps whitespace to
      whitespace and nothing else to whitespace. */
  lemma LowerKeepsWhitespace(c: char)
    ensures IsWhitespace(LowerChar(c)) == IsWhitespace(c)
  {
  }

  lemma {:induction false} LeadingLower(s: string)
    ensures LeadingWhitespace(Lower(s)) == LeadingWhitespace(s)
    decreases |s|
  {
    if |s| > 0 {
      var t := Lower(s);
      assert t[1..] == Lower(s[1..]) by {
        LowerSlice(s, 1, |s|);
        assert t[1..] == t[1..|s|] && s[1..|s|] == s[1..];
      }
      assert IsWhitespace(t[0]) == IsWhitespace(s[0]) by {
        LowerKeepsWhitespace(s[0]);
      }
      LeadingLower(s[1..]);
    }
  }

  lemma {:induction false} TrailingLower(s: string)
    ensures TrailingWhitespace(Lower(s)) == TrailingWhitespace(s)
    decreases |s|
  {
    if |s| > 0 {
      LowerKeepsWhitespace(s[|s| - 1]);
      LowerSlice(s, 0, |s| - 1);
      TrailingLower(s[..|s| - 1]);
    }
  }

  lemma TrimLower(s: string)
    ensures Trim(Lower(s)) == Lower(Trim(s))
  {
    var i := LeadingWhitespace(s);
    var t := s[i..];
    var k := TrailingWhitespace(t);
    LeadingLower(s);
    LowerSlice(s, i, |s|);
    assert Lower(s)[i..] == Lower(t);
    TrailingLower(t);
    LowerSlice(t, 0, k);
    assert Trim(Lower(s)) == Lower(t)[..k];
  }

  /** Lower-casing works character by character, so it commutes with slicing. */
  lemma LowerSlice(s: string, i: nat, j: nat)
    requires i <= j <= |s|
    ensures Lower(s)[i..j] == Lower(s[i..j])
  {
    var a, b := Lower(s)[i..j], Lower(s[i..j]);
    forall n | 0 <= n < j - i
      ensures a[n] == b[n]
    {
      assert a[n] == Lower(s)[i + n];
      assert s[i..j][n] == s[i + n];
    }
  }

  lemma TrimIdempotent(s: string)
    ensures Trim(Trim(s)) == Trim(s)
  {
    var r := Trim(s);
    assert LeadingWhitespace(r) == 0;
    assert TrailingWhitespace(r) == |r|;
  }

  /** `trim` leaves nothing exactly when every character is whitespace. */
  lemma TrimEmpty(s: string)
    ensures Trim(s) == "" <==> AllWhitespace(s)
  {
    var i := LeadingWhitespace(s);
    var t := s[i..];
    var k := TrailingWhitespace(t);
    assert Trim(s) == t[..k];
    if Trim(s) == "" {
      assert t[k..] == t;
      assert s[..i] == s;
    }
  }
}

=== FILE: openclaw_config.dfy ===
/** The gateway configuration file (apps/api/src/services/openclaw-config.ts):
    fixed settings, the gateway's port and token, and one entry per skill. */
module OpenClawConfig {
  import opened Wrappers
  import opened Shared
  import PosixPath
  import SkillRegistry
  import AdminSkills

  const LastTouchedVersion := "2026.2.17"

  datatype Meta = Meta(lastTouchedVersion: string, lastTouchedAt: string)
  datatype Commands = Commands(native: string, nativeSkills: string)
  datatype Auth = Auth(mode: string, token: string)
  datatype GatewaySettings = GatewaySettings(mode: string, port: int, auth: Auth)
  datatype SkillEntry = SkillEntry(path: string)

  /** `skills` is `None` when the key is absent from the object. */
  datatype Config = Config(meta: Meta, commands: Commands, gateway: GatewaySettings, skills: Option<seq<SkillEntry>>)

  /** `generateOpenClawConfig`; `now` is `new Date().toISOString()`. */
  function Generate(port: int, token: string, skills: Option<seq<Skill>>, now: string): (c: Config)
    ensures c.gateway.port == port && c.gateway.auth.token == token
    ensures c.commands == Commands("auto", "auto")
    ensures c.gateway.mode == "local" && c.gateway.auth.mode == "token"
    ensures c.meta == Meta(LastTouchedVersion, now)
    ensures c.skills.None? <==> skills.None? || skills.value == []
    ensures c.skills.Some? ==>
      && |c.skills.value| == |skills.value|
      && forall i | 0 <= i < |skills.value| :: c.skills.value[i].path == skills.value[i].path
  {
    var entries := match skills
      case Some(ss) => if |ss| > 0 then Some(seq(|ss|, i requires 0 <= i < |ss| => SkillEntry(ss[i].path))) else None
      case None => None;
    Config(Meta(LastTouchedVersion, now), Commands("auto", "auto"),
      GatewaySettings("local", port, Auth("token", token)), entries)
  }

  /** Two configurations built from the same inputs differ at most in the
      time stamp. */
  lemma OnlyClockDiffers(port: int, token: string, skills: Option<seq<Skill>>, now: string, later: string)
    ensures Generate(port, token, skills, later) == Generate(port, token, skills, now).(meta := Meta(LastTouchedVersion, later))
  {
  }

  /** Each entry points at the directory the installer creates for the
      skill: for a row whose `path` is the slug of its `git_path`, and whose
      `git_path` has a character other than `/`, the entry's path is the
      last segment of `git_path`. */
  lemma EntriesNameInstalledDirs(port: int, token: string, skills: seq<Skill>, now: string, i: nat)
    requires i < |skills|
    requires AdminSkills.SlugConsistent(skills[i]) && skills[i].gitPath.Some?
    requires exists k | 0 <= k < |skills[i].gitPath.value| :: skills[i].gitPath.value[k] != '/'
    ensures var c := Generate(port, token, Some(skills), now);
      c.skills.Some? && c.skills.value[i].path == PosixPath.Basename(skills[i].gitPath.value)
  {
    SkillRegistry.SlugIsBasename(skills[i].gitPath.value);
  }
}

=== FILE: org_user_skills.dfy ===
/** The per-member skill routes of an organisation
    (apps/api/src/routes/org/user-skills.ts): list with the assigned flag,
    batch update, and single toggle. */
module OrgUserSkills {
  import opened Wrappers
  import opened Shared
  import opened SkillRegistry

  /** The authenticated member: user id, membership id and gateway columns. */
  datatype Member = Member(userId: Id, memberId: Id, gateway: Gateway)

  /** `redeployGateway(orgId, memberId)`: true when it returns, false when it
      throws. */
  type Redeployer = (Id, Id) -> bool

  /** An enabled skill of the organisation. */
  predicate OrgSkill(db: Db, org: Id, id: Id) {
    id in db.skills && db.skills[id].orgId == Some(org) && db.skills[id].enabled
  }

  /** A skill the member may toggle: an enabled org skill that is not
      mandatory. */
  predicate Toggleable(db: Db, org: Id, id: Id) {
    OrgSkill(db, org, id) && db.skills[id].kind != Mandatory
  }

  /** The redeploy the routes attempt after writing: only for a live gateway. */
  function MaybeRedeploy(org: Id, m: Member, redeploy: Redeployer): (r: Option<bool>)
    ensures r.Some? <==> GatewayLive(m.gateway)
  {
    if GatewayLive(m.gateway) then Some(redeploy(org, m.memberId)) else None
  }

  // ---------------------------------------------------------------------------
  // List

  /** `GET /api/orgs/:orgId/me/skills`, keyed by skill id (the listing's
      order by type and name is not modelled). */
  function ListSkills(db: Db, user: Id, org: Id): (r: map<Id, Listed>)
    ensures forall id :: id in r <==> OrgSkill(db, org, id)
    ensures forall id | id in r ::
      && id in db.skills && r[id].skill == db.skills[id]
      && var s := db.skills[id];
         r[id].isAssigned <==> s.kind == Mandatory || ((user, s.id) in db.toggles && db.toggles[(user, s.id)])
  {
    map id | id in db.skills && OrgSkill(db, org, id) :: Listed(db.skills[id], Assigned(db, user, db.skills[id]))
  }

  // ---------------------------------------------------------------------------
  // Batch update

  datatype SkillUpdate = SkillUpdate(id: Id, enabled: bool)

  datatype BatchResult = BatchResult(updated: nat)

  /** The error for an update that fails validation. */
  function Rejection(db: Db, org: Id, id: Id): Reply<BatchResult> {
    if !OrgSkill(db, org, id) then Err(404, "not_found", "Skill " + id + " not found")
    else Err(400, "validation", "Cannot toggle mandatory skill " + id)
  }

  /** The validation loop: the error for the first update that is not
      toggleable, if any. */
  function Validate(db: Db, org: Id, us: seq<SkillUpdate>): (r: Option<Reply<BatchResult>>)
    ensures r.None? <==> forall i | 0 <= i < |us| :: Toggleable(db, org, us[i].id)
    ensures r.Some? ==> exists i | 0 <= i < |us| ::
      && !Toggleable(db, org, us[i].id)
      && (forall j | 0 <= j < i :: Toggleable(db, org, us[j].id))
      && r.value == Rejection(db, org, us[i].id)
  {
    if us == [] then None
    else if !Toggleable(db, org, us[0].id) then Some(Rejection(db, org, us[0].id))
    else
      var r := Validate(db, org, us[1..]);
      assert forall i | 1 <= i < |us| :: us[i] == us[1..][i - 1];
      r
  }

  /** `us[i]` is the last update naming `id`. */
  predicate LastFor(us: seq<SkillUpdate>, id: Id, i: nat)
    requires i < |us|
  {
    us[i].id == id && forall j | i < j < |us| :: us[j].id != id
  }

  /** The value the last update for `id` asks for, if any. */
  function LastValue(us: seq<SkillUpdate>, id: Id): (r: Option<bool>)
    ensures r.Some? <==> exists i | 0 <= i < |us| :: us[i].id == id
    ensures r.Some? ==> exists i | 0 <= i < |us| :: LastFor(us, id, i) && r.value == us[i].enabled
    decreases |us|
  {
    if us == [] then None
    else if us[|us| - 1].id == id then
      assert LastFor(us, id, |us| - 1);
      Some(us[|us| - 1].enabled)
    else
      var r := LastValue(us[..|us| - 1], id);
      assert forall i | 0 <= i < |us| - 1 :: us[..|us| - 1][i] == us[i];
      if r.Some? then
        LastForSnoc(us[..|us| - 1], us[|us| - 1], id, r.value);
        assert us[..|us| - 1] + [us[|us| - 1]] == us;
        r
      else r
  }

  /** An update for another id leaves the last update for `id` where it was. */
  lemma LastForSnoc(init: seq<SkillUpdate>, u: SkillUpdate, id: Id, v: bool)
    requires u.id != id
    requires exists i | 0 <= i < |init| :: LastFor(init, id, i) && v == init[i].enabled
    ensures exists i | 0 <= i < |init + [u]| :: LastFor(init + [u], id, i) && v == (init + [u])[i].enabled
  {
    var us := init + [u];
    var i :| 0 <= i < |init| && LastFor(init, id, i) && v == init[i].enabled;
    assert init[i] == us[i];
    assert LastFor(us, id, i);
  }

  lemma {:induction false} LastValueCons(us: seq<SkillUpdate>, id: Id)
    requires us != []
    ensures LastValue(us, id) ==
      if LastValue(us[1..], id).Some? then LastValue(us[1..], id)
      else if us[0].id == id then Some(us[0].enabled) else None
    decreases |us|
  {
    if |us| > 1 && us[|us| - 1].id != id {
      var init := us[..|us| - 1];
      assert init[1..] == us[1..][..|us[1..]| - 1];
      LastValueCons(init, id);
    }
  }

  /** The upserts of the transaction, in request order. */
  function ApplyToggles(t: map<(Id, Id), bool>, user: Id, us: seq<SkillUpdate>): (r: map<(Id, Id), bool>)
    ensures forall k :: k in r <==> k in t || (k.0 == user && LastValue(us, k.1).Some?)
    ensures forall k | k in r :: r[k] == if k.0 == user && LastValue(us, k.1).Some? then LastValue(us, k.1).value else t[k]
    decreases |us|
  {
    if us == [] then t
    else
      var r := ApplyToggles(t[(user, us[0].id) := us[0].enabled], user, us[1..]);
      forall k: (Id, Id) ensures LastValue(us, k.1) ==
        if LastValue(us[1..], k.1).Some? then LastValue(us[1..], k.1)
        else if us[0].id == k.1 then Some(us[0].enabled) else None
      {
        LastValueCons(us, k.1);
      }
      r
  }

  /** `PUT /api/orgs/:orgId/me/skills`. `updates` is `None` when the body's
      `skills` is not an array. */
  function BatchRoute(db: Db, org: Id, m: Member, updates: Option<seq<SkillUpdate>>, redeploy: Redeployer): (r: Outcome<BatchResult>)
    ensures (updates.None? || updates.value == []) ==> r.reply == Err(400, "validation", "skills array is required")
    ensures r.reply.Err? ==> r.db == db && r.redeployed.None?
    ensures updates.Some? && updates.value != [] ==>
      (r.reply.Err? <==> exists i | 0 <= i < |updates.value| :: !Toggleable(db, org, updates.value[i].id))
    ensures updates.Some? && updates.value != [] && Validate(db, org, updates.value).Some? ==>
      r.reply == Validate(db, org, updates.value).value
    ensures r.reply.Ok? ==>
      && r.reply == Ok(200, BatchResult(|updates.value|))
      && r.db == db.(toggles := ApplyToggles(db.toggles, m.userId, updates.value))
      && (r.redeployed.Some? <==> GatewayLive(m.gateway))
  {
    if updates.None? || updates.value == [] then
      Outcome(Err(400, "validation", "skills array is required"), db, None)
    else
      match Validate(db, org, updates.value)
      case Some(err) => Outcome(err, db, None)
      case None =>
        var db' := db.(toggles := ApplyToggles(db.toggles, m.userId, updates.value));
        Outcome(Ok(200, BatchResult(|updates.value|)), db', MaybeRedeploy(org, m, redeploy))
  }

  /** After a successful batch every listed skill the request named shows the
      value of its last update, and every other assignment is as before. */
  lemma BatchThenList(db: Db, org: Id, m: Member, us: seq<SkillUpdate>, redeploy: Redeployer, id: Id)
    requires Keyed(db) && BatchRoute(db, org, m, Some(us), redeploy).reply.Ok?
    ensures var after := ListSkills(BatchRoute(db, org, m, Some(us), redeploy).db, m.userId, org);
      var before := ListSkills(db, m.userId, org);
      && after.Keys == before.Keys
      && (id in after && LastValue(us, id).Some? ==> after[id].isAssigned == LastValue(us, id).value)
      && (id in after && LastValue(us, id).None? ==> after[id] == before[id])
  {
    var db' := BatchRoute(db, org, m, Some(us), redeploy).db;
    assert db'.skills == db.skills;
    var after := ListSkills(db', m.userId, org);
    if id in after {
      var s := db.skills[id];
      assert s.id == id;
      if LastValue(us, id).Some? {
        var i :| 0 <= i < |us| && us[i].id == id;
        assert Toggleable(db, org, us[i].id);
        assert after[id].isAssigned == db'.toggles[(m.userId, id)];
      }
    }
  }

  // ---------------------------------------------------------------------------
  // Single toggle

  /** `POST /api/orgs/:orgId/me/skills/:id`. */
  function ToggleRoute(db: Db, org: Id, m: Member, id: Id, enabled: bool, redeploy: Redeployer): (r: Outcome<Toggled>)
    ensures !OrgSkill(db, org, id) ==> r.reply == Err(404, "not_found", "Skill not found")
    ensures OrgSkill(db, org, id) && db.skills[id].kind == Mandatory ==> r.reply == Err(400, "validation", "Cannot toggle mandatory skills")
    ensures r.reply.Err? ==> r.db == db && r.redeployed.None?
    ensures r.reply.Ok? <==> Toggleable(db, org, id)
    ensures r.reply.Ok? ==>
      && r.reply == Ok(200, Toggled(id, enabled))
      && r.db == Upsert(db, m.userId, id, enabled)
      && (r.redeployed.Some? <==> GatewayLive(m.gateway))
  {
    if !OrgSkill(db, org, id) then Outcome(Err(404, "not_found", "Skill not found"), db, None)
    else if db.skills[id].kind == Mandatory then Outcome(Err(400, "validation", "Cannot toggle mandatory skills"), db, None)
    else Outcome(Ok(200, Toggled(id, enabled)), Upsert(db, m.userId, id, enabled), MaybeRedeploy(org, m, redeploy))
  }

  /** A toggle shows up in the listing: the skill is assigned exactly when it
      was toggled on. */
  lemma ToggleThenList(db: Db, org: Id, m: Member, id: Id, enabled: bool, redeploy: Redeployer)
    requires Keyed(db) && ToggleRoute(db, org, m, id, enabled, redeploy).reply.Ok?
    ensures var after := ListSkills(ToggleRoute(db, org, m, id, enabled, redeploy).db, m.userId, org);
      id in after && after[id].isAssigned == enabled
  {
  }

  /** The toggles applied one by one through the single-toggle route. */
  function ToggleEach(db: Db, org: Id, m: Member, us: seq<SkillUpdate>, redeploy: Redeployer): Db
    decreases |us|
  {
    if us == [] then db else ToggleEach(ToggleRoute(db, org, m, us[0].id, us[0].enabled, redeploy).db, org, m, us[1..], redeploy)
  }

  lemma {:induction false} ToggleEachIsApply(db: Db, org: Id, m: Member, us: seq<SkillUpdate>, redeploy: Redeployer)
    requires forall i | 0 <= i < |us| :: Toggleable(db, org, us[i].id)
    ensures ToggleEach(db, org, m, us, redeploy) == db.(toggles := ApplyToggles(db.toggles, m.userId, us))
    decreases |us|
  {
    if us != [] {
      var db1 := ToggleRoute(db, org, m, us[0].id, us[0].enabled, redeploy).db;
      assert db1 == db.(toggles := db.toggles[(m.userId, us[0].id) := us[0].enabled]);
      assert forall i | 0 <= i < |us[1..]| :: us[1..][i] == us[i + 1];
      ToggleEachIsApply(db1, org, m, us[1..], redeploy);
    }
  }

  /** A successful batch writes what the same toggles sent one at a time
      would write. */
  lemma BatchIsSequenceOfToggles(db: Db, org: Id, m: Member, us: seq<SkillUpdate>, redeploy: Redeployer)
    requires BatchRoute(db, org, m, Some(us), redeploy).reply.Ok?
    ensures BatchRoute(db, org, m, Some(us), redeploy).db == ToggleEach(db, org, m, us, redeploy)
  {
    ToggleEachIsApply(db, org, m, us, redeploy);
  }

  /** A failed redeploy is swallowed: the reply and the stored toggles do not
      depend on its outcome. */
  lemma RedeployFailureIgnored(db: Db, org: Id, m: Member, id: Id, enabled: bool, us: Option<seq<SkillUpdate>>, ok: Redeployer, failing: Redeployer)
    ensures ToggleRoute(db, org, m, id, enabled, ok).reply == ToggleRoute(db, org, m, id, enabled, failing).reply
    ensures ToggleRoute(db, org, m, id, enabled, ok).db == ToggleRoute(db, org, m, id, enabled, failing).db
    ensures BatchRoute(db, org, m, us, ok).reply == BatchRoute(db, org, m, us, failing).reply
    ensures BatchRoute(db, org, m, us, ok).db == BatchRoute(db, org, m, us, failing).db
  {
  }
}

=== FILE: posix_path.dfy ===
/** POSIX path handling as Node's `path` module does it on Linux: `split('/')`,
    `path.resolve`, `path.basename`, and the rendering of an absolute path as a
    string. An absolute path is kept as its sequence of segments. */
module PosixPath {

  /** A segment that survives normalisation: non-empty, not `.` or `..`, and
      free of the separator. Every name in a real directory is one. */
  predicate IsName(s: string) {
    s != "" && s != "." && s != ".." && '/' !in s
  }

  /** The segments of an absolute, normalised path. */
  predicate Canonical(p: seq<string>) {
    forall i | 0 <= i < |p| :: IsName(p[i])
  }

  predicate NoSeparator(ps: seq<string>) {
    forall i | 0 <= i < |ps| :: '/' !in ps[i]
  }

  // ---------------------------------------------------------------------------
  // split('/') and its inverse join('/')

  /** The pieces after one more character: a separator opens a new empty
      piece, any other character extends the last piece. */
  function Extend(ps: seq<string>, c: char): (r: seq<string>)
    requires |ps| >= 1
    ensures |r| >= 1
    ensures NoSeparator(ps) ==> NoSeparator(r)
  {
    if c == '/' then ps + [""] else ps[..|ps| - 1] + [ps[|ps| - 1] + [c]]
  }

  /** JavaScript `s.split('/')`: always at least one piece, none holding `/`. */
  function Split(s: string): (r: seq<string>)
    ensures |r| >= 1
    ensures NoSeparator(r)
    decreases |s|
  {
    if s == [] then [""] else Extend(Split(s[..|s| - 1]), s[|s| - 1])
  }

  /** `pieces.join('/')`. */
  function Join(ps: seq<string>): string
    requires |ps| >= 1
    decreases |ps|
  {
    if |ps| == 1 then ps[0] else Join(ps[..|ps| - 1]) + "/" + ps[|ps| - 1]
  }

  lemma {:induction false} JoinSplit(s: string)
    ensures Join(Split(s)) == s
    decreases |s|
  {
    if s != [] {
      var s' := s[..|s| - 1];
      JoinSplit(s');
      JoinExtend(Split(s'), s[|s| - 1]);
      assert s == s' + [s[|s| - 1]];
    }
  }

  /** Joining after one more character is joining before, plus that character. */
  lemma JoinExtend(ps: seq<string>, c: char)
    requires |ps| >= 1
    ensures Join(Extend(ps, c)) == Join(ps) + [c]
  {
    var r := Extend(ps, c);
    if c == '/' {
      assert r[..|r| - 1] == ps;
    } else if |ps| > 1 {
      var init := ps[..|ps| - 1];
      assert r[..|r| - 1] == init;
      assert Join(ps) == Join(init) + "/" + ps[|ps| - 1];
      assert Join(r) == Join(init) + "/" + (ps[|ps| - 1] + [c]);
    }
  }

  lemma {:induction false} SplitJoin(ps: seq<string>)
    requires |ps| >= 1 && NoSeparator(ps)
    ensures Split(Join(ps)) == ps
    decreases |ps|
  {
    if |ps| == 1 {
      SplitName(ps[0]);
    } else {
      var init := ps[..|ps| - 1];
      SplitJoin(init);
      SplitConcat(Join(init), ps[|ps| - 1]);
      SplitName(ps[|ps| - 1]);
    }
  }

  /** Lists of pieces without separators join to different strings. */
  lemma JoinInjective(a: seq<string>, b: seq<string>)
    requires |a| >= 1 && NoSeparator(a) && |b| >= 1 && NoSeparator(b)
    requires Join(a) == Join(b)
    ensures a == b
  {
    SplitJoin(a);
    SplitJoin(b);
  }

  /** A string without separator splits into itself. */
  lemma {:induction false} SplitName(s: string)
    requires '/' !in s
    ensures Split(s) == [s]
    decreases |s|
  {
    if s != [] {
      SplitName(s[..|s| - 1]);
      assert s[..|s| - 1] + [s[|s| - 1]] == s;
    }
  }

  /** One more character at the end either opens a new piece or extends the
      last one. */
  lemma SplitSnoc(s: string, c: char)
    ensures Split(s + [c]) == Extend(Split(s), c)
    ensures c == '/' ==> Split(s + [c]) == Split(s) + [""]
  {
    assert (s + [c])[..|s + [c]| - 1] == s;
  }

  lemma {:induction false} SplitConcat(a: string, b: string)
    ensures Split(a + "/" + b) == Split(a) + Split(b)
    decreases |b|
  {
    if b == [] {
      assert a + "/" + b == a + ['/'];
      SplitSnoc(a, '/');
    } else {
      var b', c := b[..|b| - 1], b[|b| - 1];
      var s := a + "/" + b';
      calc {
        Split(a + "/" + b);
        { assert b == b' + [c]; assert a + "/" + b == s + [c]; }
        Split(s + [c]);
        { SplitSnoc(s, c); }
        Extend(Split(s), c);
        { SplitConcat(a, b'); }
        Extend(Split(a) + Split(b'), c);
        { ExtendAppend(Split(a), Split(b'), c); }
        Split(a) + Extend(Split(b'), c);
        { SplitSnoc(b', c); assert b == b' + [c]; }
        Split(a) + Split(b);
      }
    }
  }

  /** Extending a list of pieces only touches its last piece. */
  lemma ExtendAppend(x: seq<string>, y: seq<string>, c: char)
    requires |y| >= 1
    ensures Extend(x + y, c) == x + Extend(y, c)
  {
    var xy := x + y;
    if c == '/' {
      assert xy + [""] == x + (y + [""]);
    } else {
      var z := y[|y| - 1] + [c];
      assert xy[|xy| - 1] == y[|y| - 1];
      assert xy[..|xy| - 1] == x + y[..|y| - 1];
      assert x + y[..|y| - 1] + [z] == x + (y[..|y| - 1] + [z]);
    }
  }

  // ---------------------------------------------------------------------------
  // path.resolve

  /** One segment of `path.resolve`'s normalisation: empty and `.` segments are
      dropped, `..` removes the last segment (and stays at the root). */
  function Step(acc: seq<string>, seg: string): seq<string> {
    if seg == "" || seg == "." then acc
    else if seg == ".." then (if acc == [] then [] else acc[..|acc| - 1])
    else acc + [seg]
  }

  function Fold(acc: seq<string>, segs: seq<string>): (r: seq<string>)
    requires Canonical(acc) && NoSeparator(segs)
    ensures Canonical(r)
    decreases |segs|
  {
    if segs == [] then acc else Fold(Step(acc, segs[0]), segs[1..])
  }

  /** `path.resolve(base, p)` for an absolute, normalised `base`: an absolute
      `p` starts again from the root, a relative one from `base`. */
  function Resolve(base: seq<string>, p: string): (r: seq<string>)
    requires Canonical(base)
    ensures Canonical(r)
  {
    Fold(if |p| > 0 && p[0] == '/' then [] else base, Split(p))
  }

  lemma {:induction false} FoldNames(acc: seq<string>, segs: seq<string>)
    requires Canonical(acc) && Canonical(segs)
    ensures Fold(acc, segs) == acc + segs
    decreases |segs|
  {
    if segs != [] {
      FoldNames(acc + [segs[0]], segs[1..]);
      assert acc + [segs[0]] + segs[1..] == acc + segs;
    }
  }

  /** Resolving the `/`-joined form of a relative list of names descends into
      exactly those names. */
  lemma ResolveJoined(base: seq<string>, rel: seq<string>)
    requires Canonical(base) && Canonical(rel) && |rel| >= 1
    ensures Resolve(base, Join(rel)) == base + rel
  {
    SplitJoin(rel);
    JoinFirst(rel);
    FoldNames(base, rel);
  }

  lemma {:induction false} JoinFirst(rel: seq<string>)
    requires Canonical(rel) && |rel| >= 1
    ensures |Join(rel)| > 0 && Join(rel)[0] == rel[0][0]
    decreases |rel|
  {
    if |rel| > 1 {
      JoinFirst(rel[..|rel| - 1]);
    }
  }

  lemma ResolveDot(base: seq<string>)
    requires Canonical(base)
    ensures Resolve(base, ".") == base
  {
    SplitName(".");
    assert Fold(base, ["."]) == Fold(base, ["."][1..]);
  }

  lemma ResolveDotDot(base: seq<string>)
    requires Canonical(base) && base != []
    ensures Resolve(base, "..") == base[..|base| - 1]
  {
    SplitName("..");
    assert Step(base, "..") == base[..|base| - 1];
    assert Fold(base, [".."]) == Fold(base[..|base| - 1], []);
  }

  lemma ResolveUp(base: seq<string>, name: string)
    requires Canonical(base) && IsName(name)
    ensures Resolve(base, name + "/..") == base
  {
    SplitPair(name, "..");
    assert name + "/.." == name + "/" + "..";
    assert Split(name + "/..") == [name, ".."];
    assert Fold(base + [name], [".."]) == Fold(base, []);
  }

  lemma ResolveXUp(base: seq<string>)
    requires Canonical(base)
    ensures Resolve(base, "x/..") == base
  {
    ResolveUp(base, "x");
    assert "x" + "/.." == "x/..";
  }

  /** `..` followed by a name replaces the last segment of `base`. */
  lemma ResolveParent(base: seq<string>, name: string)
    requires Canonical(base) && |base| >= 1 && IsName(name)
    ensures Resolve(base, "../" + name) == base[..|base| - 1] + [name]
  {
    var p := "../" + name;
    SplitParent(name);
    assert p[0] == '.';
    var parent := base[..|base| - 1];
    assert Step(base, "..") == parent;
    assert Fold(base, ["..", name]) == Fold(parent, [name]);
    assert Fold(parent, [name]) == Fold(parent + [name], []);
  }

  lemma SplitParent(name: string)
    requires IsName(name)
    ensures Split("../" + name) == ["..", name]
  {
    SplitPair("..", name);
    assert ".." + "/" + name == "../" + name;
  }

  lemma SplitPair(a: string, b: string)
    requires '/' !in a && '/' !in b
    ensures Split(a + "/" + b) == [a, b]
  {
    SplitConcat(a, b);
    SplitName(a);
    SplitName(b);
  }

  // ---------------------------------------------------------------------------
  // Absolute paths as strings

  function Abs(p: seq<string>): string
    decreases |p|
  {
    if p == [] then "" else "/" + p[0] + Abs(p[1..])
  }

  /** The string `path.resolve` returns for the absolute path `p`. */
  function Render(p: seq<string>): string {
    if p == [] then "/" else Abs(p)
  }

  lemma {:induction false} AbsConcat(a: seq<string>, b: seq<string>)
    ensures Abs(a + b) == Abs(a) + Abs(b)
    decreases |a|
  {
    if a != [] {
      assert (a + b)[1..] == a[1..] + b;
      AbsConcat(a[1..], b);
      calc {
        Abs(a + b);
        "/" + a[0] + Abs(a[1..] + b);
        "/" + a[0] + (Abs(a[1..]) + Abs(b));
        ("/" + a[0] + Abs(a[1..])) + Abs(b);
      }
    } else {
      assert a + b == b;
    }
  }

  /** Appending the separator to the rendered forms turns the string-prefix
      order into the segment-prefix order. */
  lemma {:induction false} SlashedPrefix(a: seq<string>, b: seq<string>)
    requires Canonical(a) && Canonical(b)
    ensures (Abs(a) + "/" <= Abs(b) + "/") <==> a <= b
    decreases |a|
  {
    if a != [] {
      var x, a' := a[0], a[1..];
      var A := Abs(a') + "/";
      assert Abs(a) + "/" == "/" + x + A;
      assert A[0] == '/' by { SlashFirst(a'); }
      if b == [] {
        assert !(a <= b);
      } else {
        var y, b' := b[0], b[1..];
        var B := Abs(b') + "/";
        assert Abs(b) + "/" == "/" + y + B;
        assert B[0] == '/' by { SlashFirst(b'); }
        SlashedPrefix(a', b');
        SlashConsPrefix(x, y, A, B);
        ConsPrefix(a, b);
      }
    }
  }

  /** Two `/name...` strings: one is a prefix of the other exactly when the
      names agree and the rests are prefixes. */
  lemma SlashConsPrefix(x: string, y: string, A: string, B: string)
    requires '/' !in x && '/' !in y
    requires |A| > 0 && A[0] == '/' && |B| > 0 && B[0] == '/'
    ensures ("/" + x + A <= "/" + y + B) <==> (x == y && A <= B)
  {
    if "/" + x + A <= "/" + y + B {
      assert x + A <= y + B by {
        assert ("/" + x + A)[1..] == x + A;
        assert ("/" + y + B)[1..] == y + B;
      }
      NameBoundary(x, y, A, B);
    }
    if x == y && A <= B {
      assert "/" + x + B == "/" + x + A + B[|A|..];
    }
  }

  lemma ConsPrefix<T>(a: seq<T>, b: seq<T>)
    requires a != [] && b != []
    ensures a <= b <==> a[0] == b[0] && a[1..] <= b[1..]
  {
    if a[0] == b[0] && a[1..] <= b[1..] {
      assert a == [a[0]] + a[1..] && b == [b[0]] + b[1..];
    }
  }

  /** Two separator-free names each followed by a separator: one is a prefix
      of the other only if the names agree. */
  lemma NameBoundary(x: string, y: string, A: string, B: string)
    requires '/' !in x && '/' !in y
    requires |A| > 0 && A[0] == '/' && |B| > 0 && B[0] == '/'
    requires x + A <= y + B
    ensures x == y && A <= B
  {
    if |x| < |y| {
      CharAt(x + A, y + B, |x|);
      assert false;
    } else if |y| < |x| {
      CharAt(x + A, y + B, |y|);
      assert false;
    }
    assert x == (x + A)[..|x|];
    assert (x + A)[|x|..] == A;
  }

  lemma CharAt(u: string, v: string, i: int)
    requires u <= v && 0 <= i < |u|
    ensures u[i] == v[i]
  {
  }

  lemma SlashFirst(p: seq<string>)
    ensures (Abs(p) + "/")[0] == '/'
  {
  }

  /** The installer's guard, on the strings Node computes: the source equals the
      checkout, or starts with the checkout followed by the separator. */
  predicate GuardAccepts(root: string, src: string) {
    src == root || root + "/" <= src
  }

  /** For any checkout other than the root directory, the string-prefix guard
      accepts exactly the paths that are the checkout or lie inside it. */
  lemma GuardIsContainment(root: seq<string>, src: seq<string>)
    requires Canonical(root) && Canonical(src) && root != []
    ensures GuardAccepts(Render(root), Render(src)) <==> root <= src
  {
    if src == [] {
      assert |Abs(root)| >= 2;
    } else {
      if Render(src) == Render(root) {
        RenderInjective(root, src);
      }
      if Render(root) + "/" <= Render(src) {
        assert Render(root) + "/" <= Abs(src) + "/";
        SlashedPrefix(root, src);
      }
      if root <= src && root != src {
        RenderDescendant(root, src);
      }
    }
  }

  lemma RenderInjective(a: seq<string>, b: seq<string>)
    requires Canonical(a) && Canonical(b) && a != [] && b != []
    requires Render(a) == Render(b)
    ensures a == b
  {
    assert Abs(a) + "/" == Abs(b) + "/";
    SlashedPrefix(a, b);
    SlashedPrefix(b, a);
  }

  lemma RenderDescendant(root: seq<string>, src: seq<string>)
    requires Canonical(src) && root != [] && root <= src && root != src
    ensures Render(root) + "/" <= Render(src)
  {
    var rest := src[|root|..];
    assert src == root + rest;
    AbsConcat(root, rest);
    var x, y := Abs(root) + "/", rest[0] + Abs(rest[1..]);
    assert Abs(rest) == "/" + y;
    assert Abs(src) == x + y;
    assert (x + y)[..|x|] == x;
  }

  // ---------------------------------------------------------------------------
  // path.basename

  function TrimTrailingSlashes(s: string): string
    decreases |s|
  {
    if |s| > 0 && s[|s| - 1] == '/' then TrimTrailingSlashes(s[..|s| - 1]) else s
  }

  function AfterLastSlash(s: string): string
    decreases |s|
  {
    if s == [] || s[|s| - 1] == '/' then "" else AfterLastSlash(s[..|s| - 1]) + [s[|s| - 1]]
  }

  /** `path.basename(s)`: trailing separators are ignored, then everything up
      to the last separator is dropped. */
  function Basename(s: string): (r: string)
    ensures '/' !in r
  {
    AfterLastSlashHasNoSlash(TrimTrailingSlashes(s));
    AfterLastSlash(TrimTrailingSlashes(s))
  }

  lemma {:induction false} AfterLastSlashHasNoSlash(s: string)
    ensures '/' !in AfterLastSlash(s)
    decreases |s|
  {
    if s != [] && s[|s| - 1] != '/' {
      AfterLastSlashHasNoSlash(s[..|s| - 1]);
    }
  }

  /** The last piece of `split('/')` is what follows the last separator. */
  lemma {:induction false} LastPiece(s: string)
    ensures Split(s)[|Split(s)| - 1] == AfterLastSlash(s)
    decreases |s|
  {
    if s != [] {
      LastPiece(s[..|s| - 1]);
    }
  }

  lemma {:induction false} TrimTrailingEmpty(s: string)
    ensures TrimTrailingSlashes(s) == "" <==> forall i | 0 <= i < |s| :: s[i] == '/'
    decreases |s|
  {
    if |s| > 0 && s[|s| - 1] == '/' {
      TrimTrailingEmpty(s[..|s| - 1]);
      assert forall i | 0 <= i < |s| - 1 :: s[..|s| - 1][i] == s[i];
    }
  }

  /** What follows the last separator of `a/name` is `name`. */
  lemma {:induction false} AfterSlashName(a: string, name: string)
    requires '/' !in name
    ensures AfterLastSlash(a + "/" + name) == name
    decreases |name|
  {
    if name == [] {
      assert a + "/" + name == a + "/";
    } else {
      var t := a + "/" + name;
      var n' := name[..|name| - 1];
      assert t[..|t| - 1] == a + "/" + n';
      AfterSlashName(a, n');
      assert name == n' + [name[|name| - 1]];
    }
  }
}

=== FILE: shared.dfy ===
/** Row types and the provider registry shared by the API and the web client
    (packages/shared/src/index.ts). */
module Shared {
  import opened Wrappers

  type Id = string

  // ---------------------------------------------------------------------------
  // Tiers

  datatype OrgTier = Free | Pro | Enterprise

  function TierName(t: OrgTier): string {
    match t
    case Free => "free"
    case Pro => "pro"
    case Enterprise => "enterprise"
  }

  /** The tier a request string names, if any. */
  function ParseTier(s: string): (r: Option<OrgTier>)
    ensures r.Some? ==> TierName(r.value) == s
    ensures r.None? ==> forall t: OrgTier :: TierName(t) != s
  {
    if s == "free" then Some(Free)
    else if s == "pro" then Some(Pro)
    else if s == "enterprise" then Some(Enterprise)
    else None
  }

  lemma ParseTierName(t: OrgTier)
    ensures ParseTier(TierName(t)) == Some(t)
  {
  }

  // ---------------------------------------------------------------------------
  // Skills

  datatype SkillType = Mandatory | Optional | Restricted

  /** A row of the `skills` table; `created_at` is not modelled. */
  datatype Skill = Skill(
    id: Id,
    name: string,
    description: Option<string>,
    kind: SkillType,
    path: string,
    gitUrl: Option<string>,
    gitPath: Option<string>,
    orgId: Option<Id>,
    enabled: bool)

  datatype GatewayStatus = Running | Stopped | Deploying | Provisioning

  /** The gateway columns of an `org_members` or `users` row. */
  datatype Gateway = Gateway(port: Option<int>, status: Option<GatewayStatus>)

  /** `gateway_port && (status === 'running' || status === 'deploying')`:
      a port of 0 is falsy, so it counts as no port. */
  predicate GatewayLive(g: Gateway) {
    g.port.Some? && g.port.value != 0
    && g.status.Some? && (g.status.value == Running || g.status.value == Deploying)
  }

  // ---------------------------------------------------------------------------
  // Provider registry

  datatype CredentialType = ApiKey | Token | OAuth

  function CredentialTypeName(c: CredentialType): string {
    match c
    case ApiKey => "api_key"
    case Token => "token"
    case OAuth => "oauth"
  }

  /** One entry of `PROVIDERS` (`displayName` is its `label`); an absent
      optional flag is `false`. */
  datatype Provider = Provider(
    id: string,
    displayName: string,
    envVar: string,
    placeholder: string,
    defaultModel: string,
    supportsSetupToken: bool,
    setupTokenInstructions: Option<string>,
    supportsOAuth: bool,
    oauthInstructions: Option<string>)

  const Providers: seq<Provider> := [
    Provider("anthropic", "Anthropic", "ANTHROPIC_API_KEY", "sk-ant-...", "anthropic/claude-sonnet-4-5",
      true, Some("Run `claude setup-token` in your terminal and paste the result here."), false, None),
    Provider("openai", "OpenAI", "OPENAI_API_KEY", "sk-...", "openai/gpt-4.1",
      false, None, false, None),
    Provider("openai-codex", "OpenAI Codex", "", "", "openai-codex/gpt-5.3-codex",
      false, None, true, Some("Run `codex` and sign in with your ChatGPT account, then run `cat ~/.codex/auth.json` and paste the JSON here.")),
    Provider("openrouter", "OpenRouter", "OPENROUTER_API_KEY", "sk-or-...", "openrouter/anthropic/claude-sonnet-4.5",
      false, None, false, None),
    Provider("google", "Google Gemini", "GEMINI_API_KEY", "AIza...", "google/gemini-2.5-pro",
      false, None, false, None)
  ]

  /** `PROVIDERS.map((p) => p.id)`. */
  function ProviderIds(): (ids: seq<string>)
    ensures |ids| == |Providers|
    ensures forall i | 0 <= i < |Providers| :: ids[i] == Providers[i].id
  {
    seq(|Providers|, i requires 0 <= i < |Providers| => Providers[i].id)
  }

  /** `PROVIDERS.find((p) => p.id === id)`. */
  function FindProvider(id: string): (r: Option<Provider>)
    ensures r.Some? <==> id in ProviderIds()
    ensures r.Some? ==> r.value in Providers && r.value.id == id
  {
    FindIn(Providers, id)
  }

  function FindIn(ps: seq<Provider>, id: string): (r: Option<Provider>)
    ensures r.Some? <==> exists i | 0 <= i < |ps| :: ps[i].id == id
    ensures r.Some? ==> r.value in ps && r.value.id == id
  {
    if ps == [] then None
    else if ps[0].id == id then Some(ps[0])
    else
      var r := FindIn(ps[1..], id);
      assert forall i | 1 <= i < |ps| :: ps[i] == ps[1..][i - 1];
      r
  }

  lemma ProviderIdsDistinct()
    ensures forall i, j | 0 <= i < j < |Providers| :: Providers[i].id != Providers[j].id
  {
  }

  /** openai-codex is the only provider without an environment variable, and
      it takes OAuth credentials. */
  lemma OnlyCodexLacksEnvVar()
    ensures forall i | 0 <= i < |Providers| :: Providers[i].envVar == "" <==> Providers[i].id == "openai-codex"
    ensures forall i | 0 <= i < |Providers| :: Providers[i].envVar == "" ==> Providers[i].supportsOAuth
  {
  }

  /** The provider's default model is named `<id>/<model>`. */
  predicate Qualified(p: Provider) {
    p.id + "/" <= p.defaultModel
  }

  lemma DefaultModelsQualified()
    ensures forall i | 0 <= i < |Providers| :: Qualified(Providers[i])
  {
    assert Qualified(Providers[0]) && Qualified(Providers[1]) && Qualified(Providers[2]);
    assert Qualified(Providers[3]) && Qualified(Providers[4]);
  }
}

=== FILE: skill_installer.dfy ===
/** The skill repository cache, scanner and installer
    (apps/api/src/services/skill-installer.ts).

    The file system is a `Checkouts` map from checkout directory to the tree
    it holds; git is an oracle that answers each command with an exit status,
    its stderr and the checkout it leaves behind; SHA-256 is a function of the
    configuration. */
module SkillInstaller {
  import opened Wrappers
  import opened PosixPath
  import opened FileTree
  import opened Shared

  const MarkerFile: string := "SKILL.md"
  const GitDir: string := ".git"
  const RepoCacheDir: string := "skill-repos"
  const PullTimeoutMs: nat := 30000
  const CloneTimeoutMs: nat := 60000
  const CloneDepth: nat := 1

  predicate IsHexDigit(c: char) {
    '0' <= c <= '9' || 'a' <= c <= 'f'
  }

  /** A SHA-256 digest as `digest('hex')` prints it. */
  type HexDigest = s: string | |s| == 64 && forall i | 0 <= i < |s| :: IsHexDigit(s[i])
    witness seq(64, _ => '0')

  type AbsPath = p: seq<string> | Canonical(p) witness []

  /** Process-wide configuration: the data directory (`DATA_DIR`, or `./data`
      resolved against the working directory) and the hash function. */
  datatype Config = Config(dataDir: AbsPath, sha256: string -> HexDigest)

  // ---------------------------------------------------------------------------
  // Repo cache

  /** The first 16 hex characters of SHA-256(url). */
  function CacheKey(cfg: Config, url: string): (k: string)
    ensures |k| == 16 && IsName(k)
  {
    var d := cfg.sha256(url);
    var k := d[..16];
    assert forall i | 0 <= i < 16 :: IsHexDigit(k[i]);
    assert k[0] != '.';
    k
  }

  /** `getRepoDir`: `<dataDir>/skill-repos/<key>`. */
  function RepoDir(cfg: Config, url: string): (r: AbsPath)
    ensures |r| == |cfg.dataDir| + 2 && cfg.dataDir + [RepoCacheDir] <= r
    ensures r[|r| - 1] == CacheKey(cfg, url)
  {
    cfg.dataDir + [RepoCacheDir, CacheKey(cfg, url)]
  }

  /** Two URLs share a checkout exactly when their cache keys agree; in
      particular a URL always maps to the same checkout. */
  lemma RepoDirSharedIffSameKey(cfg: Config, u1: string, u2: string)
    ensures RepoDir(cfg, u1) == RepoDir(cfg, u2) <==> CacheKey(cfg, u1) == CacheKey(cfg, u2)
  {
    if RepoDir(cfg, u1) == RepoDir(cfg, u2) {
      assert RepoDir(cfg, u1)[|cfg.dataDir| + 1] == RepoDir(cfg, u2)[|cfg.dataDir| + 1];
    }
  }

  /** The URL check: `^https?://` or `^git@`. */
  predicate IsGitUrl(url: string) {
    "http://" <= url || "https://" <= url || "git@" <= url
  }

  datatype GitCommand =
    | Pull(cwd: seq<string>, timeoutMs: nat)
    | Clone(url: string, dest: seq<string>, depth: nat, timeoutMs: nat)

  /** What one `spawnSync('git', ...)` reports: the exit status (none when the
      process was killed at its timeout), stderr, and the checkout it leaves. */
  datatype GitRun = GitRun(status: Option<int>, stderr: string, tree: Tree)

  type Git = GitCommand -> GitRun

  type Checkouts = map<seq<string>, Tree>

  datatype RepoError =
    | InvalidGitUrl(url: string)
    | PullFailed(stderr: string)
    | CloneFailed(stderr: string)
  {
    /** The `message` of the thrown `Error`. */
    function Message(): string {
      match this
      case InvalidGitUrl(u) => "Invalid git URL: " + u
      case PullFailed(e) => "git pull failed: " + e
      case CloneFailed(e) => "git clone failed: " + e
    }
  }

  datatype Sync = Sync(command: Option<GitCommand>, result: Result<AbsPath, RepoError>, checkouts: Checkouts)

  /** Pull when the checkout already holds `.git`, otherwise a shallow clone. */
  function SyncCommand(cfg: Config, url: string, checkouts: Checkouts): GitCommand {
    var dir := RepoDir(cfg, url);
    if dir in checkouts && Has(checkouts[dir], GitDir) then Pull(dir, PullTimeoutMs)
    else Clone(url, dir, CloneDepth, CloneTimeoutMs)
  }

  /** `cloneOrUpdateRepo`. */
  function CloneOrUpdateRepo(cfg: Config, url: string, checkouts: Checkouts, git: Git): (r: Sync)
    ensures !IsGitUrl(url) ==> r.command.None? && r.result == Failure(InvalidGitUrl(url)) && r.checkouts == checkouts
    ensures IsGitUrl(url) ==> r.command == Some(SyncCommand(cfg, url, checkouts))
    ensures r.result.Success? <==> IsGitUrl(url) && git(SyncCommand(cfg, url, checkouts)).status == Some(0)
    ensures r.result.Success? ==>
      && r.result.value == RepoDir(cfg, url)
      && r.checkouts == checkouts[RepoDir(cfg, url) := git(SyncCommand(cfg, url, checkouts)).tree]
    ensures r.result.Failure? ==> r.checkouts == checkouts
  {
    if !IsGitUrl(url) then Sync(None, Failure(InvalidGitUrl(url)), checkouts)
    else
      var dir := RepoDir(cfg, url);
      var cmd := SyncCommand(cfg, url, checkouts);
      var run := git(cmd);
      if run.status != Some(0) then
        Sync(Some(cmd), Failure(if cmd.Pull? then PullFailed(run.stderr) else CloneFailed(run.stderr)), checkouts)
      else
        Sync(Some(cmd), Success(dir), checkouts[dir := run.tree])
  }

  // ---------------------------------------------------------------------------
  // Scanner

  /** A directory the walk reports, by name and path relative to the checkout. */
  datatype Found = Found(name: string, rel: seq<string>)

  /** One element of `scanRepoForSkills`' result. */
  datatype ScanResult = ScanResult(name: string, gitPath: string)

  predicate Pruned(name: string) {
    name == ".git" || name == "node_modules"
  }

  predicate HasMarker(n: Node) {
    Has(n, MarkerFile)
  }

  /** `walk`, from entry `i` of `dir` on; `prefix` is `dir` relative to the
      checkout. */
  function WalkFrom(dir: Node, i: nat, prefix: seq<string>): (r: seq<Found>)
    requires dir.Dir? && i <= |dir.entries|
    ensures forall f | f in r :: |f.rel| > |prefix| && f.rel[..|prefix|] == prefix
    decreases dir, |dir.entries| - i
  {
    if i == |dir.entries| then []
    else
      var e := dir.entries[i];
      var here :=
        if e.node.Dir? && !Pruned(e.name) then
          var sub := prefix + [e.name];
          var below := WalkFrom(e.node, 0, sub);
          assert forall f | f in below :: f.rel[..|prefix|] == prefix by {
            forall f | f in below ensures f.rel[..|prefix|] == prefix {
              assert f.rel[..|sub|][..|prefix|] == prefix;
            }
          }
          (if HasMarker(e.node) then [Found(e.name, sub)] else []) + below
        else [];
      here + WalkFrom(dir, i + 1, prefix)
  }

  function Walk(root: Tree): seq<Found> {
    WalkFrom(root, 0, [])
  }

  /** The reference: `rel` names a directory below `root` holding the marker,
      reached without passing through a pruned directory. */
  predicate IsSkillDir(root: Node, rel: seq<string>) {
    && |rel| >= 1
    && (forall i | 0 <= i < |rel| :: !Pruned(rel[i]))
    && match Lookup(root, rel)
       case Some(d) => d.Dir? && HasMarker(d)
       case None => false
  }

  lemma {:induction false} LookupNames(n: Node, p: seq<string>)
    requires WellFormed(n) && Lookup(n, p).Some?
    ensures Canonical(p)
    decreases |p|
  {
    if p != [] {
      var k := IndexOf(n.entries, p[0]);
      LookupNames(n.entries[k].node, p[1..]);
      assert forall i | 1 <= i < |p| :: p[i] == p[1..][i - 1];
    }
  }

  lemma {:induction false} WalkFromSound(dir: Node, i: nat, prefix: seq<string>, f: Found)
    requires dir.Dir? && WellFormed(dir) && i <= |dir.entries|
    requires f in WalkFrom(dir, i, prefix)
    ensures |f.rel| > |prefix| && f.rel[..|prefix|] == prefix
    ensures IsSkillDir(dir, f.rel[|prefix|..]) && f.name == f.rel[|f.rel| - 1]
    decreases dir, |dir.entries| - i
  {
    var e := dir.entries[i];
    var rest := WalkFrom(dir, i + 1, prefix);
    if f in rest {
      WalkFromSound(dir, i + 1, prefix, f);
    } else {
      var sub := prefix + [e.name];
      assert e.node.Dir? && !Pruned(e.name);
      if HasMarker(e.node) && f == Found(e.name, sub) {
        EntryIsSkillDir(dir, i, prefix, f);
      } else {
        assert f in WalkFrom(e.node, 0, sub);
        WalkFromSound(e.node, 0, sub, f);
        BelowEntryIsSkillDir(dir, i, prefix, f);
      }
    }
  }

  lemma EntryIsSkillDir(dir: Node, i: nat, prefix: seq<string>, f: Found)
    requires dir.Dir? && WellFormed(dir) && i < |dir.entries|
    requires dir.entries[i].node.Dir? && !Pruned(dir.entries[i].name) && HasMarker(dir.entries[i].node)
    requires f == Found(dir.entries[i].name, prefix + [dir.entries[i].name])
    ensures |f.rel| > |prefix| && f.rel[..|prefix|] == prefix
    ensures IsSkillDir(dir, f.rel[|prefix|..]) && f.name == f.rel[|f.rel| - 1]
  {
    var e := dir.entries[i];
    ChildAt(dir, i);
    assert f.rel[|prefix|..] == [e.name];
    assert Lookup(dir, [e.name]) == Lookup(e.node, []);
  }

  lemma BelowEntryIsSkillDir(dir: Node, i: nat, prefix: seq<string>, f: Found)
    requires dir.Dir? && WellFormed(dir) && i < |dir.entries|
    requires dir.entries[i].node.Dir? && !Pruned(dir.entries[i].name)
    requires var sub := prefix + [dir.entries[i].name];
      && |f.rel| > |sub| && f.rel[..|sub|] == sub
      && IsSkillDir(dir.entries[i].node, f.rel[|sub|..]) && f.name == f.rel[|f.rel| - 1]
    ensures |f.rel| > |prefix| && f.rel[..|prefix|] == prefix
    ensures IsSkillDir(dir, f.rel[|prefix|..]) && f.name == f.rel[|f.rel| - 1]
  {
    var e := dir.entries[i];
    var sub := prefix + [e.name];
    ChildAt(dir, i);
    var r' := f.rel[|sub|..];
    assert f.rel[..|sub|][..|prefix|] == prefix;
    var r := f.rel[|prefix|..];
    assert r == [e.name] + r';
    assert r[1..] == r';
    assert Lookup(dir, r) == Lookup(e.node, r');
    assert forall j | 1 <= j < |r| :: r[j] == r'[j - 1];
  }

  lemma {:induction false} WalkFromComplete(dir: Node, i: nat, prefix: seq<string>, r: seq<string>)
    requires dir.Dir? && WellFormed(dir) && i <= |dir.entries|
    requires IsSkillDir(dir, r) && IndexOf(dir.entries, r[0]) >= i
    ensures Found(r[|r| - 1], prefix + r) in WalkFrom(dir, i, prefix)
    decreases dir, |dir.entries| - i, 1
  {
    var k := SkillDirStep(dir, r);
    if IndexOf(dir.entries, r[0]) == i {
      WalkFromCompleteHere(dir, i, prefix, r);
    } else {
      WalkFromComplete(dir, i + 1, prefix, r);
    }
  }

  lemma {:induction false} WalkFromCompleteHere(dir: Node, i: nat, prefix: seq<string>, r: seq<string>)
    requires dir.Dir? && WellFormed(dir) && i < |dir.entries|
    requires IsSkillDir(dir, r) && IndexOf(dir.entries, r[0]) == i
    ensures Found(r[|r| - 1], prefix + r) in WalkFrom(dir, i, prefix)
    decreases dir, |dir.entries| - i, 0
  {
    var k := SkillDirStep(dir, r);
    if |r| > 1 {
      WalkFromCompleteBelow(dir, i, prefix, r);
    } else {
      assert prefix + r == prefix + [dir.entries[i].name];
      WalkFromAt(dir, i, prefix, Found(r[0], prefix + r));
    }
  }

  lemma {:induction false} WalkFromCompleteBelow(dir: Node, i: nat, prefix: seq<string>, r: seq<string>)
    requires dir.Dir? && i < |dir.entries| && |r| > 1
    requires var e := dir.entries[i];
      && e.name == r[0] && !Pruned(e.name)
      && e.node.Dir? && WellFormed(e.node) && IsSkillDir(e.node, r[1..])
    ensures Found(r[|r| - 1], prefix + r) in WalkFrom(dir, i, prefix)
    decreases dir, |dir.entries| - i, -1
  {
    var e := dir.entries[i];
    var sub := prefix + [e.name];
    var f := Found(r[|r| - 1], prefix + r);
    WalkFromComplete(e.node, 0, sub, r[1..]);
    ConsTail(prefix, r);
    WalkFromAt(dir, i, prefix, f);
  }

  lemma ConsTail(prefix: seq<string>, r: seq<string>)
    requires |r| > 1
    ensures prefix + [r[0]] + r[1..] == prefix + r
    ensures r[1..][|r[1..]| - 1] == r[|r| - 1]
  {
    assert [r[0]] + r[1..] == r;
  }

  /** Entry `i` of `dir`, a directory the walk enters, contributes its own
      report and everything below it. */
  lemma WalkFromAt(dir: Node, i: nat, prefix: seq<string>, f: Found)
    requires dir.Dir? && i < |dir.entries|
    requires dir.entries[i].node.Dir? && !Pruned(dir.entries[i].name)
    requires var e := dir.entries[i];
      || (HasMarker(e.node) && f == Found(e.name, prefix + [e.name]))
      || f in WalkFrom(e.node, 0, prefix + [e.name])
    ensures f in WalkFrom(dir, i, prefix)
  {
  }

  /** A skill directory below `dir` goes through an entry that is itself a
      directory, not pruned, and either is the skill or contains it. */
  lemma SkillDirStep(dir: Node, r: seq<string>) returns (k: nat)
    requires dir.Dir? && WellFormed(dir) && IsSkillDir(dir, r)
    ensures k == IndexOf(dir.entries, r[0]) && k < |dir.entries|
    ensures dir.entries[k].name == r[0] && !Pruned(r[0])
    ensures dir.entries[k].node.Dir? && WellFormed(dir.entries[k].node)
    ensures |r| == 1 ==> HasMarker(dir.entries[k].node)
    ensures |r| > 1 ==> IsSkillDir(dir.entries[k].node, r[1..])
  {
    k := IndexOf(dir.entries, r[0]);
    var e := dir.entries[k];
    assert !Pruned(r[0]);
    assert Lookup(dir, r) == Lookup(e.node, r[1..]);
    if |r| > 1 {
      assert forall j | 0 <= j < |r[1..]| :: r[1..][j] == r[j + 1];
    }
  }

  /** The walk reports exactly the directories holding the marker, by their
      own name and their path relative to the checkout; it never enters
      `.git` or `node_modules`, and still descends into reported directories. */
  lemma WalkReportsExactly(root: Tree, f: Found)
    ensures f in Walk(root) <==> IsSkillDir(root, f.rel) && f.name == f.rel[|f.rel| - 1]
  {
    if f in Walk(root) {
      WalkFromSound(root, 0, [], f);
      assert f.rel[0..] == f.rel;
    }
    if IsSkillDir(root, f.rel) && f.name == f.rel[|f.rel| - 1] {
      WalkFromComplete(root, 0, [], f.rel);
      assert [] + f.rel == f.rel;
    }
  }

  function Reported(fs: seq<Found>): (r: seq<ScanResult>)
    requires forall f | f in fs :: |f.rel| >= 1
    ensures |r| == |fs|
    ensures forall i | 0 <= i < |fs| :: r[i] == ScanResult(fs[i].name, Join(fs[i].rel))
  {
    if fs == [] then [] else [ScanResult(fs[0].name, Join(fs[0].rel))] + Reported(fs[1..])
  }

  /** `scanRepoForSkills`: the checkout itself first when it holds the marker
      (named after the checkout directory, path `.`), then the walk. */
  function ScanRepoForSkills(cfg: Config, url: string, checkouts: Checkouts, git: Git): (r: Result<seq<ScanResult>, RepoError>)
    ensures var sync := CloneOrUpdateRepo(cfg, url, checkouts, git);
      && (r.Failure? <==> sync.result.Failure?)
      && (r.Failure? ==> r.error == sync.result.error)
  {
    var sync := CloneOrUpdateRepo(cfg, url, checkouts, git);
    match sync.result
    case Failure(e) => Failure(e)
    case Success(dir) =>
      var tree := sync.checkouts[dir];
      Success(RootEntry(cfg, url, tree) + Reported(Walk(tree)))
  }

  /** The entry for the checkout itself, named after the checkout directory. */
  function RootEntry(cfg: Config, url: string, tree: Tree): seq<ScanResult> {
    if HasMarker(tree) then [ScanResult(CacheKey(cfg, url), ".")] else []
  }

  lemma ScanShape(cfg: Config, url: string, checkouts: Checkouts, git: Git)
    requires ScanRepoForSkills(cfg, url, checkouts, git).Success?
    ensures CloneOrUpdateRepo(cfg, url, checkouts, git).result.Success?
    ensures var tree := SyncedTree(cfg, url, checkouts, git);
      ScanRepoForSkills(cfg, url, checkouts, git).value == RootEntry(cfg, url, tree) + Reported(Walk(tree))
  {
  }

  /** The scan lists exactly the skill directories of the synced checkout:
      a relative path, reported under its last segment, is in the result
      exactly when it names a skill directory. (Segments holding `/` are
      excluded because two such lists can join to the same path.) */
  lemma ScanListsExactly(cfg: Config, url: string, checkouts: Checkouts, git: Git, rel: seq<string>)
    requires ScanRepoForSkills(cfg, url, checkouts, git).Success?
    requires |rel| >= 1 && NoSeparator(rel)
    ensures ScanResult(rel[|rel| - 1], Join(rel)) in ScanRepoForSkills(cfg, url, checkouts, git).value
      <==> IsSkillDir(SyncedTree(cfg, url, checkouts, git), rel)
  {
    ScanShape(cfg, url, checkouts, git);
    var tree := SyncedTree(cfg, url, checkouts, git);
    RootEntryMisses(cfg, url, tree, rel);
    ReportedExactly(tree, rel);
  }

  /** No list of segments joins to the root entry's path `.` while ending in
      the checkout's name. */
  lemma RootEntryMisses(cfg: Config, url: string, tree: Tree, rel: seq<string>)
    requires |rel| >= 1 && NoSeparator(rel)
    ensures ScanResult(rel[|rel| - 1], Join(rel)) !in RootEntry(cfg, url, tree)
  {
    if HasMarker(tree) && Join(rel) == "." {
      SplitName(".");
      JoinInjective(rel, ["."]);
      assert IsName(CacheKey(cfg, url));
    }
  }

  /** The walk's part of the result, reported as name and joined path, holds
      a path exactly when it is a skill directory. */
  lemma ReportedExactly(tree: Tree, rel: seq<string>)
    requires |rel| >= 1 && NoSeparator(rel)
    ensures ScanResult(rel[|rel| - 1], Join(rel)) in Reported(Walk(tree)) <==> IsSkillDir(tree, rel)
  {
    if ScanResult(rel[|rel| - 1], Join(rel)) in Reported(Walk(tree)) {
      ReportedSound(tree, rel);
    }
    if IsSkillDir(tree, rel) {
      ReportedComplete(tree, rel);
    }
  }

  lemma ReportedSound(tree: Tree, rel: seq<string>)
    requires |rel| >= 1 && NoSeparator(rel)
    requires ScanResult(rel[|rel| - 1], Join(rel)) in Reported(Walk(tree))
    ensures IsSkillDir(tree, rel)
  {
    var w := Walk(tree);
    var i :| 0 <= i < |w| && Reported(w)[i] == ScanResult(rel[|rel| - 1], Join(rel));
    var f := w[i];
    WalkReportsExactly(tree, f);
    LookupNames(tree, f.rel);
    assert NoSeparator(f.rel) by {
      forall k | 0 <= k < |f.rel| ensures '/' !in f.rel[k] {
        assert IsName(f.rel[k]);
      }
    }
    JoinInjective(f.rel, rel);
  }

  lemma ReportedComplete(tree: Tree, rel: seq<string>)
    requires IsSkillDir(tree, rel)
    ensures ScanResult(rel[|rel| - 1], Join(rel)) in Reported(Walk(tree))
  {
    WalkHas(tree, rel);
    ReportedHas(tree, Found(rel[|rel| - 1], rel));
  }

  lemma WalkHas(tree: Tree, rel: seq<string>)
    requires IsSkillDir(tree, rel)
    ensures Found(rel[|rel| - 1], rel) in Walk(tree)
  {
    WalkReportsExactly(tree, Found(rel[|rel| - 1], rel));
  }

  lemma ReportedHas(tree: Tree, f: Found)
    requires f in Walk(tree)
    ensures |f.rel| >= 1 && ScanResult(f.name, Join(f.rel)) in Reported(Walk(tree))
  {
    var w := Walk(tree);
    var i :| 0 <= i < |w| && w[i] == f;
    assert Reported(w)[i] == ScanResult(f.name, Join(f.rel));
  }

  /** The tree a successful sync of `url` leaves behind. */
  function SyncedTree(cfg: Config, url: string, checkouts: Checkouts, git: Git): Tree
    requires CloneOrUpdateRepo(cfg, url, checkouts, git).result.Success?
  {
    git(SyncCommand(cfg, url, checkouts)).tree
  }

  /** A scan result has path `.` exactly when it is the checkout itself, and
      that entry, present iff the checkout holds the marker, comes first. */
  lemma ScanRootEntry(cfg: Config, url: string, checkouts: Checkouts, git: Git)
    requires ScanRepoForSkills(cfg, url, checkouts, git).Success?
    ensures var rs := ScanRepoForSkills(cfg, url, checkouts, git).value;
      var tree := SyncedTree(cfg, url, checkouts, git);
      && (HasMarker(tree) <==> exists i | 0 <= i < |rs| :: rs[i].gitPath == ".")
      && (HasMarker(tree) ==> rs[0] == ScanResult(CacheKey(cfg, url), "."))
  {
    var rs := ScanRepoForSkills(cfg, url, checkouts, git).value;
    var tree := SyncedTree(cfg, url, checkouts, git);
    var w := Walk(tree);
    var atRoot := RootEntry(cfg, url, tree);
    ScanShape(cfg, url, checkouts, git);
    forall i | 0 <= i < |w| ensures Join(w[i].rel) != "." {
      WalkFromSound(tree, 0, [], w[i]);
      assert w[i].rel[0..] == w[i].rel;
      LookupNames(tree, w[i].rel);
      JoinNotDot(w[i].rel);
    }
    forall i | |atRoot| <= i < |rs| ensures rs[i].gitPath != "." {
      assert rs[i] == Reported(w)[i - |atRoot|];
    }
    if HasMarker(tree) {
      assert rs[0].gitPath == ".";
    }
  }

  lemma {:induction false} JoinNotDot(rel: seq<string>)
    requires Canonical(rel) && |rel| >= 1
    ensures Join(rel) != "."
    decreases |rel|
  {
    if |rel| > 1 {
      var j := Join(rel[..|rel| - 1]) + "/" + rel[|rel| - 1];
      assert j[|Join(rel[..|rel| - 1])|] == '/';
    }
  }

  /** Every path the scanner reports resolves, under the checkout, to a
      directory holding the marker, and the installer's guard accepts it. */
  lemma ScannedPathsPassGuard(cfg: Config, url: string, checkouts: Checkouts, git: Git, i: nat)
    requires ScanRepoForSkills(cfg, url, checkouts, git).Success?
    requires i < |ScanRepoForSkills(cfg, url, checkouts, git).value|
    ensures var res := ScanRepoForSkills(cfg, url, checkouts, git).value[i];
      var root := RepoDir(cfg, url);
      var src := Resolve(root, res.gitPath);
      && GuardAccepts(Render(root), Render(src))
      && root <= src
      && match Lookup(SyncedTree(cfg, url, checkouts, git), src[|root|..])
         case Some(d) => d.Dir? && HasMarker(d)
         case None => false
  {
    var rs := ScanRepoForSkills(cfg, url, checkouts, git).value;
    var tree := SyncedTree(cfg, url, checkouts, git);
    var root := RepoDir(cfg, url);
    var w := Walk(tree);
    var atRoot := RootEntry(cfg, url, tree);
    ScanShape(cfg, url, checkouts, git);
    if i < |atRoot| {
      ResolveDot(root);
      assert Resolve(root, ".")[|root|..] == [];
    } else {
      var f := w[i - |atRoot|];
      assert rs[i] == ScanResult(f.name, Join(f.rel));
      ReportedPathInside(root, tree, f);
    }
    GuardIsContainment(root, Resolve(root, rs[i].gitPath));
  }

  lemma ReportedPathInside(root: AbsPath, tree: Tree, f: Found)
    requires f in Walk(tree)
    ensures |f.rel| >= 1
    ensures var src := Resolve(root, Join(f.rel));
      && root <= src
      && match Lookup(tree, src[|root|..])
         case Some(d) => d.Dir? && HasMarker(d)
         case None => false
  {
    WalkFromSound(tree, 0, [], f);
    assert f.rel[0..] == f.rel;
    LookupNames(tree, f.rel);
    ResolveJoined(root, f.rel);
    assert (root + f.rel)[|root|..] == f.rel;
  }

  // ---------------------------------------------------------------------------
  // Installer

  /** `<dataDir>/gateways/<userId>/skills`, normalised as `path.join` does. */
  function SkillsDir(cfg: Config, userId: string): AbsPath {
    Resolve(cfg.dataDir, "gateways/" + userId + "/skills")
  }

  /** One `fs.cpSync(srcDir, destDir, { recursive: true })`. */
  datatype Copy = Copy(source: AbsPath, dest: AbsPath, content: Node)

  datatype SkipReason = NoSource | PathTraversal | SourceMissing | UnsafeName

  datatype Step = Skipped(reason: SkipReason) | Copied(copy: Copy) | Aborted(error: RepoError)

  /** The state after an install: the skills directory, the copies made into
      it after it was emptied, and the error that aborted the loop, if any. */
  datatype InstallOutcome = InstallOutcome(skillsDir: AbsPath, copies: seq<Copy>, error: Option<RepoError>, checkouts: Checkouts)

  predicate HasSource(s: Skill) {
    Truthy(s.gitUrl) && Truthy(s.gitPath)
  }

  /** `c` is the copy the installer makes for skill `s`: from the resolved
      source inside the skill's checkout to the skill's directory name. */
  predicate CopiedFrom(cfg: Config, skillsDir: AbsPath, s: Skill, c: Copy) {
    && HasSource(s)
    && var root := RepoDir(cfg, s.gitUrl.value);
       && root <= c.source
       && c.source == Resolve(root, s.gitPath.value)
       && c.dest == Resolve(skillsDir, Basename(s.gitPath.value))
  }

  /** The skill has a source and its checkout synced. */
  predicate Synced(cfg: Config, s: Skill, checkouts: Checkouts, git: Git) {
    HasSource(s) && CloneOrUpdateRepo(cfg, s.gitUrl.value, checkouts, git).result.Success?
  }

  /** The skill's source path, resolved against its checkout. */
  function SourceOf(cfg: Config, s: Skill): AbsPath
    requires HasSource(s)
  {
    Resolve(RepoDir(cfg, s.gitUrl.value), s.gitPath.value)
  }

  /** The skill's source lies inside its checkout. */
  predicate Inside(cfg: Config, s: Skill)
    requires HasSource(s)
  {
    RepoDir(cfg, s.gitUrl.value) <= SourceOf(cfg, s)
  }

  /** What the synced checkout holds at the skill's source. */
  function SourceNode(cfg: Config, s: Skill, checkouts: Checkouts, git: Git): Option<Node>
    requires Synced(cfg, s, checkouts, git) && Inside(cfg, s)
  {
    Lookup(SyncedTree(cfg, s.gitUrl.value, checkouts, git), SourceOf(cfg, s)[|RepoDir(cfg, s.gitUrl.value)|..])
  }

  /** Everything a skill needs to be copied: a source, a synced checkout, a
      source inside it that exists, and (for the corrected installer) a
      directory name that is a plain name. */
  predicate Installable(cfg: Config, s: Skill, checkouts: Checkouts, git: Git, checkDest: bool) {
    && Synced(cfg, s, checkouts, git)
    && Inside(cfg, s)
    && SourceNode(cfg, s, checkouts, git).Some?
    && (checkDest ==> IsName(Basename(s.gitPath.value)))
  }

  /** One iteration of the install loop. `checkDest` selects the corrected
      installer, which also refuses a directory name that is not a plain name. */
  function InstallOne(cfg: Config, skillsDir: AbsPath, s: Skill, checkouts: Checkouts, git: Git, checkDest: bool): (r: (Step, Checkouts))
    ensures r.0 == Skipped(NoSource) <==> !HasSource(s)
    ensures r.0.Copied? <==> Installable(cfg, s, checkouts, git, checkDest)
    ensures r.0 == Skipped(SourceMissing) <==>
      Synced(cfg, s, checkouts, git) && Inside(cfg, s) && SourceNode(cfg, s, checkouts, git).None?
    ensures r.1 == (if HasSource(s) then CloneOrUpdateRepo(cfg, s.gitUrl.value, checkouts, git).checkouts else checkouts)
    ensures r.0.Copied? ==>
      && CopiedFrom(cfg, skillsDir, s, r.0.copy)
      && var root := RepoDir(cfg, s.gitUrl.value);
         && root in r.1
         && Lookup(r.1[root], r.0.copy.source[|root|..]) == Some(r.0.copy.content)
    ensures r.0.Copied? && checkDest ==> IsName(Basename(s.gitPath.value))
    ensures r.0.Aborted? <==> HasSource(s) && CloneOrUpdateRepo(cfg, s.gitUrl.value, checkouts, git).result.Failure?
  {
    if !HasSource(s) then (Skipped(NoSource), checkouts)
    else
      var sync := CloneOrUpdateRepo(cfg, s.gitUrl.value, checkouts, git);
      match sync.result
      case Failure(e) => (Aborted(e), sync.checkouts)
      case Success(root) =>
        var src := Resolve(root, s.gitPath.value);
        GuardIsContainment(root, src);
        if !GuardAccepts(Render(root), Render(src)) then (Skipped(PathTraversal), sync.checkouts)
        else
          assert sync.checkouts[root] == SyncedTree(cfg, s.gitUrl.value, checkouts, git);
          match Lookup(sync.checkouts[root], src[|root|..])
          case None => (Skipped(SourceMissing), sync.checkouts)
          case Some(content) =>
            var name := Basename(s.gitPath.value);
            if checkDest && !IsName(name) then (Skipped(UnsafeName), sync.checkouts)
            else (Copied(Copy(src, Resolve(skillsDir, name), content)), sync.checkouts)
  }

  /** A sync of `url` can fail under `git`, whatever state the cache is in. */
  predicate SyncCanFail(cfg: Config, git: Git, url: string) {
    || !IsGitUrl(url)
    || git(Pull(RepoDir(cfg, url), PullTimeoutMs)).status != Some(0)
    || git(Clone(url, RepoDir(cfg, url), CloneDepth, CloneTimeoutMs)).status != Some(0)
  }

  /** `c` is the copy made for one of `skills`; with `checkDest`, for one whose
      directory name is a plain name. */
  predicate MadeFor(cfg: Config, skillsDir: AbsPath, skills: seq<Skill>, c: Copy, checkDest: bool) {
    exists k | 0 <= k < |skills| ::
      CopiedFrom(cfg, skillsDir, skills[k], c) && (checkDest ==> IsName(Basename(skills[k].gitPath.value)))
  }

  /** One of `skills` has a source whose sync can fail. */
  predicate SomeSyncCanFail(cfg: Config, git: Git, skills: seq<Skill>) {
    exists k | 0 <= k < |skills| :: HasSource(skills[k]) && SyncCanFail(cfg, git, skills[k].gitUrl.value)
  }

  lemma MadeForTail(cfg: Config, skillsDir: AbsPath, skills: seq<Skill>, c: Copy, checkDest: bool)
    requires skills != [] && MadeFor(cfg, skillsDir, skills[1..], c, checkDest)
    ensures MadeFor(cfg, skillsDir, skills, c, checkDest)
  {
    var k :| 0 <= k < |skills| - 1 && CopiedFrom(cfg, skillsDir, skills[1..][k], c)
      && (checkDest ==> IsName(Basename(skills[1..][k].gitPath.value)));
    assert skills[1..][k] == skills[k + 1];
  }

  lemma SomeSyncCanFailTail(cfg: Config, git: Git, skills: seq<Skill>)
    requires skills != [] && SomeSyncCanFail(cfg, git, skills[1..])
    ensures SomeSyncCanFail(cfg, git, skills)
  {
    var k :| 0 <= k < |skills| - 1 && HasSource(skills[1..][k]) && SyncCanFail(cfg, git, skills[1..][k].gitUrl.value);
    assert skills[1..][k] == skills[k + 1];
  }

  /** A failed sync is one the oracle can produce for that URL. */
  lemma SyncFailureCanFail(cfg: Config, url: string, checkouts: Checkouts, git: Git)
    requires CloneOrUpdateRepo(cfg, url, checkouts, git).result.Failure?
    ensures SyncCanFail(cfg, git, url)
  {
  }

  /** One skill's turn in the install loop: the repo cache it starts from and
      the step it meets. */
  datatype Visit = Visit(before: Checkouts, step: Step)

  /** Every skill's turn when the loop is run over all of `skills` without
      stopping at an abort, each skill starting from the cache the previous
      one left behind. */
  function Trace(cfg: Config, skillsDir: AbsPath, skills: seq<Skill>, checkouts: Checkouts, git: Git, checkDest: bool): (t: seq<Visit>)
    ensures |t| == |skills|
    decreases |skills|
  {
    if skills == [] then []
    else
      var (step, next) := InstallOne(cfg, skillsDir, skills[0], checkouts, git, checkDest);
      [Visit(checkouts, step)] + Trace(cfg, skillsDir, skills[1..], next, git, checkDest)
  }

  /** The trace visit by visit: the first skill starts from the given cache,
      each later one from the cache its predecessor's step left, and each
      meets the step `InstallOne` takes from there. */
  lemma {:induction false} TraceVisits(cfg: Config, skillsDir: AbsPath, skills: seq<Skill>, checkouts: Checkouts, git: Git, checkDest: bool)
    ensures var t := Trace(cfg, skillsDir, skills, checkouts, git, checkDest);
      && (|t| > 0 ==> t[0].before == checkouts)
      && (forall k | 0 <= k < |t| :: t[k].step == InstallOne(cfg, skillsDir, skills[k], t[k].before, git, checkDest).0)
      && (forall k | 0 < k < |t| :: t[k].before == InstallOne(cfg, skillsDir, skills[k - 1], t[k - 1].before, git, checkDest).1)
    decreases |skills|
  {
    if skills != [] {
      var (step, next) := InstallOne(cfg, skillsDir, skills[0], checkouts, git, checkDest);
      var rest := Trace(cfg, skillsDir, skills[1..], next, git, checkDest);
      TraceVisits(cfg, skillsDir, skills[1..], next, git, checkDest);
      var t := Trace(cfg, skillsDir, skills, checkouts, git, checkDest);
      assert t == [Visit(checkouts, step)] + rest;
      forall k | 0 < k < |t|
        ensures t[k] == rest[k - 1] && skills[k] == skills[1..][k - 1]
      {
      }
    }
  }

  /** The index of the first visit that aborted, or `|t|` when none did. */
  function FirstAbort(t: seq<Visit>): (n: nat)
    ensures n <= |t|
    ensures forall k | 0 <= k < n :: !t[k].step.Aborted?
    ensures n < |t| ==> t[n].step.Aborted?
  {
    if t == [] || t[0].step.Aborted? then 0 else 1 + FirstAbort(t[1..])
  }

  /** The copies made by the visits of `t` that copied, in visit order. */
  function CopiesOf(t: seq<Visit>): (cs: seq<Copy>)
    ensures |cs| <= |t|
    ensures forall k | 0 <= k < |t| && t[k].step.Copied? :: t[k].step.copy in cs
    ensures forall c | c in cs :: exists k | 0 <= k < |t| :: t[k].step == Copied(c)
  {
    if t == [] then []
    else
      var rest := CopiesOf(t[1..]);
      assert forall k | 0 < k < |t| :: t[k] == t[1..][k - 1];
      (if t[0].step.Copied? then [t[0].step.copy] else []) + rest
  }

  lemma TraceCons(v: Visit, rest: seq<Visit>)
    ensures v.step.Aborted? ==> FirstAbort([v] + rest) == 0
    ensures !v.step.Aborted? ==>
      && FirstAbort([v] + rest) == 1 + FirstAbort(rest)
      && CopiesOf(([v] + rest)[..FirstAbort([v] + rest)])
         == (if v.step.Copied? then [v.step.copy] else []) + CopiesOf(rest[..FirstAbort(rest)])
  {
    assert ([v] + rest)[1..] == rest;
    var n := FirstAbort(rest);
    assert ([v] + rest)[..1 + n] == [v] + rest[..n];
    assert ([v] + rest[..n])[1..] == rest[..n];
  }

  /** How the first turn of the loop splits the trace, the first abort and
      the copies made before it. */
  lemma LoopStep(cfg: Config, skillsDir: AbsPath, skills: seq<Skill>, checkouts: Checkouts, git: Git, checkDest: bool)
    requires skills != []
    ensures var (step, next) := InstallOne(cfg, skillsDir, skills[0], checkouts, git, checkDest);
      var t := Trace(cfg, skillsDir, skills, checkouts, git, checkDest);
      var rest := Trace(cfg, skillsDir, skills[1..], next, git, checkDest);
      && (step.Aborted? ==> FirstAbort(t) == 0 && CopiesOf(t[..0]) == [] && t[0].step == step)
      && (!step.Aborted? ==>
          && FirstAbort(t) == 1 + FirstAbort(rest)
          && |t| == 1 + |rest|
          && (FirstAbort(rest) < |rest| ==> t[FirstAbort(t)] == rest[FirstAbort(rest)])
          && CopiesOf(t[..FirstAbort(t)]) == (if step.Copied? then [step.copy] else []) + CopiesOf(rest[..FirstAbort(rest)]))
  {
    var (step, next) := InstallOne(cfg, skillsDir, skills[0], checkouts, git, checkDest);
    var rest := Trace(cfg, skillsDir, skills[1..], next, git, checkDest);
    assert Trace(cfg, skillsDir, skills, checkouts, git, checkDest) == [Visit(checkouts, step)] + rest;
    TraceCons(Visit(checkouts, step), rest);
  }

  /** The install loop. Beyond what each copy is made from, its contract says
      which copies it makes: those of the skills that copy before the first
      sync failure, in list order, and the error is that failure's. */
  function InstallLoop(cfg: Config, skillsDir: AbsPath, skills: seq<Skill>, checkouts: Checkouts, git: Git, checkDest: bool): (r: InstallOutcome)
    ensures r.skillsDir == skillsDir
    ensures forall c | c in r.copies :: MadeFor(cfg, skillsDir, skills, c, checkDest)
    ensures r.error.Some? ==> SomeSyncCanFail(cfg, git, skills)
    ensures var t := Trace(cfg, skillsDir, skills, checkouts, git, checkDest);
      var n := FirstAbort(t);
      && r.copies == CopiesOf(t[..n])
      && r.error == (if n < |t| then Some(t[n].step.error) else None)
    decreases |skills|
  {
    if skills == [] then InstallOutcome(skillsDir, [], None, checkouts)
    else
      var (step, next) := InstallOne(cfg, skillsDir, skills[0], checkouts, git, checkDest);
      LoopStep(cfg, skillsDir, skills, checkouts, git, checkDest);
      match step
      case Aborted(e) =>
        SyncFailureCanFail(cfg, skills[0].gitUrl.value, checkouts, git);
        InstallOutcome(skillsDir, [], Some(e), next)
      case Skipped(_) =>
        var rest := InstallLoop(cfg, skillsDir, skills[1..], next, git, checkDest);
        LoopTail(cfg, skillsDir, skills, rest, git, checkDest);
        rest
      case Copied(c) =>
        var rest := InstallLoop(cfg, skillsDir, skills[1..], next, git, checkDest);
        LoopTail(cfg, skillsDir, skills, rest, git, checkDest);
        assert MadeFor(cfg, skillsDir, skills, c, checkDest) by {
          assert CopiedFrom(cfg, skillsDir, skills[0], c);
        }
        rest.(copies := [c] + rest.copies)
  }

  lemma LoopTail(cfg: Config, skillsDir: AbsPath, skills: seq<Skill>, rest: InstallOutcome, git: Git, checkDest: bool)
    requires skills != []
    requires forall c | c in rest.copies :: MadeFor(cfg, skillsDir, skills[1..], c, checkDest)
    requires rest.error.Some? ==> SomeSyncCanFail(cfg, git, skills[1..])
    ensures forall c | c in rest.copies :: MadeFor(cfg, skillsDir, skills, c, checkDest)
    ensures rest.error.Some? ==> SomeSyncCanFail(cfg, git, skills)
  {
    forall c | c in rest.copies ensures MadeFor(cfg, skillsDir, skills, c, checkDest) {
      MadeForTail(cfg, skillsDir, skills, c, checkDest);
    }
    if rest.error.Some? {
      SomeSyncCanFailTail(cfg, git, skills);
    }
  }

  /** `installSkillsForUser` as the source writes it. */
  function InstallSkillsForUserAsWritten(cfg: Config, userId: string, skills: seq<Skill>, checkouts: Checkouts, git: Git): (r: InstallOutcome)
    ensures r.skillsDir == SkillsDir(cfg, userId)
    ensures forall c | c in r.copies :: MadeFor(cfg, r.skillsDir, skills, c, false)
    ensures r.error.Some? ==> SomeSyncCanFail(cfg, git, skills)
    ensures var t := Trace(cfg, SkillsDir(cfg, userId), skills, checkouts, git, false);
      var n := FirstAbort(t);
      && r.copies == CopiesOf(t[..n])
      && r.error == (if n < |t| then Some(t[n].step.error) else None)
  {
    InstallLoop(cfg, SkillsDir(cfg, userId), skills, checkouts, git, false)
  }

  /** `installSkillsForUser` with the destination name checked as well: every
      copy lands in its own sub-directory of the skills directory. */
  function InstallSkillsForUser(cfg: Config, userId: string, skills: seq<Skill>, checkouts: Checkouts, git: Git): (r: InstallOutcome)
    ensures r.skillsDir == SkillsDir(cfg, userId)
    ensures forall c | c in r.copies ::
      && |c.dest| == |r.skillsDir| + 1 && r.skillsDir <= c.dest
      && exists k | 0 <= k < |skills| :: CopiedFrom(cfg, r.skillsDir, skills[k], c) && c.dest[|r.skillsDir|] == Basename(skills[k].gitPath.value)
    ensures r.error.Some? ==> SomeSyncCanFail(cfg, git, skills)
    ensures var t := Trace(cfg, SkillsDir(cfg, userId), skills, checkouts, git, true);
      var n := FirstAbort(t);
      && r.copies == CopiesOf(t[..n])
      && r.error == (if n < |t| then Some(t[n].step.error) else None)
  {
    var dir := SkillsDir(cfg, userId);
    var r := InstallLoop(cfg, dir, skills, checkouts, git, true);
    forall c | c in r.copies
      ensures |c.dest| == |dir| + 1 && dir <= c.dest
      ensures exists k | 0 <= k < |skills| :: CopiedFrom(cfg, dir, skills[k], c) && c.dest[|dir|] == Basename(skills[k].gitPath.value)
    {
      var k :| 0 <= k < |skills| && CopiedFrom(cfg, dir, skills[k], c) && IsName(Basename(skills[k].gitPath.value));
      ResolveName(dir, Basename(skills[k].gitPath.value));
    }
    r
  }

  /** No installable skill is lost: a skill met before the first failed sync
      is copied exactly when it is installable from the cache it meets. */
  lemma InstallableIsCopied(cfg: Config, skillsDir: AbsPath, skills: seq<Skill>, checkouts: Checkouts, git: Git, checkDest: bool, k: nat)
    requires k < FirstAbort(Trace(cfg, skillsDir, skills, checkouts, git, checkDest))
    ensures var t := Trace(cfg, skillsDir, skills, checkouts, git, checkDest);
      var copies := InstallLoop(cfg, skillsDir, skills, checkouts, git, checkDest).copies;
      && (t[k].step.Copied? <==> Installable(cfg, skills[k], t[k].before, git, checkDest))
      && (t[k].step.Copied? ==> t[k].step.copy in copies && CopiedFrom(cfg, skillsDir, skills[k], t[k].step.copy))
  {
    TraceVisits(cfg, skillsDir, skills, checkouts, git, checkDest);
    var t := Trace(cfg, skillsDir, skills, checkouts, git, checkDest);
    var n := FirstAbort(t);
    assert t[..n][k] == t[k];
  }

  lemma ResolveName(base: seq<string>, name: string)
    requires Canonical(base) && IsName(name)
    ensures Resolve(base, name) == base + [name]
  {
    ResolveJoined(base, [name]);
  }

  /** The names in the skills directory after an install. */
  function InstalledNames(r: InstallOutcome): set<string> {
    set c | c in r.copies && |c.dest| == |r.skillsDir| + 1 && r.skillsDir <= c.dest :: c.dest[|r.skillsDir|]
  }

  /** After an install the skills directory holds only directories named after
      the last segment of some input skill's `git_path`. */
  lemma InstalledNamesAreBasenames(cfg: Config, userId: string, skills: seq<Skill>, checkouts: Checkouts, git: Git)
    ensures var r := InstallSkillsForUser(cfg, userId, skills, checkouts, git);
      forall n | n in InstalledNames(r) :: exists k | 0 <= k < |skills| :: HasSource(skills[k]) && n == Basename(skills[k].gitPath.value)
  {
  }

  // ---------------------------------------------------------------------------
  // Re-installation

  /** The remote is unchanged between calls: pulling an existing checkout of a
      URL and cloning it afresh succeed or fail together and leave the same
      tree. */
  ghost predicate Consistent(cfg: Config, git: Git) {
    forall url: string :: SameRun(git(Pull(RepoDir(cfg, url), PullTimeoutMs)), git(Clone(url, RepoDir(cfg, url), CloneDepth, CloneTimeoutMs)))
  }

  predicate SameRun(a: GitRun, b: GitRun) {
    (a.status == Some(0) <==> b.status == Some(0)) && a.tree == b.tree
  }

  /** Two steps with the same effect on the skills directory: the same skip
      or copy, or both an abort (the messages may differ, pull against clone). */
  predicate SameEffect(a: Step, b: Step) {
    (a.Aborted? <==> b.Aborted?) && (!a.Aborted? ==> a == b)
  }

  lemma SyncIgnoresCheckouts(cfg: Config, url: string, c1: Checkouts, c2: Checkouts, git: Git)
    requires Consistent(cfg, git)
    ensures var s1 := CloneOrUpdateRepo(cfg, url, c1, git);
      var s2 := CloneOrUpdateRepo(cfg, url, c2, git);
      && (s1.result.Success? <==> s2.result.Success?)
      && (s1.result.Success? ==> s1.result == s2.result && s1.checkouts[s1.result.value] == s2.checkouts[s2.result.value])
  {
    assert SameRun(git(Pull(RepoDir(cfg, url), PullTimeoutMs)), git(Clone(url, RepoDir(cfg, url), CloneDepth, CloneTimeoutMs)));
  }

  lemma InstallOneIgnoresCheckouts(cfg: Config, skillsDir: AbsPath, s: Skill, c1: Checkouts, c2: Checkouts, git: Git, checkDest: bool)
    requires Consistent(cfg, git)
    ensures SameEffect(InstallOne(cfg, skillsDir, s, c1, git, checkDest).0, InstallOne(cfg, skillsDir, s, c2, git, checkDest).0)
  {
    if HasSource(s) {
      SyncIgnoresCheckouts(cfg, s.gitUrl.value, c1, c2, git);
    }
  }

  lemma {:induction false} InstallLoopIgnoresCheckouts(cfg: Config, skillsDir: AbsPath, skills: seq<Skill>, c1: Checkouts, c2: Checkouts, git: Git, checkDest: bool)
    requires Consistent(cfg, git)
    ensures var r1 := InstallLoop(cfg, skillsDir, skills, c1, git, checkDest);
      var r2 := InstallLoop(cfg, skillsDir, skills, c2, git, checkDest);
      r1.copies == r2.copies && r1.error.Some? == r2.error.Some?
    decreases |skills|
  {
    if skills != [] {
      var (a, n1) := InstallOne(cfg, skillsDir, skills[0], c1, git, checkDest);
      var (b, n2) := InstallOne(cfg, skillsDir, skills[0], c2, git, checkDest);
      InstallOneIgnoresCheckouts(cfg, skillsDir, skills[0], c1, c2, git, checkDest);
      LoopUnfold(cfg, skillsDir, skills, c1, git, checkDest);
      LoopUnfold(cfg, skillsDir, skills, c2, git, checkDest);
      if !a.Aborted? {
        InstallLoopIgnoresCheckouts(cfg, skillsDir, skills[1..], n1, n2, git, checkDest);
      }
    }
  }

  /** The loop's first turn, as the copies and error it contributes. */
  lemma LoopUnfold(cfg: Config, skillsDir: AbsPath, skills: seq<Skill>, checkouts: Checkouts, git: Git, checkDest: bool)
    requires skills != []
    ensures var (step, next) := InstallOne(cfg, skillsDir, skills[0], checkouts, git, checkDest);
      var r := InstallLoop(cfg, skillsDir, skills, checkouts, git, checkDest);
      var rest := InstallLoop(cfg, skillsDir, skills[1..], next, git, checkDest);
      && (step.Aborted? ==> r.copies == [] && r.error.Some?)
      && (!step.Aborted? ==> r.copies == (if step.Copied? then [step.copy] else []) + rest.copies && r.error == rest.error)
  {
  }

  /** With the remotes unchanged, installing the same list again yields the
      same skills directory whatever the repo cache holds: the directory is
      emptied first, so nothing of an earlier install survives, and a pull
      of a cached checkout gives what a fresh clone would. */
  lemma ReinstallIsIdempotent(cfg: Config, userId: string, skills: seq<Skill>, c1: Checkouts, c2: Checkouts, git: Git)
    requires Consistent(cfg, git)
    ensures var r1 := InstallSkillsForUser(cfg, userId, skills, c1, git);
      var r2 := InstallSkillsForUser(cfg, userId, skills, c2, git);
      r1.copies == r2.copies && InstalledNames(r1) == InstalledNames(r2) && r1.error.Some? == r2.error.Some?
    ensures var w1 := InstallSkillsForUserAsWritten(cfg, userId, skills, c1, git);
      var w2 := InstallSkillsForUserAsWritten(cfg, userId, skills, c2, git);
      w1.copies == w2.copies && w1.error.Some? == w2.error.Some?
  {
    InstallLoopIgnoresCheckouts(cfg, SkillsDir(cfg, userId), skills, c1, c2, git, true);
    InstallLoopIgnoresCheckouts(cfg, SkillsDir(cfg, userId), skills, c1, c2, git, false);
  }

  // ---------------------------------------------------------------------------
  // The traversal guard and the destination name

  /** Once the checkout is synced, a skill is skipped as a traversal exactly
      when its resolved source is not inside the checkout. */
  lemma TraversalSkippedIffOutside(cfg: Config, skillsDir: AbsPath, s: Skill, checkouts: Checkouts, git: Git, checkDest: bool)
    requires HasSource(s) && CloneOrUpdateRepo(cfg, s.gitUrl.value, checkouts, git).result.Success?
    ensures var root := RepoDir(cfg, s.gitUrl.value);
      (InstallOne(cfg, skillsDir, s, checkouts, git, checkDest).0 == Skipped(PathTraversal))
        <==> !(root <= Resolve(root, s.gitPath.value))
  {
    var root := RepoDir(cfg, s.gitUrl.value);
    GuardIsContainment(root, Resolve(root, s.gitPath.value));
  }

  /** `../<name>` leaves the checkout unless `<name>` is the checkout's own
      directory name, so such a skill is skipped, not copied. */
  lemma ParentPathSkipped(cfg: Config, skillsDir: AbsPath, s: Skill, name: string, checkouts: Checkouts, git: Git, checkDest: bool)
    requires HasSource(s) && CloneOrUpdateRepo(cfg, s.gitUrl.value, checkouts, git).result.Success?
    requires IsName(name) && name != CacheKey(cfg, s.gitUrl.value) && s.gitPath == Some("../" + name)
    ensures InstallOne(cfg, skillsDir, s, checkouts, git, checkDest).0 == Skipped(PathTraversal)
  {
    var root := RepoDir(cfg, s.gitUrl.value);
    ResolveParent(root, name);
    var src := Resolve(root, "../" + name);
    assert |src| == |root| && src[|root| - 1] != root[|root| - 1];
    TraversalSkippedIffOutside(cfg, skillsDir, s, checkouts, git, checkDest);
  }

  lemma SkillsDirSegments(cfg: Config, userId: string)
    requires IsName(userId)
    ensures SkillsDir(cfg, userId) == cfg.dataDir + ["gateways", userId, "skills"]
  {
    var rel := ["gateways", userId, "skills"];
    assert Join(rel[..2]) == Join(rel[..1]) + "/" + userId;
    assert "gateways/" + userId + "/skills" == Join(rel);
    ResolveJoined(cfg.dataDir, rel);
  }

  /** The one step the installer takes for a skill whose source is the whole
      checkout and whose directory name is `name`. */
  lemma WholeCheckoutStep(cfg: Config, skillsDir: AbsPath, s: Skill, checkouts: Checkouts, git: Git, checkDest: bool)
    requires HasSource(s) && CloneOrUpdateRepo(cfg, s.gitUrl.value, checkouts, git).result.Success?
    requires Resolve(RepoDir(cfg, s.gitUrl.value), s.gitPath.value) == RepoDir(cfg, s.gitUrl.value)
    ensures var root := RepoDir(cfg, s.gitUrl.value);
      var name := Basename(s.gitPath.value);
      var step := InstallOne(cfg, skillsDir, s, checkouts, git, checkDest).0;
      && (checkDest && !IsName(name) ==> step == Skipped(UnsafeName))
      && (!checkDest ==> step == Copied(Copy(root, Resolve(skillsDir, name), SyncedTree(cfg, s.gitUrl.value, checkouts, git))))
  {
    var root := RepoDir(cfg, s.gitUrl.value);
    GuardIsContainment(root, root);
    assert root[|root|..] == [];
  }

  lemma SingleSkillLoop(cfg: Config, skillsDir: AbsPath, s: Skill, checkouts: Checkouts, git: Git, checkDest: bool)
    ensures var step := InstallOne(cfg, skillsDir, s, checkouts, git, checkDest).0;
      InstallLoop(cfg, skillsDir, [s], checkouts, git, checkDest).copies == (if step.Copied? then [step.copy] else [])
  {
    assert [s][1..] == [];
  }

  /** Both installers on a single skill whose source is the whole checkout:
      as written it is copied to its basename resolved against the skills
      directory; corrected, it is skipped when that basename is not a plain
      name. */
  lemma WholeCheckoutInstall(cfg: Config, userId: string, s: Skill, checkouts: Checkouts, git: Git)
    requires HasSource(s) && CloneOrUpdateRepo(cfg, s.gitUrl.value, checkouts, git).result.Success?
    requires Resolve(RepoDir(cfg, s.gitUrl.value), s.gitPath.value) == RepoDir(cfg, s.gitUrl.value)
    ensures var root := RepoDir(cfg, s.gitUrl.value);
      var name := Basename(s.gitPath.value);
      var tree := SyncedTree(cfg, s.gitUrl.value, checkouts, git);
      InstallSkillsForUserAsWritten(cfg, userId, [s], checkouts, git).copies == [Copy(root, Resolve(SkillsDir(cfg, userId), name), tree)]
    ensures !IsName(Basename(s.gitPath.value)) ==> InstallSkillsForUser(cfg, userId, [s], checkouts, git).copies == []
  {
    var dir := SkillsDir(cfg, userId);
    WholeCheckoutStep(cfg, dir, s, checkouts, git, false);
    SingleSkillLoop(cfg, dir, s, checkouts, git, false);
    WholeCheckoutStep(cfg, dir, s, checkouts, git, true);
    SingleSkillLoop(cfg, dir, s, checkouts, git, true);
  }

  lemma BasenameDots()
    ensures Basename(".") == "."
    ensures Basename("x/..") == ".."
  {
    AfterSlashName("x", "..");
    assert "x/.." == "x" + "/" + "..";
  }

  /** A skill whose `git_path` is `.` (what the scanner reports for a marker
      at the checkout root): the source copies the whole checkout onto the
      skills directory itself rather than into a sub-directory of it. */
  lemma DotPathCopiesOntoSkillsDir(cfg: Config, userId: string, s: Skill, checkouts: Checkouts, git: Git)
    requires IsName(userId) && s.gitPath == Some(".") && Truthy(s.gitUrl)
    requires CloneOrUpdateRepo(cfg, s.gitUrl.value, checkouts, git).result.Success?
    ensures var tree := SyncedTree(cfg, s.gitUrl.value, checkouts, git);
      InstallSkillsForUserAsWritten(cfg, userId, [s], checkouts, git).copies == [Copy(RepoDir(cfg, s.gitUrl.value), SkillsDir(cfg, userId), tree)]
    ensures SkillsDir(cfg, userId) == cfg.dataDir + ["gateways", userId, "skills"]
  {
    GatewayDirs(cfg, userId);
    ResolveDot(RepoDir(cfg, s.gitUrl.value));
    BasenameDots();
    WholeCheckoutInstall(cfg, userId, s, checkouts, git);
  }

  /** The corrected installer skips a skill whose `git_path` is `.`. */
  lemma DotPathSkipped(cfg: Config, userId: string, s: Skill, checkouts: Checkouts, git: Git)
    requires s.gitPath == Some(".") && Truthy(s.gitUrl)
    requires CloneOrUpdateRepo(cfg, s.gitUrl.value, checkouts, git).result.Success?
    ensures InstallSkillsForUser(cfg, userId, [s], checkouts, git).copies == []
  {
    ResolveDot(RepoDir(cfg, s.gitUrl.value));
    BasenameDots();
    WholeCheckoutInstall(cfg, userId, s, checkouts, git);
  }

  /** The skills directory, and what `.` and `..` resolve to against it. */
  lemma GatewayDirs(cfg: Config, userId: string)
    requires IsName(userId)
    ensures SkillsDir(cfg, userId) == cfg.dataDir + ["gateways", userId, "skills"]
    ensures Resolve(SkillsDir(cfg, userId), ".") == SkillsDir(cfg, userId)
    ensures Resolve(SkillsDir(cfg, userId), "..") == cfg.dataDir + ["gateways", userId]
  {
    var dir := SkillsDir(cfg, userId);
    SkillsDirSegments(cfg, userId);
    ResolveDot(dir);
    ResolveDotDot(dir);
    assert dir[..|dir| - 1] == cfg.dataDir + ["gateways", userId];
  }

  /** A skill whose `git_path` is `x/..`: the source resolves it to the
      checkout root and copies that onto the user's gateway directory, one
      level above the skills directory. */
  lemma ParentNameEscapesSkillsDir(cfg: Config, userId: string, s: Skill, checkouts: Checkouts, git: Git)
    requires IsName(userId) && s.gitPath == Some("x/..") && Truthy(s.gitUrl)
    requires CloneOrUpdateRepo(cfg, s.gitUrl.value, checkouts, git).result.Success?
    ensures var tree := SyncedTree(cfg, s.gitUrl.value, checkouts, git);
      var gateway := Resolve(SkillsDir(cfg, userId), "..");
      InstallSkillsForUserAsWritten(cfg, userId, [s], checkouts, git).copies == [Copy(RepoDir(cfg, s.gitUrl.value), gateway, tree)]
    ensures Resolve(SkillsDir(cfg, userId), "..") == cfg.dataDir + ["gateways", userId]
  {
    GatewayDirs(cfg, userId);
    ResolveXUp(RepoDir(cfg, s.gitUrl.value));
    BasenameDots();
    WholeCheckoutInstall(cfg, userId, s, checkouts, git);
  }

  /** The corrected installer skips a skill whose `git_path` is `x/..`. */
  lemma ParentNameSkipped(cfg: Config, userId: string, s: Skill, checkouts: Checkouts, git: Git)
    requires s.gitPath == Some("x/..") && Truthy(s.gitUrl)
    requires CloneOrUpdateRepo(cfg, s.gitUrl.value, checkouts, git).result.Success?
    ensures InstallSkillsForUser(cfg, userId, [s], checkouts, git).copies == []
  {
    ResolveXUp(RepoDir(cfg, s.gitUrl.value));
    BasenameDots();
    WholeCheckoutInstall(cfg, userId, s, checkouts, git);
  }
}

=== FILE: skill_registry.dfy ===
/** The two tables the skill routes share, the slug rule of the admin routes
    (apps/api/src/routes/admin/skills.ts) and the "assigned" rule of the
    per-user routes (apps/api/src/routes/org/user-skills.ts,
    apps/api/src/routes/user/skills.ts). */
module SkillRegistry {
  import opened Wrappers
  import opened Shared
  import opened PosixPath

  /** The `skills` table keyed by id, and `user_skills` keyed by
      (user id, skill id). */
  datatype Db = Db(skills: map<Id, Skill>, toggles: map<(Id, Id), bool>)

  /** Every row is stored under its own id, the table's primary key. */
  predicate Keyed(db: Db) {
    forall id | id in db.skills :: db.skills[id].id == id
  }

  // ---------------------------------------------------------------------------
  // Slug

  /** The last non-empty string of `ps`, if any. */
  function LastNonEmpty(ps: seq<string>): (r: Option<string>)
    ensures r.Some? <==> exists i | 0 <= i < |ps| :: ps[i] != ""
    ensures r.Some? ==> exists i | 0 <= i < |ps| :: ps[i] == r.value != "" && forall j | i < j < |ps| :: ps[j] == ""
    decreases |ps|
  {
    if ps == [] then None
    else if ps[|ps| - 1] != "" then Some(ps[|ps| - 1])
    else
      var r := LastNonEmpty(ps[..|ps| - 1]);
      assert forall i | 0 <= i < |ps| - 1 :: ps[..|ps| - 1][i] == ps[i];
      r
  }

  /** `git_path.split('/').filter(Boolean).pop() || git_path`: the last
      non-empty segment, or the whole string when there is none. */
  function Slug(gitPath: string): (r: string)
    ensures r == "" ==> gitPath == ""
    ensures r == gitPath || (r in Split(gitPath) && '/' !in r)
  {
    match LastNonEmpty(Split(gitPath))
    case Some(s) => s
    case None => gitPath
  }

  lemma {:induction false} LastNonEmptyIsBasename(g: string)
    ensures LastNonEmpty(Split(g)) == if TrimTrailingSlashes(g) == "" then None else Some(Basename(g))
    decreases |g|
  {
    if |g| > 0 && g[|g| - 1] == '/' {
      var g' := g[..|g| - 1];
      assert g == g' + ['/'];
      SplitSnoc(g', '/');
      var xs := Split(g');
      assert (xs + [""])[..|xs|] == xs;
      LastNonEmptyIsBasename(g');
    } else if g != "" {
      LastPiece(g);
      assert AfterLastSlash(g) == AfterLastSlash(g[..|g| - 1]) + [g[|g| - 1]];
    }
  }

  /** The slug and the installer's destination name (`path.basename`) are
      the same exactly when `git_path` is empty or has a character other than
      `/`; for `/`, `//`, ... the slug keeps the string and basename is empty. */
  lemma SlugIsBasename(g: string)
    ensures Slug(g) == Basename(g) <==> g == "" || exists i | 0 <= i < |g| :: g[i] != '/'
  {
    LastNonEmptyIsBasename(g);
    TrimTrailingEmpty(g);
    if TrimTrailingSlashes(g) == "" {
      assert Basename(g) == "";
    }
  }

  /** A trailing separator is ignored: `a/b/c/` gives `c`. */
  lemma SlugTrailingSlash()
    ensures Slug("a/b/c/") == "c"
  {
    SlugIsBasename("a/b/c/");
    assert "a/b/c/"[0] != '/';
    assert Basename("a/b/c/") == "c" by {
      assert TrimTrailingSlashes("a/b/c/") == "a/b/c";
      AfterSlashName("a/b", "c");
      assert "a/b" + "/" + "c" == "a/b/c";
    }
  }

  /** A nested path gives its last directory: `skills/pdf` gives `pdf`. */
  lemma SlugNested()
    ensures Slug("skills/pdf") == "pdf"
  {
    SlugIsBasename("skills/pdf");
    assert "skills/pdf"[0] != '/';
    assert Basename("skills/pdf") == "pdf" by {
      AfterSlashName("skills", "pdf");
      assert "skills" + "/" + "pdf" == "skills/pdf";
    }
  }

  /** `.` is its own slug, and so is the empty path. */
  lemma SlugDotAndEmpty()
    ensures Slug(".") == "."
    ensures Slug("") == ""
  {
    SplitName(".");
  }

  // ---------------------------------------------------------------------------
  // Assignment

  /** Mandatory skills are always assigned; any other is assigned when the
      user has an enabled toggle for it. */
  predicate Assigned(db: Db, user: Id, s: Skill) {
    s.kind == Mandatory || ((user, s.id) in db.toggles && db.toggles[(user, s.id)])
  }

  /** A listed skill with the user's status. */
  datatype Listed = Listed(skill: Skill, isAssigned: bool)

  /** The reply to a toggle. */
  datatype Toggled = Toggled(skillId: Id, enabled: bool)

  /** A route's reply, the tables after it, and the redeploy it attempted:
      `None` when none was due, `Some(ok)` with the attempt's outcome. */
  datatype Outcome<+T> = Outcome(reply: Reply<T>, db: Db, redeployed: Option<bool>)

  /** `INSERT ... ON CONFLICT(user_id, skill_id) DO UPDATE SET enabled = ?`. */
  function Upsert(db: Db, user: Id, skill: Id, enabled: bool): (r: Db)
    ensures r.skills == db.skills
    ensures (user, skill) in r.toggles && r.toggles[(user, skill)] == enabled
    ensures forall k | k != (user, skill) :: (k in r.toggles <==> k in db.toggles) && (k in db.toggles ==> r.toggles[k] == db.toggles[k])
  {
    db.(toggles := db.toggles[(user, skill) := enabled])
  }

  /** After an upsert, a non-mandatory skill is assigned exactly when the
      toggle was set on, and no other user's assignments move. */
  lemma UpsertAssigns(db: Db, user: Id, s: Skill, enabled: bool, other: Id, t: Skill)
    requires s.kind != Mandatory
    ensures Assigned(Upsert(db, user, s.id, enabled), user, s) == enabled
    ensures other != user ==> Assigned(Upsert(db, user, s.id, enabled), other, t) == Assigned(db, other, t)
  {
  }
}

=== FILE: super_admin.dfy ===
/** The platform operator's routes (apps/api/src/routes/super-admin.ts):
    a guard on the caller's email, organisation tier changes and deletion,
    and the access allowlist. */
module SuperAdmin {
  import opened Wrappers
  import opened Shared
  import opened JsText

  /** The caller's email and the configured `SUPER_ADMIN_EMAIL`; `None` is
      `undefined`. */
  datatype Access = Access(callerEmail: Option<string>, superAdminEmail: Option<string>)

  /** The guard compares the two with `!==`, so two absent values match. */
  predicate Admitted(a: Access) {
    a.callerEmail == a.superAdminEmail
  }

  datatype RuleType = Domain | Email

  function RuleTypeName(t: RuleType): string {
    match t
    case Domain => "domain"
    case Email => "email"
  }

  /** A row of `access_allowlist`; `created_at` is not modelled. */
  datatype AccessRule = AccessRule(id: Id, kind: RuleType, value: string)

  /** The `organizations` tiers and the `access_allowlist` rows, each keyed by
      id. */
  datatype Platform = Platform(orgs: map<Id, OrgTier>, rules: map<Id, AccessRule>)

  /** Work done outside the database, in order. */
  datatype Effect = DeleteGateways(org: Id) | PurgeOrg(org: Id)

  datatype AdminOutcome<+T> = AdminOutcome(reply: Reply<T>, platform: Platform, effects: seq<Effect>)

  /** The answer of the guard hook for a caller it turns away. */
  function Denied<T>(p: Platform): (r: AdminOutcome<T>)
    ensures r.reply.Err? && r.reply.status == 403 && r.platform == p && r.effects == []
  {
    AdminOutcome(Err(403, "forbidden", "Super admin only"), p, [])
  }

  /** With no super-admin email configured only a caller without an email
      passes; with one configured, only that exact email does. */
  lemma GuardExact(a: Access)
    ensures a.superAdminEmail.None? ==> (Admitted(a) <==> a.callerEmail.None?)
    ensures a.superAdminEmail.Some? ==> (Admitted(a) <==> a.callerEmail == Some(a.superAdminEmail.value))
  {
  }

  /** `GET /api/super-admin/check`: reachable only through the guard. */
  function CheckRoute(a: Access): (r: Reply<bool>)
    ensures r.Ok? <==> Admitted(a)
    ensures r.Ok? ==> r.data
    ensures r.Err? ==> r.status == 403
  {
    if !Admitted(a) then Err(403, "forbidden", "Super admin only") else Ok(200, true)
  }

  // ---------------------------------------------------------------------------
  // Organisations

  /** The tier names the route accepts. */
  const TierNames: seq<string> := ["free", "pro", "enterprise"]

  /** The route's whitelist names exactly the tiers of `OrgTier`. */
  lemma TierNamesAreTiers(s: string)
    ensures s in TierNames <==> ParseTier(s).Some?
    ensures forall t: OrgTier :: TierName(t) in TierNames
  {
  }

  datatype OrgRow = OrgRow(id: Id, tier: OrgTier)

  /** `PATCH /api/super-admin/orgs/:id/tier`. */
  function TierRoute(a: Access, p: Platform, id: Id, tier: Option<string>): (r: AdminOutcome<OrgRow>)
    ensures !Admitted(a) ==> r == Denied(p)
    ensures r.effects == []
    ensures r.reply.Err? ==> r.platform == p
    ensures Admitted(a) && (tier.None? || tier.value !in TierNames) ==> r.reply == Err(400, "validation", "Invalid tier")
    ensures Admitted(a) && tier.Some? && tier.value in TierNames && id !in p.orgs ==>
      r.reply == Err(404, "not_found", "Organization not found")
    ensures r.reply.Ok? <==> Admitted(a) && tier.Some? && ParseTier(tier.value).Some? && id in p.orgs
    ensures r.reply.Ok? ==>
      && r.reply.data == OrgRow(id, ParseTier(tier.value).value)
      && TierName(r.reply.data.tier) == tier.value
      && r.platform.rules == p.rules
      && r.platform.orgs.Keys == p.orgs.Keys
      && r.platform.orgs[id] == r.reply.data.tier
      && (forall o | o in p.orgs && o != id :: r.platform.orgs[o] == p.orgs[o])
  {
    if !Admitted(a) then Denied(p)
    else if tier.None? || tier.value !in TierNames then AdminOutcome(Err(400, "validation", "Invalid tier"), p, [])
    else if id !in p.orgs then AdminOutcome(Err(404, "not_found", "Organization not found"), p, [])
    else
      var t := ParseTier(tier.value).value;
      AdminOutcome(Ok(200, OrgRow(id, t)), p.(orgs := p.orgs[id := t]), [])
  }

  /** Setting a tier twice is the same as setting it once. */
  lemma TierIdempotent(a: Access, p: Platform, id: Id, tier: Option<string>)
    ensures var r := TierRoute(a, p, id, tier);
      TierRoute(a, r.platform, id, tier) == r
  {
  }

  /** `DELETE /api/super-admin/orgs/:id`: the gateways go first, then the
      organisation's data. */
  function DeleteOrgRoute(a: Access, p: Platform, id: Id): (r: AdminOutcome<bool>)
    ensures !Admitted(a) ==> r == Denied(p)
    ensures Admitted(a) && id !in p.orgs ==> r == AdminOutcome(Err(404, "not_found", "Organization not found"), p, [])
    ensures r.reply.Ok? <==> Admitted(a) && id in p.orgs
    ensures r.reply.Ok? ==>
      && r.reply == Ok(200, true)
      && r.effects == [DeleteGateways(id), PurgeOrg(id)]
      && r.platform.orgs.Keys == p.orgs.Keys - {id}
      && (forall o | o in r.platform.orgs :: r.platform.orgs[o] == p.orgs[o])
      && r.platform.rules == p.rules
  {
    if !Admitted(a) then Denied(p)
    else if id !in p.orgs then AdminOutcome(Err(404, "not_found", "Organization not found"), p, [])
    else AdminOutcome(Ok(200, true), p.(orgs := p.orgs - {id}), [DeleteGateways(id), PurgeOrg(id)])
  }

  /** A deleted organisation cannot be deleted again, and its tier can no
      longer be changed. */
  lemma DeleteOrgThenGone(a: Access, p: Platform, id: Id, tier: Option<string>)
    requires Admitted(a) && id in p.orgs
    ensures var q := DeleteOrgRoute(a, p, id).platform;
      && DeleteOrgRoute(a, q, id).reply.Err? && DeleteOrgRoute(a, q, id).reply.status == 404
      && !TierRoute(a, q, id, tier).reply.Ok?
  {
  }

  // ---------------------------------------------------------------------------
  // Access allowlist

  /** The value stored for a rule: `value.toLowerCase().trim()`. */
  function Normalize(value: string): (r: string)
    ensures r == Lower(Trim(value))
  {
    TrimLower(value);
    Trim(Lower(value))
  }

  /** Normalising a stored value changes nothing. */
  lemma NormalizeIdempotent(value: string)
    ensures Normalize(Normalize(value)) == Normalize(value)
  {
    var t := Trim(value);
    TrimLower(t);
    TrimIdempotent(value);
    LowerIdempotent(t);
    assert Normalize(Normalize(value)) == Lower(Trim(Lower(t)));
  }

  /** The store's unique constraint: `clash(old, new)` holds when inserting
      `new` next to `old` violates it. */
  type Clash = (AccessRule, AccessRule) -> bool

  /** The constraint covers the (type, value) pair: a second row with the
      same type and value always clashes. */
  ghost predicate CoversTypeAndValue(clash: Clash) {
    forall x: AccessRule, y: AccessRule :: x.kind == y.kind && x.value == y.value ==> clash(x, y)
  }

  predicate Violates(p: Platform, clash: Clash, rule: AccessRule) {
    exists id | id in p.rules :: clash(p.rules[id], rule)
  }

  /** `POST /api/super-admin/access-rules`; `id` is the fresh uuid. */
  function AddRuleRoute(a: Access, p: Platform, clash: Clash, kind: Option<string>, value: Option<string>, id: Id): (r: AdminOutcome<AccessRule>)
    requires id !in p.rules
    ensures !Admitted(a) ==> r == Denied(p)
    ensures r.effects == []
    ensures r.reply.Err? ==> r.platform == p
    ensures Admitted(a) && (!Truthy(kind) || !Truthy(value)) ==> r.reply == Err(400, "validation", "type and value are required")
    ensures Admitted(a) && Truthy(kind) && Truthy(value) && kind.value != "domain" && kind.value != "email" ==>
      r.reply == Err(400, "validation", "type must be \"domain\" or \"email\"")
    ensures r.reply.Ok? ==>
      && Admitted(a) && Truthy(kind) && Truthy(value)
      && RuleTypeName(r.reply.data.kind) == kind.value
      && r.reply.data == AccessRule(id, r.reply.data.kind, Normalize(value.value))
      && !Violates(p, clash, r.reply.data)
      && r.platform == p.(rules := p.rules[id := r.reply.data])
    ensures r.reply.Err? && r.reply.status == 409 ==> r.reply.message == "Rule already exists" && Violates(p, clash, AccessRule(id, if kind == Some("domain") then Domain else Email, Normalize(value.value)))
    ensures Admitted(a) && Truthy(kind) && Truthy(value) && (kind.value == "domain" || kind.value == "email") ==>
      var rule := AccessRule(id, if kind.value == "domain" then Domain else Email, Normalize(value.value));
      && (r.reply.Ok? <==> !Violates(p, clash, rule))
      && (Violates(p, clash, rule) ==> r.reply == Err(409, "conflict", "Rule already exists") && r.platform == p)
      && (!Violates(p, clash, rule) ==> r.reply == Ok(200, rule) && r.platform == p.(rules := p.rules[id := rule]))
  {
    if !Admitted(a) then Denied(p)
    else if !Truthy(kind) || !Truthy(value) then AdminOutcome(Err(400, "validation", "type and value are required"), p, [])
    else if kind.value != "domain" && kind.value != "email" then
      AdminOutcome(Err(400, "validation", "type must be \"domain\" or \"email\""), p, [])
    else
      var rule := AccessRule(id, if kind.value == "domain" then Domain else Email, Normalize(value.value));
      if Violates(p, clash, rule) then AdminOutcome(Err(409, "conflict", "Rule already exists"), p, [])
      else AdminOutcome(Ok(200, rule), p.(rules := p.rules[id := rule]), [])
  }

  /** Once a rule is stored, adding it again with any mix of case and
      surrounding whitespace is refused with 409 and stores nothing. */
  lemma AddTwiceConflicts(a: Access, p: Platform, clash: Clash, kind: string, value: string, value': string, id: Id, id': Id)
    requires CoversTypeAndValue(clash)
    requires id !in p.rules && id' !in p.rules && id' != id
    requires AddRuleRoute(a, p, clash, Some(kind), Some(value), id).reply.Ok?
    requires value' != "" && Normalize(value') == Normalize(value)
    ensures var q := AddRuleRoute(a, p, clash, Some(kind), Some(value), id).platform;
      var r := AddRuleRoute(a, q, clash, Some(kind), Some(value'), id');
      r.reply == Err(409, "conflict", "Rule already exists") && r.platform == q
  {
    var first := AddRuleRoute(a, p, clash, Some(kind), Some(value), id);
    var q := first.platform;
    var rule' := AccessRule(id', first.reply.data.kind, Normalize(value'));
    assert q.rules[id] == first.reply.data;
    assert clash(q.rules[id], rule');
    assert Violates(q, clash, rule');
  }

  /** A value of only whitespace passes the presence check and is stored as
      the empty string. */
  lemma BlankValueStoredEmpty(a: Access, p: Platform, clash: Clash, id: Id)
    requires Admitted(a) && id !in p.rules
    requires !Violates(p, clash, AccessRule(id, Email, ""))
    ensures AddRuleRoute(a, p, clash, Some("email"), Some(" "), id).reply == Ok(200, AccessRule(id, Email, ""))
  {
    assert IsWhitespace(' ');
    TrimEmpty(" ");
    assert Lower("") == "";
  }

  /** `DELETE /api/super-admin/access-rules/:id`. */
  function DeleteRuleRoute(a: Access, p: Platform, id: Id): (r: AdminOutcome<bool>)
    ensures !Admitted(a) ==> r == Denied(p)
    ensures Admitted(a) && id !in p.rules ==> r == AdminOutcome(Err(404, "not_found", "Rule not found"), p, [])
    ensures r.reply.Ok? <==> Admitted(a) && id in p.rules
    ensures r.reply.Ok? ==>
      && r.reply.data
      && r.platform.orgs == p.orgs
      && r.platform.rules.Keys == p.rules.Keys - {id}
      && (forall k | k in r.platform.rules :: r.platform.rules[k] == p.rules[k])
    ensures r.effects == []
  {
    if !Admitted(a) then Denied(p)
    else if id !in p.rules then AdminOutcome(Err(404, "not_found", "Rule not found"), p, [])
    else AdminOutcome(Ok(200, true), p.(rules := p.rules - {id}), [])
  }

  lemma RemoveAdded(p: Platform, id: Id, rule: AccessRule)
    requires id !in p.rules
    ensures p.(rules := p.rules[id := rule]).(rules := p.rules[id := rule] - {id}) == p
  {
    assert p.rules[id := rule] - {id} == p.rules;
  }

  /** Adding a rule and deleting it again restores the allowlist. */
  lemma AddThenDelete(a: Access, p: Platform, clash: Clash, kind: Option<string>, value: Option<string>, id: Id)
    requires id !in p.rules
    requires AddRuleRoute(a, p, clash, kind, value, id).reply.Ok?
    ensures DeleteRuleRoute(a, AddRuleRoute(a, p, clash, kind, value, id).platform, id).platform == p
  {
    var added := AddRuleRoute(a, p, clash, kind, value, id);
    RemoveAdded(p, id, added.reply.data);
  }
}

=== FILE: user_skills.dfy ===
/** The legacy per-user skill routes (apps/api/src/routes/user/skills.ts):
    the caller is named by the `x-user-id` header, there is no organisation
    filter, and the redeploy targets the user's own gateway. */
module UserSkills {
  import opened Wrappers
  import opened Shared
  import opened SkillRegistry

  /** The `users` table: each user's gateway columns. */
  type Users = map<Id, Gateway>

  /** `redeployGateway(userId)`: true when it returns, false when it throws. */
  type Redeployer = Id -> bool

  /** An admin-enabled skill, from any organisation or none. */
  predicate EnabledSkill(db: Db, id: Id) {
    id in db.skills && db.skills[id].enabled
  }

  /** The caller check both routes start with: 401 without a (non-empty)
      header, 404 for an unknown user. */
  function Caller(users: Users, header: Option<string>): (r: Result<Id, Reply<()>>)
    ensures !Truthy(header) ==> r == Failure(Err(401, "unauthorized", "Not authenticated"))
    ensures Truthy(header) && header.value !in users ==> r == Failure(Err(404, "not_found", "User not found"))
    ensures r.Success? <==> Truthy(header) && header.value in users
    ensures r.Success? ==> r.value == header.value
  {
    if !Truthy(header) then Failure(Err(401, "unauthorized", "Not authenticated"))
    else if header.value !in users then Failure(Err(404, "not_found", "User not found"))
    else Success(header.value)
  }

  /** `GET /api/me/skills`, keyed by skill id. */
  function ListRoute(db: Db, users: Users, header: Option<string>): (r: Reply<map<Id, Listed>>)
    ensures r.Err? <==> Caller(users, header).Failure?
    ensures r.Err? ==> r.status == Caller(users, header).error.status
    ensures r.Ok? ==>
      && (forall id :: id in r.data <==> EnabledSkill(db, id))
      && (forall id | id in r.data ::
           && id in db.skills && r.data[id].skill == db.skills[id]
           && var s := db.skills[id];
              r.data[id].isAssigned <==> s.kind == Mandatory || ((header.value, s.id) in db.toggles && db.toggles[(header.value, s.id)]))
  {
    match Caller(users, header)
    case Failure(e) => Err(e.status, e.error, e.message)
    case Success(user) =>
      Ok(200, map id | id in db.skills && EnabledSkill(db, id) :: Listed(db.skills[id], Assigned(db, user, db.skills[id])))
  }

  /** `POST /api/me/skills/:id`. */
  function ToggleRoute(db: Db, users: Users, header: Option<string>, id: Id, enabled: bool, redeploy: Redeployer): (r: Outcome<Toggled>)
    ensures Caller(users, header).Failure? ==> r.reply.Err? && r.reply.status == Caller(users, header).error.status
    ensures Caller(users, header).Success? && !EnabledSkill(db, id) ==> r.reply == Err(404, "not_found", "Skill not found")
    ensures Caller(users, header).Success? && EnabledSkill(db, id) && db.skills[id].kind == Mandatory ==>
      r.reply == Err(400, "validation", "Cannot toggle mandatory skills")
    ensures r.reply.Err? ==> r.db == db && r.redeployed.None?
    ensures r.reply.Ok? <==> Caller(users, header).Success? && EnabledSkill(db, id) && db.skills[id].kind != Mandatory
    ensures r.reply.Ok? ==>
      && r.reply == Ok(200, Toggled(id, enabled))
      && r.db == Upsert(db, header.value, id, enabled)
      && (r.redeployed.Some? <==> GatewayLive(users[header.value]))
  {
    match Caller(users, header)
    case Failure(e) => Outcome(Err(e.status, e.error, e.message), db, None)
    case Success(user) =>
      if !EnabledSkill(db, id) then Outcome(Err(404, "not_found", "Skill not found"), db, None)
      else if db.skills[id].kind == Mandatory then Outcome(Err(400, "validation", "Cannot toggle mandatory skills"), db, None)
      else
        var attempt := if GatewayLive(users[user]) then Some(redeploy(user)) else None;
        Outcome(Ok(200, Toggled(id, enabled)), Upsert(db, user, id, enabled), attempt)
  }

  /** A toggle shows up in the caller's listing. */
  lemma ToggleThenList(db: Db, users: Users, user: Id, id: Id, enabled: bool, redeploy: Redeployer)
    requires Keyed(db) && ToggleRoute(db, users, Some(user), id, enabled, redeploy).reply.Ok?
    ensures var db' := ToggleRoute(db, users, Some(user), id, enabled, redeploy).db;
      var after := ListRoute(db', users, Some(user));
      after.Ok? && id in after.data && after.data[id].isAssigned == enabled
  {
  }

  /** Nobody else's listing changes when a user toggles a skill. */
  lemma ToggleLeavesOthers(db: Db, users: Users, user: Id, id: Id, enabled: bool, redeploy: Redeployer, other: Id)
    requires ToggleRoute(db, users, Some(user), id, enabled, redeploy).reply.Ok? && other != user
    ensures var db' := ToggleRoute(db, users, Some(user), id, enabled, redeploy).db;
      ListRoute(db', users, Some(other)) == ListRoute(db, users, Some(other))
  {
    var db' := Upsert(db, user, id, enabled);
    assert db'.skills == db.skills;
    if other != "" && other in users {
      var l1 := ListRoute(db', users, Some(other)).data;
      var l2 := ListRoute(db, users, Some(other)).data;
      forall k | k in l1 ensures l1[k] == l2[k] {
        UpsertAssigns(db, user, db.skills[id], enabled, other, db.skills[k]);
      }
      assert l1 == l2;
    }
  }

  /** A failed redeploy is swallowed: the reply and the stored toggle do not
      depend on its outcome. */
  lemma RedeployFailureIgnored(db: Db, users: Users, header: Option<string>, id: Id, enabled: bool, ok: Redeployer, failing: Redeployer)
    ensures ToggleRoute(db, users, header, id, enabled, ok).reply == ToggleRoute(db, users, header, id, enabled, failing).reply
    ensures ToggleRoute(db, users, header, id, enabled, ok).db == ToggleRoute(db, users, header, id, enabled, failing).db
  {
  }
}

=== FILE: wrappers.dfy ===
/** Failure-carrying values shared by every module of the model, and the shape
    of an HTTP reply as the route handlers send it. */
module Wrappers {

  datatype Option<+T> = None | Some(value: T)

  datatype Result<+R, +E> = Success(value: R) | Failure(error: E)

  /** A JavaScript string field is truthy when it is present and non-empty
      (`!x` is true for `undefined`, `null` and `""`). */
  predicate Truthy(s: Option<string>) {
    s.Some? && s.value != ""
  }

  /** A route handler's answer: a status code with a `data` payload, or a
      status code with the `{error, message}` body the handlers send. */
  datatype Reply<+T> =
    | Ok(status: int, data: T)
    | Err(status: int, error: string, message: string)
  {
    predicate IsOk() { Ok? }
  }
}
